=== FILE: README.md ===
# CyberHash security platform — a Dafny model of its rules

CyberHash is a security dashboard. Its Go backend runs scanners, keeps an IP blocklist, screens requests, maps findings to compliance controls, runs response playbooks and phishing simulations. Its React frontend shows those results.

This project models the small rules in both halves that decide what the user sees:

- **Compliance.** The category-to-control table, and the page that joins finding tags onto controls.
- **Scoring and aggregation.** The dashboard statistics and security score, the dashboard's severity sort, top-five list and bounded message buffers, and the severity counters of the container and IaC scanners.
- **Analytics and scanners.** The UEBA risk thresholds and anomaly feed, the scan orchestrator's merge, and the dark-web and SCA scanners.
- **Stores and state machines.** The playbook engine, the user store, the IP blocklist with expiry, and the request-screening middleware.
- **Smaller frontend and backend rules.**
  - Tenant resolution.
  - The custom report layout.
  - Phishing campaigns.
  - The remediation engine's guards.
  - The WebSocket client's subscriber list and reconnect policy.
  - The navigation layout.
  - The threat-hunting chat.
  - The attack-path graph.

Every module is a set of immutable datatypes and pure functions; a stateful object becomes a value passed in and returned. Loops that the source writes as loops are Dafny methods proved equal to a recursive reference definition. Everything outside the program becomes a parameter:

- the clock (an integer instant);
- regular-expression matching (`matches(pattern, payload)`);
- bcrypt (`hash`, `verify`);
- a Trivy run (its decoded outcome);
- the language model (`llm: Prompt -> Reply`, where a prompt is the values the engine splices into its fixed wording);
- the file system (`read(dir, file)`);
- the HTTP replies a page receives.

Modules, one per source file: `ComplianceMapper`, `ComplianceView`, `DashboardStats`, `DashboardView`, `WebSocketClient`, `Automation`, `Orchestrator`, `DarkWeb`, `Sca`, `MonitorStore`, `SecurityMiddleware`, `Tenant`, `UserStore`, `TrivyTally` (shared by `ContainerScanner` and `IacScanner`), `Ueba`, `CustomReport`, `Phishing`, `AiEngine`, `Layout`, `ThreatHunting`, `ApmGraph`. The shared modules are `Wrappers` (Option, Result, Outcome), `Strings` (ASCII case mapping, search, first-index lookup, split, trim, decimal rendering) and `ScanTypes` (the scanner result records).

## Model

| member | source | states |
|---|---|---|
| ComplianceMapper.MapVulnerabilityMatchesTable | backend/internal/compliance/mapper.go:25-70 | The mapping equals a rule table read in order: SQL, XSS, SCA, AUTH, each appending its controls when the upper-cased category contains one of its two keywords, with the catch-all only when no rule fired. |
| ComplianceMapper.CaseInsensitive | backend/internal/compliance/mapper.go:27 | Upper- or lower-casing the category first never changes the result. |
| ComplianceMapper.SqlOnly | backend/internal/compliance/mapper.go:30-36 | A category hitting only the SQL rule gets exactly ISO A.14.1.2, NIST PR.IP-1 and PCI 6.5.1, in that order. |
| ComplianceMapper.XssOnly | backend/internal/compliance/mapper.go:38-43 | A category hitting only the XSS rule gets exactly ISO A.14.1.3 and PCI 6.5.7. |
| ComplianceMapper.CollectRules | backend/internal/compliance/mapper.go:30-59 | Fired rules contribute their controls concatenated in the fixed order SQL, XSS, SCA, AUTH. |
| ComplianceMapper.CatchAllIffNoRule | backend/internal/compliance/mapper.go:61-67 | Each catch-all entry is present exactly when no rule fired, and then it is the whole result. |
| ComplianceMapper.RuleWitnesses | backend/internal/compliance/mapper.go:30-59 | For each rule, one of its controls is in the result exactly when that rule fired. |
| ComplianceMapper.InAssemble | backend/internal/compliance/mapper.go:30-67 | An entry is in the result exactly when a rule that fired lists it, or when no rule fired and the catch-all lists it. |
| ComplianceMapper.EntriesComeFromFiredRules | backend/internal/compliance/mapper.go:30-67 | Every entry of the result belongs to a rule that fired, or to the catch-all when none did. |
| ComplianceMapper.AssembleBounds | backend/internal/compliance/mapper.go:25-70 | The result is never empty and has at most 11 entries. |
| ComplianceView.TagStandardIsPrefix | frontend/src/pages/CompliancePage.tsx:73 | A tag holding ": " names as standard the text before the first separator, and it has a control part. |
| ComplianceView.TagWithoutSeparator | frontend/src/pages/CompliancePage.tsx:73-77 | A tag without ": " matches no control of any standard. |
| Strings.FirstIndex | frontend/src/pages/CompliancePage.tsx:75-77 | Both lookups of the join, the standard by name and then its control by id, as a search over the keys in order. It gives the first index holding the key, no earlier index holds it, and it gives none exactly when no index does. |
| ComplianceView.WellFormedInitial | frontend/src/pages/CompliancePage.tsx:37-65 | The initial standards have distinct names and, within each, distinct control ids. |
| ComplianceView.ApplyTagEffect | frontend/src/pages/CompliancePage.tsx:73-81 | One tag appends the finding to exactly the control whose standard and id both match and leaves every other control as it was; the shape is unchanged. |
| ComplianceView.ApplyTagsEffect | frontend/src/pages/CompliancePage.tsx:71-83 | All tags of one finding append it to each control once per matching tag. |
| ComplianceView.ApplyVulnsEffect | frontend/src/pages/CompliancePage.tsx:70-85 | After the whole loop each control holds exactly its matching findings, in order, duplicates counted once per matching tag. |
| ComplianceView.MatchingIssuesLength | frontend/src/pages/CompliancePage.tsx:70-85 | A control's issue count equals the number of matching (finding, tag) pairs. |
| ComplianceView.LoadWithoutScans | frontend/src/pages/CompliancePage.tsx:26-30 | A failed or empty history leaves the standards list empty and clears loading. |
| ComplianceView.OnlyFirstScanUsed | frontend/src/pages/CompliancePage.tsx:33 | Scans after the first one do not affect the page. |
| ComplianceView.MissingFindingsAllPass | frontend/src/pages/CompliancePage.tsx:34-65 | A first scan with no or empty findings leaves every control passing with no issues. |
| ComplianceView.LoadJoin | frontend/src/pages/CompliancePage.tsx:24-93 | After loading, each control holds the first scan's matching findings, and it fails exactly when there is at least one. |
| ComplianceView.JoinFromClear | frontend/src/pages/CompliancePage.tsx:69-85 | On any distinctly named standards whose controls all pass with no issues, the join keeps every name, id and description, gives each control exactly the findings tagged with its standard and id, and fails it exactly when there is one. |
| ComplianceView.StatusMonotone | frontend/src/pages/CompliancePage.tsx:79 | The loop never turns a failed control back to passing and never drops an issue. |
| ComplianceView.CompliantIff | frontend/src/pages/CompliancePage.tsx:126 | A standard shows as compliant exactly when none of its controls has a matching finding. |
| DashboardStats.Score | backend/internal/api/server.go:869-873 | The score is never negative; it is 0 exactly when the weighted sum reaches 100, otherwise it is 100 minus that sum; it is at most 100 for non-negative sums. |
| DashboardStats.ComputeStats | backend/internal/api/server.go:852-873 | The counting loops equal the reference statistics of all findings of all scans; the severity counters sum to at most the total; the score lies in 0..100. |
| DashboardStats.GetDashboardStats | backend/internal/api/server.go:836-876 | A history error gives 500 "Failed to get history" and no stats; otherwise 200 with the statistics. |
| DashboardStats.SeverityCountsBounded | backend/internal/api/server.go:855-864 | Critical + High + Medium + Low never exceeds the number of findings. |
| DashboardStats.AddingFindingNeverRaisesScore | backend/internal/api/server.go:852-873 | One more finding adds one to the total and never raises the score. |
| DashboardStats.UnrankedSeverityOnlyCounts | backend/internal/api/server.go:855-864 | A finding with any other severity changes only the total. |
| DashboardStats.CriticalCostsTen | backend/internal/api/server.go:869-873 | A critical finding lowers the score by 10, down to 0. |
| DashboardStats.EmptyHistoryPerfect | backend/internal/api/server.go:852-873 | No scans give zero counts and score 100. |
| DashboardStats.RouteTestMessage | backend/internal/api/server.go:723-734 | The channel is the one the type names, or Slack for any type other than "Jira" and "Teams". |
| DashboardStats.RouteNameRoundTrip | backend/internal/api/server.go:723-734 | Each channel's own name routes back to that channel. |
| DashboardStats.RouteFallback | backend/internal/api/server.go:731-733 | Slack is chosen exactly when the type is neither "Jira" nor "Teams". |
| DashboardView.Push | frontend/src/pages/Dashboard.tsx:16 | The new item goes to the front, the old items follow in order, and at most `cap` are kept. |
| DashboardView.FeedKeepsNewest | frontend/src/pages/Dashboard.tsx:16 | After any stream of messages the buffer holds the newest ones, newest first, at most the capacity. |
| DashboardView.LogEffectAsWritten | frontend/src/pages/Dashboard.tsx:60-64 | As written, the log prepends the last element of the newest-first message list. |
| DashboardView.LogRepeatsOldest | frontend/src/pages/Dashboard.tsx:16-64 | As written, two different messages m1 then m2 leave the log [m1, m1]. |
| DashboardView.LogEffect | frontend/src/pages/Dashboard.tsx:60-64 | Corrected: the log prepends the newest message and keeps 1..10 entries. |
| DashboardView.ReceiveAllKeepsNewest | frontend/src/pages/Dashboard.tsx:16-64 | Corrected: after any stream both buffers hold the newest messages, newest first, at most 50 and 10 of them. |
| DashboardView.ReceiveAllIsFeed | frontend/src/pages/Dashboard.tsx:16-64 | Corrected: both buffers agree with the reference newest-first feed of the stream. |
| DashboardView.RankLevels | frontend/src/pages/Dashboard.tsx:49-50 | Critical, High, Medium and Low rank 0..3, and every other severity that is not an Object.prototype member ranks 4. |
| DashboardView.SortCorrect | frontend/src/pages/Dashboard.tsx:49-50 | The sort orders by rank, is a permutation, and keeps the input order within each rank, as a stable sort does. |
| DashboardView.FlatMapSkipsEmpty | frontend/src/pages/Dashboard.tsx:47 | A scan without findings, missing or empty, contributes none. |
| DashboardView.TopFive | frontend/src/pages/Dashboard.tsx:51 | The top list has min(5, n) entries and is a prefix of the sorted findings. |
| DashboardView.TopFiveOutranksRest | frontend/src/pages/Dashboard.tsx:49-51 | No finding left out of the top list outranks one in it. |
| DashboardView.FetchData | frontend/src/pages/Dashboard.tsx:38-58 | A stats failure changes nothing; the top list is replaced only when the history has at least one scan. |
| WebSocketClient.Subscribe | frontend/src/services/websocket.ts:45-46 | The handler is appended after the existing ones. |
| WebSocketClient.Unsubscribe | frontend/src/services/websocket.ts:47-49 | Every occurrence of the handler is removed and every other handler keeps its multiplicity. |
| WebSocketClient.UnsubscribeAppend | frontend/src/services/websocket.ts:48 | Removal works piecewise, so the other handlers keep their order. |
| WebSocketClient.SubscribeUnsubscribeRoundTrip | frontend/src/services/websocket.ts:45-49 | Subscribing a new handler and then unsubscribing it restores the list. |
| WebSocketClient.UnsubscribeRemovesAll | frontend/src/services/websocket.ts:47-49 | A handler subscribed twice is gone after one unsubscribe. |
| WebSocketClient.UnsubscribeIdempotent | frontend/src/services/websocket.ts:47-49 | Unsubscribing twice is the same as once. |
| WebSocketClient.Notify | frontend/src/services/websocket.ts:52-54 | The handlers of the list are called in order, each once, even when handlers subscribe or unsubscribe during delivery. Delivery ends at the first handler that throws, which is still called; the call raises exactly when some handler throws. The list ends up with the reached handlers' changes applied in order. |
| WebSocketClient.ReachedShape | frontend/src/services/websocket.ts:53 | The reached handlers are a prefix of the list; none but the last throws; the walk stops short only at a thrower. |
| WebSocketClient.ReachedPast | frontend/src/services/websocket.ts:53 | Past any run of handlers that do not throw, delivery goes on with the rest of the list. |
| WebSocketClient.NoThrowReachesAll | frontend/src/services/websocket.ts:53 | When no handler throws, every handler is reached. |
| WebSocketClient.ReachedStops | frontend/src/services/websocket.ts:53 | Delivery ends right after the first handler that throws. |
| WebSocketClient.OnMessage | frontend/src/services/websocket.ts:25-32 | A malformed frame reaches no handler and leaves the list alone. A parsed one is delivered up to the first handler that throws, and to every handler when none throws. The exception is caught and logged, so nothing escapes. |
| WebSocketClient.Step | frontend/src/services/websocket.ts:34-42 | A close schedules one reconnect; an error neither schedules nor opens anything itself; a due timer opens one new socket. |
| WebSocketClient.EveryCloseReconnectsOnce | frontend/src/services/websocket.ts:34-37 | Over any run of events, the pending and completed reconnects together equal the number of closes, with no retry limit. |
| WebSocketClient.ErrorThenCloseReconnects | frontend/src/services/websocket.ts:39-42 | An error followed by its close schedules exactly one reconnect, which opens one socket. |
| WebSocketClient.OnConnectionEvent | frontend/src/services/websocket.ts:18-43 | Connection events never touch the subscriber list. |
| Automation.NewEngine | backend/internal/automation/engine.go:40-66 | The engine starts with pb-001 and pb-002, both enabled and never run. |
| Automation.Find | backend/internal/automation/engine.go:74-75 | Finds the first playbook with the id, or proves there is none. |
| Automation.FirewallCommand | backend/internal/automation/engine.go:104-111 | Linux runs iptables -A INPUT -s ip -j DROP. Windows runs netsh advfirewall firewall add rule, with a rule name holding the ip, dir=in, action=block and remoteip=ip. |
| Automation.ExecuteAction | backend/internal/automation/engine.go:97-124 | An empty ip fails "missing ip param" before any command. Otherwise BlockIP runs the OS's firewall command and returns its outcome. SendAlert without integrations fails; with them it sends "Playbook Triggered: " and the channel, and returns the send's outcome. LogEvent logs the level and succeeds. An unknown type fails. |
| Automation.RefusedActionsAskNothing | backend/internal/automation/engine.go:97-124 | An action asks the outside world for nothing exactly when it is refused before any call: no ip, no integrations, or an unknown type. Such a refusal is a failure, and neither it nor a LogEvent depends on what the outside world answers. |
| Automation.RunPlaybook | backend/internal/automation/engine.go:73-95 | An unknown id fails "playbook not found" and a disabled one fails "playbook is disabled"; both change nothing and ask for no effect. An enabled one gets its LastRun set and succeeds whatever its actions do. Its effects are exactly those of its actions run in order. |
| Automation.RunActionsAppend | backend/internal/automation/engine.go:84-90 | Running two lists of actions one after the other asks for the effects of the first list, then those of the second. |
| Automation.ActionRunsWhateverPrecedes | backend/internal/automation/engine.go:84-90 | Every action contributes exactly its own effects at its place in the order, whatever the actions before it did: a failing action never stops the ones after it. |
| Automation.RunAsksEveryAction | backend/internal/automation/engine.go:73-91 | A run of an enabled playbook asks for the effects of each of its actions, at the offset where the effects of the actions before it end. |
| Automation.TogglePlaybook | backend/internal/automation/engine.go:126-134 | An unknown id errors; otherwise only the first matching playbook's enabled flag flips. |
| Automation.ToggleTwiceIdentity | backend/internal/automation/engine.go:126-134 | Toggling twice restores the engine. |
| Automation.ToggleThenRunRefuses | backend/internal/automation/engine.go:76-134 | Disabling a playbook makes the next run refuse it and leave LastRun as is. |
| Automation.RunIgnoresActionOutcomes | backend/internal/automation/engine.go:84-91 | The run's verdict and new state do not depend on how the actions end. |
| Automation.SeedRunBlocksDemoAddress | backend/internal/automation/engine.go:44-91 | Running pb-001 on Linux blocks 192.168.1.100, logs WARN, and stamps only pb-001. |
| Orchestrator.FirstError | backend/internal/scanner/orchestrator.go:43-47 | There is no error exactly when every scanner started, and a reported error is one of theirs. |
| Orchestrator.Start | backend/internal/scanner/orchestrator.go:24-62 | It fails with the first scanner error whenever one failed to start; with no scanners it cannot pick an id; a failed insert of the record makes it fail; on success the id is the first scanner's and a "queued" record is stored under it. |
| Orchestrator.GetStatus | backend/internal/scanner/orchestrator.go:64-76 | The reply is the first scanner's, or ("unknown", 0) with no scanners; the stored status follows it only on success. |
| Orchestrator.StatusOnlyFromFirst | backend/internal/scanner/orchestrator.go:65-73 | The other scanners' replies never matter. |
| Orchestrator.GetResults | backend/internal/scanner/orchestrator.go:78-113 | An unknown record errors; otherwise the findings of the answering scanners are concatenated in order, the status is "running" exactly when one of them runs and "completed" otherwise, and the record is saved with them. |
| Orchestrator.MergedLength | backend/internal/scanner/orchestrator.go:82-91 | The merged list is as long as the answering scanners' findings together. |
| Orchestrator.FailedScannerSkipped | backend/internal/scanner/orchestrator.go:83-86 | A scanner that fails to answer changes neither the findings nor the status. |
| Orchestrator.TwoScannersTwoFindings | backend/internal/scanner/orchestrator_test.go:45-58 | Two scanners with one finding each merge into two findings. |
| DarkWeb.Breaches | backend/internal/scanner/darkweb.go:31-40 | The lower-cased target is looked up first; failing that, a target with "@" whose segment after the first "@" is example.com is exposed; nothing else is. |
| DarkWeb.Finding | backend/internal/scanner/darkweb.go:42-59 | A found target gives one Critical "Credentials Found in Breach"; any other gives one Info "No Leaks Found". |
| DarkWeb.Start | backend/internal/scanner/darkweb.go:26-71 | A "completed" record holding that one finding is stored under darkweb-<seconds>; other records are untouched. |
| DarkWeb.GetStatus | backend/internal/scanner/darkweb.go:75-80 | ("completed", 100) for a known id, ("unknown", 0) otherwise. |
| DarkWeb.GetResults | backend/internal/scanner/darkweb.go:82-87 | The stored record for a known id, "scan not found" otherwise. |
| DarkWeb.StartThenQuery | backend/internal/scanner/darkweb.go:26-87 | A started scan is at once completed and returns its single finding. |
| DarkWeb.AddressLookupIgnoresCase | backend/internal/scanner/darkweb.go:31 | A known address is found in any letter case. |
| DarkWeb.DomainFallback | backend/internal/scanner/darkweb.go:34-40 | For an unknown address local@domain, it is exposed exactly when the domain is example.com. |
| DarkWeb.NoAtSignNoDomainFallback | backend/internal/scanner/darkweb.go:34-59 | An unknown target without "@" reports no leaks. |
| Sca.Start | backend/internal/scanner/sca.go:26-42 | A record under sca-<nanoseconds> with status "running", type "SCA", the target and no findings; other records are untouched. |
| Sca.RealPath | backend/internal/scanner/sca.go:51-55 | "http://localhost:8080" and "localhost" map to "."; any other target is used unchanged. |
| Sca.FoundFiles | backend/internal/scanner/sca.go:48-61 | Only manifests that could be read are analysed, with their contents. |
| Sca.FileFindings | backend/internal/scanner/sca.go:64-87 | A file yields one finding exactly when there is an engine and its analysis succeeds with text that is neither empty nor the all-clear answer. |
| Sca.ScaFinding | backend/internal/scanner/sca.go:77-86 | The finding is High, category SCA, titled after the file, carrying the analysis. |
| Sca.AnalyzeFiles | backend/internal/scanner/sca.go:64-88 | The loop collects exactly the per-file findings, in file order. |
| Sca.RunScan | backend/internal/scanner/sca.go:44-102 | A missing record is left alone; otherwise it becomes "completed" and receives the findings. |
| Sca.GetStatus | backend/internal/scanner/sca.go:104-115 | An unknown scan gives ("unknown", 0, "scan not found"); otherwise the progress is 100 exactly when the status is "completed" and 0 otherwise. |
| Sca.GetResults | backend/internal/scanner/sca.go:117-123 | The stored record, or "scan not found". |
| Sca.FindingsShape | backend/internal/scanner/sca.go:77-87 | Every finding is High and SCA, at most one per file. |
| Sca.NoEngineNoFindings | backend/internal/scanner/sca.go:65-68 | Without an engine no file yields a finding. |
| Sca.AllClearRecordsNothing | backend/internal/scanner/sca.go:77 | An all-clear or empty answer records nothing. |
| Sca.ScanLifecycle | backend/internal/scanner/sca.go:26-123 | A new scan reads ("running", 0); after the run it reads ("completed", 100) and its results are the run's findings. |
| MonitorStore.CreateSecurityLog | backend/internal/database/monitor.go:20-22 | The entry is appended and the blocklist is untouched. |
| MonitorStore.GetSecurityLogs | backend/internal/database/monitor.go:25-29 | The logs are read newest first, min(limit, n) of them; a negative limit means no limit. |
| MonitorStore.NewestLogFirst | backend/internal/database/monitor.go:20-29 | The entry written last is read back first. |
| MonitorStore.BlockIP | backend/internal/database/monitor.go:32-47 | A positive duration expires at now + duration and any other is permanent; the insert fails on the unique address index when a row, live or soft-deleted, already exists. |
| MonitorStore.UnblockIPAsWritten | backend/internal/database/monitor.go:50-52 | As written: the row is soft-deleted, so the address stays in the unique index. |
| MonitorStore.UnblockIP | backend/internal/database/monitor.go:50-52 | Corrected: the address's row is removed outright and nothing else changes. |
| MonitorStore.IsIPBlockedAsWritten | backend/internal/database/monitor.go:55-73 | As written: the verdict of IsIPBlocked, with the expiry clean-up done by the soft delete. |
| MonitorStore.IsIPBlocked | backend/internal/database/monitor.go:55-73 | No row means false; a row that expired strictly before now means false and the row is removed; a permanent or live row means true. |
| MonitorStore.GetBlockedIPs | backend/internal/database/monitor.go:76-80 | Every live row, expired or not. |
| MonitorStore.ListingAgreesWithLookup | backend/internal/database/monitor.go:55-80 | A blocked address is listed; after a lookup it stays listed exactly when it is blocked, and other rows stay listed. |
| MonitorStore.BlockLifetime | backend/internal/database/monitor.go:32-73 | A block for a positive duration holds up to its expiry instant and lapses right after; any other block never lapses. |
| MonitorStore.IntendedOperationsKeepNoTombstones | backend/internal/database/monitor.go:32-73 | With the corrected delete, blocking fails exactly when the address is already blocked. |
| MonitorStore.LapsedBlockCannotBeRenewed | backend/internal/database/monitor.go:32-73 | As written: once a lapsed block is cleaned up, blocking the address again fails on the unique index and it stays unblocked. |
| MonitorStore.LapsedBlockRenewable | backend/internal/database/monitor.go:32-73 | Corrected: after the clean-up the address can be blocked afresh and the block is in force. |
| MonitorStore.UnblockLifts | backend/internal/database/monitor.go:50-73 | Unblocking lifts the block at once. |
| SecurityMiddleware.FirstMatch | backend/internal/middleware/monitor.go:61-77 | Finds the first matching pattern of a list, and finds one exactly when some pattern matches. |
| SecurityMiddleware.Analyze | backend/internal/middleware/monitor.go:56-78 | A SQL-injection match gives (50, "SQL Injection"); otherwise an XSS match gives (30, "XSS"); otherwise (0, "None"). |
| SecurityMiddleware.HandleAsWritten | backend/internal/middleware/monitor.go:30-106 | As written, with the store's soft-deleting lookup. A blocked address outside the bypass gets 403 and nothing else happens. The request proceeds exactly when it passed that gate and no SQL-injection pattern matched. Every 403 carries one of the two error messages. |
| SecurityMiddleware.Handle | backend/internal/middleware/monitor.go:30-106 | Corrected: the same gate, verdict and messages, over the lookup that removes a lapsed row outright. |
| SecurityMiddleware.AutoBlockAsWritten | backend/internal/middleware/monitor.go:37-87 | As written: a SQL-injection attempt from an unblocked address is refused. It blocks the address for the next 24 hours exactly when the store held no row for it, live or soft-deleted. |
| SecurityMiddleware.LapsedAttackerReadmitted | backend/internal/middleware/monitor.go:37-87 | As written: an attack from an address whose block has lapsed is refused but does not block it again, so a harmless follow-up from it passes the gate. |
| SecurityMiddleware.AdmittedRequestLoggedOnce | backend/internal/middleware/monitor.go:80-98 | With either lookup, every admitted request is logged exactly once with its payload, score, type and verdict, and a refused one is not logged. |
| SecurityMiddleware.ScoreLevels | backend/internal/middleware/monitor.go:61-83 | The score is 0, 30 or 50, and it reaches 50 exactly on a SQL-injection match. |
| SecurityMiddleware.AttackBlocksFollowUps | backend/internal/middleware/monitor.go:37-87 | Corrected: in a store without soft-deleted rows, a SQL-injection attempt is refused and blocks its address, even one whose earlier block lapsed. Any request from it within 24 hours outside the bypass is then refused. |
| SecurityMiddleware.BypassIgnoresBlocklist | backend/internal/middleware/monitor.go:37 | With either lookup, monitor endpoints and loopback addresses are never refused for their address. |
| SecurityMiddleware.ApostropheIsAnAttack | backend/internal/middleware/monitor.go:18-87 | The first pattern is read as "contains %27, ' or --". Any payload holding an apostrophe, from an unblocked address, is then refused. As written the address is blocked exactly when it had no row before; corrected, in a store without soft-deleted rows, it is always blocked. |
| Tenant.HandleTenant | backend/internal/middleware/tenant.go:8-22 | A non-empty header is used verbatim; a missing or empty one gives "org_default"; the org is never empty and the request always proceeds. |
| Tenant.TenantResolveIdempotent | backend/internal/middleware/tenant.go:11-18 | Resolving a resolved org again gives the same context. |
| UserStore.NewUserStore | backend/internal/auth/user.go:26-30 | A new store is empty. |
| UserStore.Create | backend/internal/auth/user.go:32-55 | An existing email fails "user already exists"; a hash failure is passed on; success adds exactly one user under the email, with id = email and the stored hash; any failure leaves the store unchanged. |
| UserStore.Authenticate | backend/internal/auth/user.go:57-71 | Success exactly when the email is known and the password verifies against its hash; every failure is "invalid credentials". |
| UserStore.CreateThenAuthenticate | backend/internal/auth/user.go:40-70 | A created user signs in with the same password. |
| UserStore.CreateKeepsOthers | backend/internal/auth/user.go:45-53 | Creating a user never changes another email's sign-in. |
| UserStore.FailuresIndistinguishable | backend/internal/auth/user.go:61-68 | An unknown email and a wrong password give the same error. |
| UserStore.DuplicateRefused | backend/internal/auth/user.go:36-38 | A second creation with the same email fails and changes nothing. |
| TrivyTally.Bump | backend/internal/container/scanner.go:79-89 | Each finding adds one to the total, and one to a severity counter only for the four exact upper-case names. |
| TrivyTally.TallyBounded | backend/internal/container/scanner.go:76-91 | The four counters together never exceed the total. |
| TrivyTally.UnrankedCountsOnlyInTotal | backend/internal/container/scanner.go:80-89 | Any other severity name counts only towards the total. |
| TrivyTally.CountSeverities | backend/internal/container/scanner.go:77-91 | The nested loop equals the reference tally of all findings of all results. |
| ContainerScanner.ScanImage | backend/internal/container/scanner.go:47-98 | It appends exactly one scan under scan-<nanoseconds>: on a Trivy failure "Failed (Mock Fallback)" with 12/2/4/6/0; on undecodable output "Parse Error" with zero counts; otherwise "Completed" with the tally. |
| ContainerScanner.CompletedCountsBounded | backend/internal/container/scanner.go:76-91 | A completed scan's severity counters never exceed its total. |
| IacScanner.CountFailures | backend/internal/iac/scanner.go:74-90 | The nested loop equals the reference tally of the failed checks only. |
| IacScanner.ScanPath | backend/internal/iac/scanner.go:47-97 | It appends exactly one scan under iac-<seconds>: fallback 5 issues, 2 high, 3 medium; "Parse Error" with zero counts; or "Completed" with the tally of failed checks. |
| IacScanner.PassingCheckIgnored | backend/internal/iac/scanner.go:76 | A check whose status is not "FAIL" never counts. |
| IacScanner.IssuesAreFailures | backend/internal/iac/scanner.go:76-88 | The issue count is at most the number of checks, and the four counters never exceed it. |
| Ueba.BehaviourStatus | backend/internal/ueba/engine.go:51-55 | "High Risk" exactly above 80, "Suspicious" exactly in 51..80, "Normal" exactly at 50 or below. |
| Ueba.SimulatedBehaviour | backend/internal/ueba/engine.go:44-55 | A simulated record carries user-<n>, the drawn score, the status that score earns, and now. |
| Ueba.Risky | backend/internal/ueba/engine.go:64 | Only non-Normal rows are kept, each taken from the table, and every non-Normal row is kept as often as the table holds it. |
| Ueba.SortByRecencyCorrect | backend/internal/ueba/engine.go:64 | The recency sort orders newest first and is a permutation. |
| Ueba.FeedRowsAreNewestRisky | backend/internal/ueba/engine.go:64 | The feed holds min(10, risky) rows, newest first, all non-Normal and from the table, none older than a risky row left out. |
| Ueba.ToAnomaly | backend/internal/ueba/engine.go:68-82 | High with "Critical risk behavior detected" exactly above 80, Medium with "Unusual activity detected" otherwise; the type is the status and the id is anom-<row id>. |
| Ueba.GetAnomalies | backend/internal/ueba/engine.go:62-89 | Never empty; the placeholder alone exactly when no row is risky; otherwise one anomaly per feed row, in feed order. |
| Ueba.AnomalySeverities | backend/internal/ueba/engine.go:68-87 | Apart from the placeholder, an anomaly is High or Medium. |
| CustomReport.GenerateCustomReport | backend/internal/reporting/custom.go:26-47 | It never fails, and the content starts with the title and generation lines. |
| CustomReport.ReportLines | backend/internal/reporting/custom.go:30-44 | Split into lines, the report is the header, then the vulnerability count and one line per finding exactly when vulnerabilities are included, then the asset count and one line per asset exactly when cloud is included. Each part keeps input order. |
| CustomReport.ContentIsLines | backend/internal/reporting/custom.go:30-44 | The content is the expected line list joined with newlines. |
| CustomReport.LogsAndFormatIgnored | backend/internal/reporting/custom.go:26-46 | IncludeLogs and Format never change the content. |
| CustomReport.HeaderOnly | backend/internal/reporting/custom.go:30-46 | With neither section included, the content is the header alone. |
| Phishing.SeedTemplates | backend/internal/phishing/campaign.go:32-43 | An empty table receives the three stock templates; a filled one is left as is. |
| Phishing.SeedOnce | backend/internal/phishing/campaign.go:32-43 | Seeding twice adds nothing. |
| Phishing.TemplatesListing | backend/internal/phishing/campaign.go:26-78 | A fresh table lists the stock templates, a filled one lists itself, and creating campaigns never changes the listing. |
| Phishing.NewCampaign | backend/internal/phishing/campaign.go:45-56 | A new campaign has 0 sent, 0 clicks, status "Running" and the requested target count. |
| Phishing.Complete | backend/internal/phishing/campaign.go:65-69 | Completion sets sent = target and status "Completed", keeping the clicks. |
| Phishing.CreateCampaignAsWritten | backend/internal/phishing/campaign.go:45-72 | As written: the campaign is returned and the registry is untouched. |
| Phishing.CreateCampaign | backend/internal/phishing/campaign.go:45-82 | Corrected: the campaign is also registered under its id. |
| Phishing.SimulateClick | backend/internal/phishing/campaign.go:92-98 | A known id gets one more click and true; an unknown id gives false and changes nothing. |
| Phishing.GetCampaigns | backend/internal/phishing/campaign.go:84-90 | Exactly the registered campaigns. |
| Phishing.CreatedCampaignUnreachable | backend/internal/phishing/campaign.go:45-98 | As written: a created campaign is neither listed nor clickable. |
| Phishing.CreatedCampaignReachable | backend/internal/phishing/campaign.go:45-98 | Corrected: a created campaign is listed; a click counts once; completion keeps the click. |
| Phishing.ClickIsolated | backend/internal/phishing/campaign.go:92-98 | A click on one campaign leaves the others as they were. |
| AiEngine.CollectText | backend/internal/ai/engine.go:66-71 | The builder loop yields the concatenated text parts of the first candidate. |
| AiEngine.ReplyText | backend/internal/ai/engine.go:56-71 | An API error is wrapped; a reply without candidates or parts is "no response from gemini"; otherwise the text of the first candidate. |
| AiEngine.GenerateFix | backend/internal/ai/engine.go:39-74 | Without a client it fails "gemini client not initialized"; otherwise it gives the reply handling of the model's answer. |
| AiEngine.AnalyzeDependencies | backend/internal/ai/engine.go:77-109 | The same guard and reply handling for the dependency prompt. |
| AiEngine.FixPromptCarries | backend/internal/ai/engine.go:45-53 | The fix prompt's text holds the title, the description and the technology stack verbatim, in that order, each right after its fixed heading. |
| AiEngine.DependencyPromptCarries | backend/internal/ai/engine.go:82-90 | The dependency prompt's text holds the file name and then the whole file content verbatim, each after its fixed wording. |
| AiEngine.NoClientNoCall | backend/internal/ai/engine.go:40-80 | Without a client the answer does not depend on the model. |
| AiEngine.AnswerIsFirstCandidateText | backend/internal/ai/engine.go:61-71 | Later candidates and non-text parts are dropped. |
| AiEngine.EmptyAnswerIsError | backend/internal/ai/engine.go:97-99 | No candidates, or a candidate without parts, is an error. |
| AiEngine.AnalyzeCode | backend/internal/ai/engine.go:112-117 | Never an error; exactly one critical eval() warning when the snippet contains "eval(", none otherwise. |
| AiEngine.EmbeddedEvalFlagged | backend/internal/ai/engine.go:112-117 | A call of eval anywhere in a snippet is reported. |
| AiEngine.CreateFixPR | backend/internal/ai/engine.go:120-130 | Never an error; the link starts with https://github.com/ followed by the repository. |
| AiEngine.PrUrlNamesRepo | backend/internal/ai/engine.go:126-129 | The link reads back as its repository, and every well-formed link is the link of the repository it names. |
| AiEngine.PrUrlInjective | backend/internal/ai/engine.go:126-129 | Different repositories get different links. |
| Layout.NavPathsDistinct | frontend/src/components/Layout.tsx:67-148 | The navigation paths, used as keys, are pairwise distinct. |
| Layout.ActiveItems | frontend/src/components/Layout.tsx:144-145 | An item is active exactly when the pathname equals its path; at most one is; none exactly when no path matches. |
| Layout.OwnPageHighlightsItself | frontend/src/components/Layout.tsx:145 | On an item's own path, that item and only it is active. |
| Layout.Breadcrumb | frontend/src/components/Layout.tsx:176 | "/" shows "Dashboard"; any other path shows itself without its first character, with only the first '-' turned into a space. |
| Layout.OnlyFirstHyphenReplaced | frontend/src/components/Layout.tsx:176 | "/a-b", with no hyphen in a, shows "a b", keeping any later hyphens in b. |
| Layout.NoHyphenShownAsIs | frontend/src/components/Layout.tsx:176 | A path without hyphens shows as itself without the slash. |
| ThreatHunting.Initial | frontend/src/pages/ThreatHuntingPage.tsx:11-15 | The page opens with one model welcome message, empty input, not loading. |
| ThreatHunting.BeginSend | frontend/src/pages/ThreatHuntingPage.tsx:26-42 | It is ignored exactly when the trimmed input is empty or a request is loading; otherwise it appends the user message, clears the input, sets loading, and sends the earlier conversation as history. |
| ThreatHunting.Settle | frontend/src/pages/ThreatHuntingPage.tsx:44-51 | Exactly one model message is appended: the reply, or the fixed apology. Loading ends. |
| ThreatHunting.SendKeepsConsistent | frontend/src/pages/ThreatHuntingPage.tsx:26-33 | Typing and sending keep the conversation alternating, with the user last exactly while loading. |
| ThreatHunting.SettleKeepsConsistent | frontend/src/pages/ThreatHuntingPage.tsx:44-51 | Settling a pending request keeps that shape. |
| ThreatHunting.OneRequestInFlight | frontend/src/pages/ThreatHuntingPage.tsx:28 | While a send is in flight a second click does nothing. |
| ThreatHunting.ExchangeAddsTwo | frontend/src/pages/ThreatHuntingPage.tsx:26-51 | A full exchange adds the user's message and one answer and leaves the page ready. |
| ApmGraph.ToNode | frontend/src/pages/APMPage.tsx:38-43 | A node per metric, id and caption from it, green exactly when the status is 'Healthy', red otherwise. |
| ApmGraph.ChainLinks | frontend/src/pages/APMPage.tsx:45-49 | n nodes give max(0, n-1) links, link i from node i to node i+1. |
| ApmGraph.FetchGraph | frontend/src/pages/APMPage.tsx:34-57 | A metric list becomes nodes and chain links; a graph payload is used as is, or the empty graph when null; a failure gives the empty graph. |
| ApmGraph.MetricsFormAPath | frontend/src/pages/APMPage.tsx:45-49 | The links form one path from the first service to the last. |
| ApmGraph.AppendMetricAddsOneLink | frontend/src/pages/APMPage.tsx:38-49 | One more metric adds exactly one link, from the previous last service. |
| ApmGraph.DrawnIff | frontend/src/pages/APMPage.tsx:84 | The graph is drawn exactly when a metric came back; a failed or empty fetch draws nothing. |
| ScanTypes.FlattenSkipsEmpty | backend/internal/api/server.go:852-853 | A scan without findings contributes none. |

## Left out

- I/O of every kind is outside the model: HTTP binding, gorm queries and their errors, JSON encoding, console output. The records the queries return are parameters or map-valued tables.
- Concurrency is outside the model. Goroutines, the wait group in the orchestrator and the user store's mutex are modelled as calls taken one at a time. The orchestrator's fan-out runs in scanner order.
- The clock is a parameter: an integer instant in the unit each call uses. The WebSocket client's 3-second timer is an abstract event.
- Regular-expression matching is a parameter `matches(pattern, payload)`. The SQL-injection and XSS patterns are kept as text only.
- bcrypt is the parameter pair `hash` and `verify`; cost and salt are not modelled.
- Trivy execution and JSON decoding are outside the model. A run is given as its outcome: process failure, undecodable output, or the decoded results.
- The Gemini calls are outside the model. The language model is a function of the prompt's values rather than of its text. The text is given by `AiEngine.PromptText`, which carries the source's wording, and `DependencyPromptCarries` and `FixPromptCarries` place every value in it. Two prompts whose texts coincide are still distinct arguments. The engine's client is a flag, standing for an engine value whose Client is nil, such as one built without the constructor. A failing constructor yields no engine at all (backend/internal/ai/engine.go:27-28); callers test for that themselves, and `Sca` models it as `hasEngine`.
- The firewall commands and the Slack alert of the playbook engine are effects handed to an `external` outcome function.
- The file system is `read(dir, file)`, which stands for filepath.Join plus ReadFile.
- Case mapping and trimming cover ASCII letters and ASCII white space only. Go's and JavaScript's Unicode tables are not modelled.
- Integers are unbounded: Go's int overflow in counters and scores is not modelled.
- Go map iteration order is not modelled:
  - The SCA scanner analyses the manifests it found in list order: go.mod, package.json, requirements.txt. The source ranges over the `foundFiles` map (backend/internal/scanner/sca.go:64), so in Go the order of the findings varies from run to run.
  - Phishing.GetCampaigns returns a set.
- scanner.go's `Vuln` has no Category field and its `ScanResult` has no Type or CreatedAt, yet sca.go and darkweb.go use them. The model's records carry the fields those files use.
- DarkWeb.Start: the stored record has an empty target, as in the source; SCA history (GetHistory) and dark-web history are not modelled.
- Orchestrator.GetResults: the Save and association-replace errors are not modelled; only a missing record errors. GetHistory is the history parameter of the dashboard statistics.
- MonitorStore.GetSecurityLogs: a limit of 0 is read as "no rows". gorm drops a zero limit in some versions. Ties in creation time are resolved by insertion order.
- SecurityMiddleware.HandleAsWritten: a failed blocklist lookup is the flag `lookupFault`, and the request proceeds as in the source. A missing request body reads as "". The error of the auto-block is dropped, as in the source.
- SecurityMiddleware.Handle: the same parameters as HandleAsWritten.
- WebSocketClient.Notify: which handlers throw on the message is the parameter `throwing`, and what each handler does to the list is the parameter `reactions`. The rest of a handler's work is outside the model.
- The layout's CSS `capitalize` on the breadcrumb is presentation and is not modelled. The navigation list is written as three consecutive runs of the same items.
- ContainerScanner.GetScans and IacScanner.GetScans return the kept scans unchanged. The property they carry is ScanImage's and ScanPath's "appends exactly one scan".
- Phishing's UUID generator is a parameter, and the campaign completion goroutine is the explicit step Complete.
- UEBA's simulation loop and random draws are the parameters of SimulatedBehaviour. AnalyzeEvent only prints and is not modelled.
- DashboardView.RankLevels: severities named like an inherited Object.prototype member ("constructor", "toString", "valueOf", "hasOwnProperty", "__proto__") are ranked 4. In the page, `severityOrder[sev] ?? 4` yields that member instead, the comparator returns NaN, and the order of the sort is then up to the JavaScript engine. SortCorrect and TopFiveOutranksRest are stated for the model's ranking.
- The dashboard's trend chart and every other presentation detail of the pages are not modelled.
- The custom report's timestamp formatting (RFC 1123) is a string parameter.

## Findings

| source | as written | input that shows it | evidently intended | confidence | as-written member | corrected member |
|---|---|---|---|---|---|---|
| frontend/src/pages/Dashboard.tsx:60-64 | The log takes `messages[messages.length - 1]`, but the message buffer is newest first, so this is the oldest message. | Messages m1 then m2 leave the log [m1, m1]. | Prepend the newest message, `messages[0]`. | high, not executed | DashboardView.LogRepeatsOldest | DashboardView.ReceiveAllKeepsNewest |
| backend/internal/database/monitor.go:50-69 | UnblockIP soft-deletes, because BlockedIP has a DeletedAt column (backend/internal/models/monitor.go:27-28), and the address keeps its unique-index entry. Blocking it again fails. | Block an address for a duration; look it up after expiry (the row is cleaned up); block it again: the insert fails and the address stays unblocked. | Remove the row, so a lapsed or lifted address can be blocked again. | medium, not executed | MonitorStore.LapsedBlockCannotBeRenewed | MonitorStore.LapsedBlockRenewable |
| backend/internal/phishing/campaign.go:45-95 | CreateCampaign never stores the campaign in `activeCampaigns`. | Create a campaign on a fresh manager: GetCampaigns omits it and SimulateClick on its id returns false. | Register the campaign under its id. | high, not executed | Phishing.CreatedCampaignUnreachable | Phishing.CreatedCampaignReachable |
| backend/internal/middleware/monitor.go:38-85 | The lookup at line 38 clears a lapsed block with the store's soft delete, so the address keeps its unique-index entry. The auto-block at line 85 then fails, and its error is ignored. | An address whose 24-hour block has lapsed sends a payload with an apostrophe: it gets 403 but is not blocked again, and its next harmless request passes the gate. | Block the attacker afresh, which the corrected store allows: MonitorStore.UnblockIP and MonitorStore.IsIPBlocked delete the row outright. | medium, not executed | SecurityMiddleware.LapsedAttackerReadmitted | SecurityMiddleware.AttackBlocksFollowUps |

=== FILE: ai_engine.dfy ===
/** The remediation engine (backend/internal/ai/engine.go): the guards and
    reply handling around the Gemini calls, the eval() stub analyser, and the
    mocked pull-request link. The language model is a parameter `llm` from
    prompt to reply; whether the client exists is a flag of the engine. */
module AiEngine {
  import opened Wrappers
  import opened Strings

  /** A part of a candidate answer: text, or anything else (an image, a
      function call) that carries no text. */
  datatype Part = TextPart(text: string) | OtherPart

  datatype Candidate = Candidate(parts: seq<Part>)

  /** What GenerateContent gives back: an API error or a response. */
  datatype Reply = ApiFailure(error: string) | Response(candidates: seq<Candidate>)

  datatype Engine = Engine(hasClient: bool)

  const NotInitialized := "gemini client not initialized"
  const NoResponse := "no response from gemini"
  const EvalWarning := "Critical: Avoid using eval() as it can lead to RCE."
  const PrPrefix := "https://github.com/"
  const PrSuffix := "/pull/123"

  // ---------------------------------------------------------------------
  // Reply handling
  // ---------------------------------------------------------------------

  /** Reference: the text parts of a candidate, concatenated in order. */
  function TextOf(parts: seq<Part>): string {
    if |parts| == 0 then ""
    else TextOf(parts[..|parts| - 1]) + (if parts[|parts| - 1].TextPart? then parts[|parts| - 1].text else "")
  }

  /** The builder loop over the first candidate's parts. */
  method CollectText(parts: seq<Part>) returns (s: string)
    ensures s == TextOf(parts)
  {
    s := "";
    var i := 0;
    while i < |parts|
      invariant 0 <= i <= |parts|
      invariant s == TextOf(parts[..i])
    {
      assert parts[..i + 1][..i] == parts[..i];
      if parts[i].TextPart? {
        s := s + parts[i].text;
      }
      i := i + 1;
    }
    assert parts[..i] == parts;
  }

  /** The text is assembled part by part: concatenating two runs of parts
      concatenates their texts. */
  lemma {:induction false} TextOfAppend(a: seq<Part>, b: seq<Part>)
    ensures TextOf(a + b) == TextOf(a) + TextOf(b)
    decreases |b|
  {
    if |b| == 0 {
      assert a + b == a;
    } else {
      var c := b[..|b| - 1];
      TextOfAppend(a, c);
      assert (a + b)[..|a + b| - 1] == a + c;
      assert (a + b)[|a + b| - 1] == b[|b| - 1];
    }
  }

  /** The reply handling both Gemini calls share. */
  function ReplyText(reply: Reply): (r: Result<string, string>)
    ensures reply.ApiFailure? ==> r == Err("gemini API error: " + reply.error)
    ensures r.Ok? <==> reply.Response? && |reply.candidates| > 0 && |reply.candidates[0].parts| > 0
    ensures r.Err? && reply.Response? ==> r.error == NoResponse
    ensures r.Ok? ==> r.value == TextOf(reply.candidates[0].parts)
  {
    match reply
    case ApiFailure(e) => Err("gemini API error: " + e)
    case Response(cs) =>
      if |cs| == 0 || |cs[0].parts| == 0 then Err(NoResponse) else Ok(TextOf(cs[0].parts))
  }

  /** The two prompts the engine sends, by the values they carry. The model
      answers the prompt's text, which is a function of these values, so
      the model is taken as a function of the prompt. */
  datatype Prompt =
    | FixPrompt(title: string, description: string, stack: string)
    | DependencyPrompt(filename: string, content: string)

  const FixIntro := "\nYou are a Senior Security Engineer.\nVulnerability: "
  const FixAfterTitle := "\nDescription: "
  const FixAfterDescription := "\nTechnology Stack: "
  const FixOutro := "\n\nProvide a secure code snippet to fix this issue. \nExplain the fix in 2 sentences.\n"
  const DependencyIntro := "\nYou are a Supply Chain Security Expert.\nAnalyze the following "
  const DependencyAfterName := " file for security vulnerabilities, outdated packages, and license issues.\nContent:\n"
  const DependencyOutro := "\n\nList the top 3 critical issues found. If none, say \"No critical issues found\".\nFormat as a bulleted list.\n"

  /** The text sent to the model: the fixed wording with the values spliced in. */
  function PromptText(p: Prompt): string {
    match p
    case FixPrompt(title, description, stack) =>
      FixIntro + title + FixAfterTitle + description + FixAfterDescription + stack + FixOutro
    case DependencyPrompt(filename, content) =>
      DependencyIntro + filename + DependencyAfterName + content + DependencyOutro
  }

  /** The dependency prompt carries the file's name and its whole content,
      each at a fixed place after the wording before it. */
  lemma DependencyPromptCarries(filename: string, content: string)
    ensures var t := PromptText(DependencyPrompt(filename, content));
            var at := |DependencyIntro| + |filename| + |DependencyAfterName|;
            && OccursAt(t, filename, |DependencyIntro|)
            && OccursAt(t, content, at)
  {
    var t := PromptText(DependencyPrompt(filename, content));
    var at := |DependencyIntro| + |filename| + |DependencyAfterName|;
    assert t == DependencyIntro + filename + DependencyAfterName + content + DependencyOutro;
    assert t[|DependencyIntro|..|DependencyIntro| + |filename|] == filename;
    assert t[at..at + |content|] == content;
  }

  /** The fix prompt carries the title, the description and the stack, in
      that order. */
  lemma FixPromptCarries(title: string, description: string, stack: string)
    ensures var t := PromptText(FixPrompt(title, description, stack));
            var d := |FixIntro| + |title| + |FixAfterTitle|;
            var k := d + |description| + |FixAfterDescription|;
            && OccursAt(t, title, |FixIntro|)
            && OccursAt(t, description, d)
            && OccursAt(t, stack, k)
  {
    var t := PromptText(FixPrompt(title, description, stack));
    var d := |FixIntro| + |title| + |FixAfterTitle|;
    var k := d + |description| + |FixAfterDescription|;
    assert t == FixIntro + title + FixAfterTitle + description + FixAfterDescription + stack + FixOutro;
    assert t[|FixIntro|..|FixIntro| + |title|] == title;
    assert t[d..d + |description|] == description;
    assert t[k..k + |stack|] == stack;
  }

  /** GenerateFix. */
  function GenerateFix(e: Engine, title: string, description: string, stack: string,
                       llm: Prompt -> Reply): (r: Result<string, string>)
    ensures !e.hasClient ==> r == Err(NotInitialized)
    ensures e.hasClient ==> r == ReplyText(llm(FixPrompt(title, description, stack)))
  {
    if !e.hasClient then Err(NotInitialized) else ReplyText(llm(FixPrompt(title, description, stack)))
  }

  /** AnalyzeDependencies. */
  function AnalyzeDependencies(e: Engine, filename: string, content: string,
                               llm: Prompt -> Reply): (r: Result<string, string>)
    ensures !e.hasClient ==> r == Err(NotInitialized)
    ensures e.hasClient ==> r == ReplyText(llm(DependencyPrompt(filename, content)))
  {
    if !e.hasClient then Err(NotInitialized) else ReplyText(llm(DependencyPrompt(filename, content)))
  }

  /** Without a client neither call reaches the model: the answer is the
      same whatever the model would have said. */
  lemma NoClientNoCall(e: Engine, title: string, description: string, stack: string,
                       filename: string, content: string, llm1: Prompt -> Reply, llm2: Prompt -> Reply)
    requires !e.hasClient
    ensures GenerateFix(e, title, description, stack, llm1) == GenerateFix(e, title, description, stack, llm2)
    ensures AnalyzeDependencies(e, filename, content, llm1) == AnalyzeDependencies(e, filename, content, llm2)
    ensures GenerateFix(e, title, description, stack, llm1).Err?
  {
  }

  /** With a client, the answer is the text of the first candidate only:
      later candidates and non-text parts are dropped. */
  lemma AnswerIsFirstCandidateText(e: Engine, title: string, description: string, stack: string,
                                   llm: Prompt -> Reply, a: string, b: string, others: seq<Candidate>)
    requires e.hasClient
    requires llm(FixPrompt(title, description, stack))
             == Response([Candidate([TextPart(a), OtherPart, TextPart(b)])] + others)
    ensures GenerateFix(e, title, description, stack, llm) == Ok(a + b)
  {
    var parts := [TextPart(a), OtherPart, TextPart(b)];
    var one := [TextPart(a)];
    var two := [TextPart(a), OtherPart];
    assert one[..0] == [];
    assert TextOf(one) == "" + a;
    assert two[..1] == one;
    assert TextOf(two) == TextOf(one) + "";
    assert parts[..2] == two;
    assert TextOf(parts) == TextOf(two) + b;
    assert "" + a + "" + b == a + b;
  }

  /** An empty answer is an error, never an empty fix. */
  lemma EmptyAnswerIsError(e: Engine, filename: string, content: string, llm: Prompt -> Reply)
    requires e.hasClient
    requires llm(DependencyPrompt(filename, content)) == Response([])
             || llm(DependencyPrompt(filename, content)) == Response([Candidate([])])
    ensures AnalyzeDependencies(e, filename, content, llm) == Err(NoResponse)
  {
  }

  // ---------------------------------------------------------------------
  // The eval() stub
  // ---------------------------------------------------------------------

  /** AnalyzeCode: one critical warning exactly when the snippet contains
      "eval(", and never an error. */
  function AnalyzeCode(snippet: string): (r: Result<seq<string>, string>)
    ensures r.Ok?
    ensures |r.value| <= 1
    ensures |r.value| == 1 <==> Contains(snippet, "eval(")
    ensures forall i :: 0 <= i < |r.value| ==> r.value[i] == EvalWarning
  {
    if Contains(snippet, "eval(") then Ok([EvalWarning]) else Ok([])
  }

  /** A call of eval anywhere in the snippet is reported. */
  lemma EmbeddedEvalFlagged(before: string, after: string)
    ensures AnalyzeCode(before + "eval(" + after) == Ok([EvalWarning])
  {
    var s := before + "eval(" + after;
    assert s[|before|..|before| + 5] == "eval(";
    assert OccursAt(s, "eval(", |before|);
    ContainsIff(s, "eval(");
  }

  // ---------------------------------------------------------------------
  // The mocked pull request
  // ---------------------------------------------------------------------

  /** CreateFixPR: the fixed pull-request link of the repository; the
      branch, title and body do not reach the result. */
  function CreateFixPR(repo: string, branch: string, title: string, body: string): (r: Result<string, string>)
    ensures r.Ok?
    ensures PrPrefix <= r.value && |r.value| == |PrPrefix| + |repo| + |PrSuffix|
    ensures r.value[|PrPrefix|..|PrPrefix| + |repo|] == repo
  {
    var url := PrPrefix + repo + PrSuffix;
    assert url[..|PrPrefix|] == PrPrefix;
    assert url[|PrPrefix|..|PrPrefix| + |repo|] == repo;
    Ok(url)
  }

  /** Reads the repository back out of a pull-request link. */
  function RepoOfPrUrl(url: string): Option<string> {
    if |url| >= |PrPrefix| + |PrSuffix| && PrPrefix <= url && url[|url| - |PrSuffix|..] == PrSuffix
    then Some(url[|PrPrefix|..|url| - |PrSuffix|])
    else None
  }

  /** The link names its repository, and every well-formed link is the link
      of the repository it names: links and repositories correspond one to
      one. */
  lemma PrUrlNamesRepo(repo: string, branch: string, title: string, body: string, url: string)
    ensures RepoOfPrUrl(CreateFixPR(repo, branch, title, body).value) == Some(repo)
    ensures RepoOfPrUrl(url) == Some(repo) ==> CreateFixPR(repo, branch, title, body).value == url
  {
    var u := CreateFixPR(repo, branch, title, body).value;
    assert u == PrPrefix + repo + PrSuffix;
    assert u[|u| - |PrSuffix|..] == PrSuffix;
    if RepoOfPrUrl(url) == Some(repo) {
      assert url == url[..|PrPrefix|] + url[|PrPrefix|..|url| - |PrSuffix|] + url[|url| - |PrSuffix|..];
    }
  }

  /** Different repositories get different links. */
  lemma PrUrlInjective(r1: string, r2: string, branch: string, title: string, body: string)
    requires r1 != r2
    ensures CreateFixPR(r1, branch, title, body).value != CreateFixPR(r2, branch, title, body).value
  {
    PrUrlNamesRepo(r1, branch, title, body, "");
    PrUrlNamesRepo(r2, branch, title, body, "");
  }
}

=== FILE: apm_graph.dfy ===
/** The attack-path page's graph (frontend/src/pages/APMPage.tsx): how the
    fetched service metrics become graph nodes chained by links, and when
    the graph is drawn. The fetch itself is a parameter: a list of
    metrics, a ready graph (or nothing), or a failure. */
module ApmGraph {
  import opened Wrappers

  datatype Metric = Metric(id: string, service: string, status: string)

  datatype Node = Node(id: string, caption: string, kind: string, color: string)

  datatype Link = Link(source: string, target: string, caption: string)

  datatype Graph = Graph(nodes: seq<Node>, links: seq<Link>)

  /** What the graph request can yield. */
  datatype Fetched = MetricList(metrics: seq<Metric>) | GraphPayload(graph: Option<Graph>) | FetchFailed

  const Green := "#10b981"
  const Red := "#ef4444"
  const EmptyGraph := Graph([], [])

  /** One node per metric: the service names it, and it is green exactly
      when the service is healthy. A leaf: its clauses read the fields
      off; the graph's shape is stated by ChainLinks and DrawnIff. */
  function ToNode(m: Metric): (n: Node)
    ensures n.id == m.id && n.caption == m.service && n.kind == "service"
    ensures n.color == Green <==> m.status == "Healthy"
    ensures n.color == Red <==> m.status != "Healthy"
  {
    Node(m.id, m.service, "service", if m.status == "Healthy" then Green else Red)
  }

  function ToNodes(ms: seq<Metric>): (r: seq<Node>)
    ensures |r| == |ms|
    ensures forall i :: 0 <= i < |ms| ==> r[i] == ToNode(ms[i])
  {
    if |ms| == 0 then [] else ToNodes(ms[..|ms| - 1]) + [ToNode(ms[|ms| - 1])]
  }

  /** The placeholder links: each node after the first is linked from the
      one before it. */
  function ChainLinks(nodes: seq<Node>): (r: seq<Link>)
    ensures |r| == if |nodes| == 0 then 0 else |nodes| - 1
    ensures forall i :: 0 <= i < |r| ==>
              r[i] == Link(nodes[i].id, nodes[i + 1].id, "connects")
  {
    if |nodes| <= 1 then []
    else ChainLinks(nodes[..|nodes| - 1]) + [Link(nodes[|nodes| - 2].id, nodes[|nodes| - 1].id, "connects")]
  }

  /** The graph the page shows after the fetch. */
  function FetchGraph(f: Fetched): (g: Graph)
    ensures f.MetricList? ==> g.nodes == ToNodes(f.metrics) && g.links == ChainLinks(g.nodes)
    ensures f.GraphPayload? && f.graph.Some? ==> g == f.graph.value
    ensures f.GraphPayload? && f.graph.None? ==> g == EmptyGraph
    ensures f.FetchFailed? ==> g == EmptyGraph
  {
    match f
    case MetricList(ms) =>
      var nodes := ToNodes(ms);
      Graph(nodes, ChainLinks(nodes))
    case GraphPayload(data) => data.GetOr(EmptyGraph)
    case FetchFailed => EmptyGraph
  }

  /** The graph is drawn only when it has a node. */
  predicate Drawn(g: Graph) {
    |g.nodes| > 0
  }

  // ---------------------------------------------------------------------
  // Properties
  // ---------------------------------------------------------------------

  /** The links of a metric list form one path through the services in
      list order: consecutive links meet, the path starts at the first
      service and ends at the last. */
  lemma MetricsFormAPath(ms: seq<Metric>)
    requires |ms| >= 2
    ensures var g := FetchGraph(MetricList(ms));
            && g.links[0].source == ms[0].id
            && g.links[|g.links| - 1].target == ms[|ms| - 1].id
            && forall i :: 0 <= i < |g.links| - 1 ==> g.links[i].target == g.links[i + 1].source
  {
    var nodes := ToNodes(ms);
    var links := ChainLinks(nodes);
    assert FetchGraph(MetricList(ms)) == Graph(nodes, links);
    assert links[0] == Link(nodes[0].id, nodes[1].id, "connects");
    assert links[|links| - 1] == Link(nodes[|links| - 1].id, nodes[|links|].id, "connects");
    forall i | 0 <= i < |links| - 1
      ensures links[i].target == links[i + 1].source
    {
      assert links[i] == Link(nodes[i].id, nodes[i + 1].id, "connects");
      assert links[i + 1] == Link(nodes[i + 1].id, nodes[i + 2].id, "connects");
    }
  }

  /** Adding a metric adds exactly one link, from the previous last service
      to the new one; the existing links stay as they were. */
  lemma {:induction false} AppendMetricAddsOneLink(ms: seq<Metric>, m: Metric)
    requires |ms| >= 1
    ensures FetchGraph(MetricList(ms + [m])).links
            == FetchGraph(MetricList(ms)).links + [Link(ms[|ms| - 1].id, m.id, "connects")]
  {
    var before := ToNodes(ms);
    var after := ToNodes(ms + [m]);
    assert after == before + [ToNode(m)];
    assert after[..|after| - 1] == before;
  }

  /** The graph is drawn exactly when some metric came back; a failed or
      empty fetch draws nothing. */
  lemma DrawnIff(f: Fetched)
    ensures f.MetricList? ==> (Drawn(FetchGraph(f)) <==> |f.metrics| > 0)
    ensures f.FetchFailed? || f == GraphPayload(None) ==> !Drawn(FetchGraph(f))
  {
  }
}

=== FILE: automation.dfy ===
/** The playbook engine (backend/internal/automation/engine.go): seeded
    playbooks, running one, toggling one, and the action dispatcher. The
    firewall commands and integration webhooks are outside the model; their
    outcomes are supplied by an environment function. */
module Automation {
  import opened Wrappers

  const BlockIP := "BlockIP"
  const SendAlert := "SendAlert"
  const LogEvent := "LogEvent"

  /** An action; its type is free text, so unknown types can arrive. */
  datatype Action = Action(kind: string, params: map<string, string>)

  /** `LastRun` is nil or an instant (abstract clock ticks). */
  datatype Playbook = Playbook(id: string, name: string, description: string, trigger: string,
                               actions: seq<Action>, enabled: bool, lastRun: Option<int>)

  /** The playbooks, and whether an integration manager was supplied. */
  datatype Engine = Engine(playbooks: seq<Playbook>, hasIntegrations: bool)

  /** A Go map read: a missing key yields the empty string. */
  function Param(params: map<string, string>, key: string): string {
    if key in params then params[key] else ""
  }

  /** NewAutomationEngine: two enabled playbooks that have never run. */
  function NewEngine(hasIntegrations: bool): (e: Engine)
    ensures |e.playbooks| == 2
    ensures e.playbooks[0].id == "pb-001" && e.playbooks[1].id == "pb-002"
    ensures forall i :: 0 <= i < |e.playbooks| ==> e.playbooks[i].enabled && e.playbooks[i].lastRun.None?
    ensures e.hasIntegrations == hasIntegrations
  {
    Engine([
      Playbook("pb-001", "Block Malicious IPs", "Automatically block IPs with high threat score",
               "HighThreatScore",
               [Action(BlockIP, map["ip" := "192.168.1.100"]), Action(LogEvent, map["level" := "WARN"])],
               true, None),
      Playbook("pb-002", "Critical Vuln Alert", "Send alert to Slack when critical vulnerability found",
               "CriticalVulnerability",
               [Action(SendAlert, map["channel" := "#security-alerts"])],
               true, None)
    ], hasIntegrations)
  }

  /** Index of the first playbook with this id. */
  function Find(pbs: seq<Playbook>, id: string): (r: Option<nat>)
    ensures r.Some? ==> r.value < |pbs| && pbs[r.value].id == id
                        && forall k :: 0 <= k < r.value ==> pbs[k].id != id
    ensures r.None? ==> forall k :: 0 <= k < |pbs| ==> pbs[k].id != id
  {
    if |pbs| == 0 then None
    else if pbs[0].id == id then Some(0)
    else match Find(pbs[1..], id)
      case None => None
      case Some(k) => Some(k + 1)
  }

  // ---------------------------------------------------------------------
  // Actions
  // ---------------------------------------------------------------------

  datatype Os = Windows | Linux

  /** What an action asks of the outside world. */
  datatype Effect = Command(args: seq<string>) | Alert(text: string) | LogLine(level: string)

  /** The firewall rule command per operating system. */
  function FirewallCommand(os: Os, ip: string): (args: seq<string>)
    ensures os == Linux ==> args == ["iptables", "-A", "INPUT", "-s"] + [ip] + ["-j", "DROP"]
    ensures os == Windows ==>
              && |args| == 9
              && args[..5] == ["netsh", "advfirewall", "firewall", "add", "rule"]
              && args[5] == "name=\"CyberShield Block " + ip + "\""
              && args[6..] == ["dir=in", "action=block", "remoteip=" + ip]
  {
    match os
    case Windows =>
      ["netsh", "advfirewall", "firewall", "add", "rule", "name=\"CyberShield Block " + ip + "\"",
       "dir=in", "action=block", "remoteip=" + ip]
    case Linux => ["iptables", "-A", "INPUT", "-s", ip, "-j", "DROP"]
  }

  datatype ActionRun = ActionRun(effects: seq<Effect>, result: Outcome<string>)

  /** executeAction. `external` is the outcome the command or the webhook
      reports for an effect. */
  function ExecuteAction(hasIntegrations: bool, os: Os, a: Action, external: Effect -> Outcome<string>): (r: ActionRun)
    ensures a.kind == BlockIP && Param(a.params, "ip") == "" ==> r == ActionRun([], Failure("missing ip param"))
    ensures a.kind == BlockIP && Param(a.params, "ip") != "" ==>
              r.effects == [Command(FirewallCommand(os, Param(a.params, "ip")))]
    ensures a.kind == BlockIP && Param(a.params, "ip") != "" ==>
              r.result == external(Command(FirewallCommand(os, Param(a.params, "ip"))))
    ensures a.kind == SendAlert && !hasIntegrations ==> r == ActionRun([], Failure("integration manager not available"))
    ensures a.kind == SendAlert && hasIntegrations ==>
              var alert := Alert("Playbook Triggered: " + Param(a.params, "channel"));
              r == ActionRun([alert], external(alert))
    ensures a.kind == LogEvent ==> r == ActionRun([LogLine(Param(a.params, "level"))], Success)
    ensures a.kind !in {BlockIP, SendAlert, LogEvent} ==> r == ActionRun([], Failure("unknown action type"))
    ensures r.effects == [] || r.result == external(r.effects[0]) || a.kind == LogEvent
    ensures |r.effects| <= 1
  {
    if a.kind == BlockIP then
      var ip := Param(a.params, "ip");
      if ip == "" then ActionRun([], Failure("missing ip param"))
      else
        var cmd := Command(FirewallCommand(os, ip));
        ActionRun([cmd], external(cmd))
    else if a.kind == SendAlert then
      if hasIntegrations then
        var alert := Alert("Playbook Triggered: " + Param(a.params, "channel"));
        ActionRun([alert], external(alert))
      else ActionRun([], Failure("integration manager not available"))
    else if a.kind == LogEvent then
      ActionRun([LogLine(Param(a.params, "level"))], Success)
    else ActionRun([], Failure("unknown action type"))
  }

  /** Each element's list, concatenated in order. */
  function FlatMap<A, B>(f: A -> seq<B>, xs: seq<A>): (r: seq<B>)
    ensures (forall i :: 0 <= i < |xs| ==> |f(xs[i])| <= 1) ==> |r| <= |xs|
  {
    if |xs| == 0 then [] else f(xs[0]) + FlatMap(f, xs[1..])
  }

  /** Every action in order; failures are only reported, never stop the run. */
  function RunActions(hasIntegrations: bool, os: Os, actions: seq<Action>, external: Effect -> Outcome<string>): (r: seq<Effect>)
    ensures |r| <= |actions|
  {
    FlatMap(a => ExecuteAction(hasIntegrations, os, a, external).effects, actions)
  }

  // ---------------------------------------------------------------------
  // Running and toggling
  // ---------------------------------------------------------------------

  datatype RunResult = RunResult(engine: Engine, result: Outcome<string>, effects: seq<Effect>)

  /** RunPlaybook at instant `now`. */
  function RunPlaybook(e: Engine, id: string, now: int, os: Os, external: Effect -> Outcome<string>): (r: RunResult)
    ensures Find(e.playbooks, id).None? ==> r == RunResult(e, Failure("playbook not found"), [])
    ensures Find(e.playbooks, id).Some? && !e.playbooks[Find(e.playbooks, id).value].enabled ==>
              r == RunResult(e, Failure("playbook is disabled"), [])
    ensures Find(e.playbooks, id).Some? && e.playbooks[Find(e.playbooks, id).value].enabled ==>
              var i := Find(e.playbooks, id).value;
              && r.result == Success
              && r.engine == e.(playbooks := e.playbooks[i := e.playbooks[i].(lastRun := Some(now))])
              && r.effects == RunActions(e.hasIntegrations, os, e.playbooks[i].actions, external)
  {
    match Find(e.playbooks, id)
    case None => RunResult(e, Failure("playbook not found"), [])
    case Some(i) =>
      var pb := e.playbooks[i];
      if !pb.enabled then RunResult(e, Failure("playbook is disabled"), [])
      else
        var engine := e.(playbooks := e.playbooks[i := pb.(lastRun := Some(now))]);
        RunResult(engine, Success, RunActions(e.hasIntegrations, os, pb.actions, external))
  }

  /** TogglePlaybook. */
  function TogglePlaybook(e: Engine, id: string): (r: Result<Engine, string>)
    ensures Find(e.playbooks, id).None? <==> r == Err("playbook not found")
    ensures r.Ok? ==> var i := Find(e.playbooks, id).value;
                      && |r.value.playbooks| == |e.playbooks|
                      && r.value.playbooks[i] == e.playbooks[i].(enabled := !e.playbooks[i].enabled)
                      && (forall k :: 0 <= k < |e.playbooks| && k != i ==> r.value.playbooks[k] == e.playbooks[k])
                      && r.value.hasIntegrations == e.hasIntegrations
  {
    match Find(e.playbooks, id)
    case None => Err("playbook not found")
    case Some(i) => Ok(e.(playbooks := e.playbooks[i := e.playbooks[i].(enabled := !e.playbooks[i].enabled)]))
  }

  // ---------------------------------------------------------------------
  // Properties
  // ---------------------------------------------------------------------

  /** Mapping a concatenation concatenates the mapped parts. */
  lemma {:induction false} FlatMapAppend<A, B>(f: A -> seq<B>, xs: seq<A>, ys: seq<A>)
    ensures FlatMap(f, xs + ys) == FlatMap(f, xs) + FlatMap(f, ys)
    decreases |xs|
  {
    if |xs| == 0 {
      assert xs + ys == ys;
    } else {
      assert (xs + ys)[0] == xs[0] && (xs + ys)[1..] == xs[1..] + ys;
      FlatMapAppend(f, xs[1..], ys);
    }
  }

  /** Running two lists of actions one after the other asks for the
      effects of the first, then those of the second. */
  lemma RunActionsAppend(hasIntegrations: bool, os: Os, xs: seq<Action>, ys: seq<Action>,
                         external: Effect -> Outcome<string>)
    ensures RunActions(hasIntegrations, os, xs + ys, external)
            == RunActions(hasIntegrations, os, xs, external) + RunActions(hasIntegrations, os, ys, external)
  {
    FlatMapAppend(a => ExecuteAction(hasIntegrations, os, a, external).effects, xs, ys);
  }

  /** Every action of a run contributes exactly its own effects at its
      place in the order, whether or not it fails: a failing action never
      stops the ones after it. */
  lemma ActionRunsWhateverPrecedes(hasIntegrations: bool, os: Os, xs: seq<Action>, a: Action, ys: seq<Action>,
                                   external: Effect -> Outcome<string>)
    ensures RunActions(hasIntegrations, os, xs + [a] + ys, external)
            == RunActions(hasIntegrations, os, xs, external)
               + ExecuteAction(hasIntegrations, os, a, external).effects
               + RunActions(hasIntegrations, os, ys, external)
  {
    RunActionsAppend(hasIntegrations, os, xs + [a], ys, external);
    RunActionsAppend(hasIntegrations, os, xs, [a], external);
    assert RunActions(hasIntegrations, os, [a], external) == ExecuteAction(hasIntegrations, os, a, external).effects;
  }

  /** A run of an enabled playbook asks the outside world for the effects
      of every one of its actions, in order. */
  lemma RunAsksEveryAction(e: Engine, id: string, now: int, os: Os, external: Effect -> Outcome<string>, k: nat)
    requires Find(e.playbooks, id).Some? && e.playbooks[Find(e.playbooks, id).value].enabled
    requires k < |e.playbooks[Find(e.playbooks, id).value].actions|
    ensures var acts := e.playbooks[Find(e.playbooks, id).value].actions;
            var before := RunActions(e.hasIntegrations, os, acts[..k], external);
            var mine := ExecuteAction(e.hasIntegrations, os, acts[k], external).effects;
            var effects := RunPlaybook(e, id, now, os, external).effects;
            && |before| + |mine| <= |effects|
            && effects[|before|..|before| + |mine|] == mine
  {
    var acts := e.playbooks[Find(e.playbooks, id).value].actions;
    assert acts == acts[..k] + [acts[k]] + acts[k + 1..];
    ActionRunsWhateverPrecedes(e.hasIntegrations, os, acts[..k], acts[k], acts[k + 1..], external);
  }

  /** Toggling keeps every id, so the same playbook is found again. */
  lemma FindAfterUpdate(pbs: seq<Playbook>, i: nat, p: Playbook, id: string)
    requires i < |pbs| && p.id == pbs[i].id
    ensures Find(pbs[i := p], id) == Find(pbs, id)
  {
    if |pbs| > 0 && i > 0 && pbs[0].id != id {
      assert pbs[i := p][1..] == pbs[1..][i - 1 := p];
      FindAfterUpdate(pbs[1..], i - 1, p, id);
    }
  }

  /** Toggling twice restores the engine. */
  lemma ToggleTwiceIdentity(e: Engine, id: string)
    requires TogglePlaybook(e, id).Ok?
    ensures TogglePlaybook(TogglePlaybook(e, id).value, id) == Ok(e)
  {
    var i := Find(e.playbooks, id).value;
    var p := e.playbooks[i].(enabled := !e.playbooks[i].enabled);
    FindAfterUpdate(e.playbooks, i, p, id);
    var once := e.playbooks[i := p];
    assert once[i].(enabled := !once[i].enabled) == e.playbooks[i];
    assert once[i := e.playbooks[i]] == e.playbooks;
  }

  /** Toggling an enabled playbook makes the next run refuse it, leaving
      the engine and the run time untouched. */
  lemma ToggleThenRunRefuses(e: Engine, id: string, now: int, os: Os, external: Effect -> Outcome<string>)
    requires Find(e.playbooks, id).Some? && e.playbooks[Find(e.playbooks, id).value].enabled
    ensures var t := TogglePlaybook(e, id).value;
            RunPlaybook(t, id, now, os, external) == RunResult(t, Failure("playbook is disabled"), [])
  {
    var i := Find(e.playbooks, id).value;
    FindAfterUpdate(e.playbooks, i, e.playbooks[i].(enabled := false), id);
  }

  /** An action asks the outside world for nothing exactly when it is
      refused before any call: a BlockIP without an address, a SendAlert
      without integrations, or an unknown type. Such a refusal is a
      failure, and neither it nor a LogEvent depends on what the outside
      world would have answered. */
  lemma RefusedActionsAskNothing(hasIntegrations: bool, os: Os, a: Action,
                                 external: Effect -> Outcome<string>, external2: Effect -> Outcome<string>)
    ensures var r := ExecuteAction(hasIntegrations, os, a, external);
            && (r.effects == [] <==>
                  (a.kind == BlockIP && Param(a.params, "ip") == "")
                  || (a.kind == SendAlert && !hasIntegrations)
                  || a.kind !in {BlockIP, SendAlert, LogEvent})
            && (r.effects == [] ==> r.result.Failure?)
            && (r.effects == [] || a.kind == LogEvent ==> ExecuteAction(hasIntegrations, os, a, external2) == r)
  {
  }

  /** The run's verdict and new state do not depend on how the actions
      fared: action failures are logged, never returned. */
  lemma RunIgnoresActionOutcomes(e: Engine, id: string, now: int, os: Os,
                                 ext1: Effect -> Outcome<string>, ext2: Effect -> Outcome<string>)
    ensures RunPlaybook(e, id, now, os, ext1).engine == RunPlaybook(e, id, now, os, ext2).engine
    ensures RunPlaybook(e, id, now, os, ext1).result == RunPlaybook(e, id, now, os, ext2).result
  {
  }

  /** A run of a fresh engine's first playbook asks for the demo address
      to be blocked first and logs a warning second, then records the run. */
  lemma SeedRunBlocksDemoAddress(hasIntegrations: bool, now: int, external: Effect -> Outcome<string>)
    ensures var r := RunPlaybook(NewEngine(hasIntegrations), "pb-001", now, Linux, external);
            && r.result == Success
            && r.effects == [Command(["iptables", "-A", "INPUT", "-s", "192.168.1.100", "-j", "DROP"]), LogLine("WARN")]
            && r.engine.playbooks[0].lastRun == Some(now)
            && r.engine.playbooks[1] == NewEngine(hasIntegrations).playbooks[1]
  {
    var e := NewEngine(hasIntegrations);
    var acts := e.playbooks[0].actions;
    assert acts[1..][1..] == [];
    assert RunActions(hasIntegrations, Linux, acts[1..], external) == [LogLine("WARN")];
  }
}

=== FILE: compliance_mapper.dfy ===
/** The backend's table from a vulnerability category to the compliance
    controls it touches (backend/internal/compliance/mapper.go). */
module ComplianceMapper {
  import opened Strings

  datatype Standard = ISO27001 | GDPR | NIST | PCI_DSS {
    /** The display name the frontend joins on. */
    function Name(): string {
      match this
      case ISO27001 => "ISO 27001"
      case GDPR => "GDPR"
      case NIST => "NIST CSF"
      case PCI_DSS => "PCI DSS"
    }
  }

  datatype Control = Control(id: string, description: string)

  datatype Mapping = Mapping(standard: Standard, control: Control)

  const SqlControls: seq<Mapping> := [
    Mapping(ISO27001, Control("A.14.1.2", "Securing application services on public networks")),
    Mapping(NIST, Control("PR.IP-1", "Data is protected at rest")),
    Mapping(PCI_DSS, Control("6.5.1", "Injection flaws"))
  ]

  const XssControls: seq<Mapping> := [
    Mapping(ISO27001, Control("A.14.1.3", "Protecting application services transactions")),
    Mapping(PCI_DSS, Control("6.5.7", "Cross-site scripting (XSS)"))
  ]

  const ScaControls: seq<Mapping> := [
    Mapping(ISO27001, Control("A.14.2.6", "Secure development environment")),
    Mapping(NIST, Control("ID.SC-1", "Cyber supply chain risk management processes are identified")),
    Mapping(GDPR, Control("Art. 32", "Security of processing"))
  ]

  const AuthControls: seq<Mapping> := [
    Mapping(ISO27001, Control("A.9.2.1", "User registration and de-registration")),
    Mapping(GDPR, Control("Art. 32", "Security of processing")),
    Mapping(PCI_DSS, Control("8.2", "Use strong passwords"))
  ]

  const DefaultControls: seq<Mapping> := [
    Mapping(ISO27001, Control("A.12.6.1", "Management of technical vulnerabilities")),
    Mapping(NIST, Control("DE.CM-8", "Vulnerability scans are performed"))
  ]

  predicate MentionsSql(upper: string) { Contains(upper, "SQL") || Contains(upper, "INJECTION") }
  predicate MentionsXss(upper: string) { Contains(upper, "XSS") || Contains(upper, "SCRIPTING") }
  predicate MentionsSca(upper: string) { Contains(upper, "SCA") || Contains(upper, "DEPENDENCY") }
  predicate MentionsAuth(upper: string) { Contains(upper, "AUTH") || Contains(upper, "PASSWORD") }

  /** The four keyword rules, checked in a fixed order, append their controls;
      the catch-all is used when nothing was appended. */
  function Assemble(sql: bool, xss: bool, sca: bool, auth: bool): seq<Mapping> {
    var mappings :=
      (if sql then SqlControls else [])
      + (if xss then XssControls else [])
      + (if sca then ScaControls else [])
      + (if auth then AuthControls else []);
    if |mappings| == 0 then DefaultControls else mappings
  }

  /** MapVulnerability: the rules are matched against the upper-cased category. */
  function MapVulnerability(category: string): seq<Mapping> {
    var upper := ToUpper(category);
    Assemble(MentionsSql(upper), MentionsXss(upper), MentionsSca(upper), MentionsAuth(upper))
  }

  // ---------------------------------------------------------------------
  // Reference definition: the same rules as a data table
  // ---------------------------------------------------------------------

  /** One rule of the table: any keyword hit contributes the controls. */
  datatype Rule = Rule(keywords: seq<string>, controls: seq<Mapping>)

  const SqlRule := Rule(["SQL", "INJECTION"], SqlControls)
  const XssRule := Rule(["XSS", "SCRIPTING"], XssControls)
  const ScaRule := Rule(["SCA", "DEPENDENCY"], ScaControls)
  const AuthRule := Rule(["AUTH", "PASSWORD"], AuthControls)

  const Rules: seq<Rule> := [SqlRule, XssRule, ScaRule, AuthRule]

  predicate AnyKeyword(upper: string, keywords: seq<string>) {
    |keywords| > 0 && (Contains(upper, keywords[0]) || AnyKeyword(upper, keywords[1..]))
  }

  lemma AnyKeywordPair(upper: string, a: string, b: string)
    ensures AnyKeyword(upper, [a, b]) == (Contains(upper, a) || Contains(upper, b))
  {
    assert [a, b][1..] == [b];
    assert [b][1..] == [];
    assert !AnyKeyword(upper, []);
    assert AnyKeyword(upper, [b]) == (Contains(upper, b) || AnyKeyword(upper, []));
    assert AnyKeyword(upper, [a, b]) == (Contains(upper, a) || AnyKeyword(upper, [b]));
  }

  /** Concatenation, in table order, of the controls of every rule hit. */
  function Collect(rules: seq<Rule>, upper: string): seq<Mapping> {
    if |rules| == 0 then []
    else (if AnyKeyword(upper, rules[0].keywords) then rules[0].controls else []) + Collect(rules[1..], upper)
  }

  function ReferenceMap(category: string): seq<Mapping> {
    var hits := Collect(Rules, ToUpper(category));
    if hits == [] then DefaultControls else hits
  }

  lemma CollectCons(r: Rule, rest: seq<Rule>, u: string)
    ensures Collect([r] + rest, u)
            == (if AnyKeyword(u, r.keywords) then r.controls else []) + Collect(rest, u)
  {
    assert ([r] + rest)[0] == r;
    assert ([r] + rest)[1..] == rest;
  }

  /** Collecting over the table appends, in table order, the groups of
      exactly the rules whose keywords occur. */
  lemma CollectRules(u: string)
    ensures Collect(Rules, u)
            == (if MentionsSql(u) then SqlControls else [])
             + (if MentionsXss(u) then XssControls else [])
             + (if MentionsSca(u) then ScaControls else [])
             + (if MentionsAuth(u) then AuthControls else [])
  {
    var auth := if MentionsAuth(u) then AuthControls else [];
    var sca := if MentionsSca(u) then ScaControls else [];
    var xss := if MentionsXss(u) then XssControls else [];
    var sql := if MentionsSql(u) then SqlControls else [];
    assert Collect([AuthRule], u) == auth by {
      AnyKeywordPair(u, "AUTH", "PASSWORD");
      CollectCons(AuthRule, [], u);
      assert [AuthRule] + [] == [AuthRule];
    }
    assert Collect([ScaRule, AuthRule], u) == sca + auth by {
      AnyKeywordPair(u, "SCA", "DEPENDENCY");
      CollectCons(ScaRule, [AuthRule], u);
      assert [ScaRule] + [AuthRule] == [ScaRule, AuthRule];
    }
    assert Collect([XssRule, ScaRule, AuthRule], u) == xss + (sca + auth) by {
      AnyKeywordPair(u, "XSS", "SCRIPTING");
      CollectCons(XssRule, [ScaRule, AuthRule], u);
      assert [XssRule] + [ScaRule, AuthRule] == [XssRule, ScaRule, AuthRule];
    }
    assert Collect(Rules, u) == sql + (xss + (sca + auth)) by {
      AnyKeywordPair(u, "SQL", "INJECTION");
      CollectCons(SqlRule, [XssRule, ScaRule, AuthRule], u);
      assert [SqlRule] + [XssRule, ScaRule, AuthRule] == Rules;
    }
    Reassociate(sql, xss, sca, auth);
  }

  lemma Reassociate<T>(a: seq<T>, b: seq<T>, c: seq<T>, d: seq<T>)
    ensures a + (b + (c + d)) == a + b + c + d
  {
  }

  /** The rules written as code agree with the rules written as a table. */
  lemma MapVulnerabilityMatchesTable(category: string)
    ensures MapVulnerability(category) == ReferenceMap(category)
  {
    CollectRules(ToUpper(category));
  }

  // ---------------------------------------------------------------------
  // Properties
  // ---------------------------------------------------------------------

  /** Matching ignores case: lower- or upper-casing the category first
      changes nothing. */
  lemma CaseInsensitive(category: string)
    ensures MapVulnerability(ToUpper(category)) == MapVulnerability(category)
    ensures MapVulnerability(ToLower(category)) == MapVulnerability(category)
  {
    ToUpperIdempotent(category);
  }

  /** The result is never empty and holds at most 3 + 2 + 3 + 3 = 11 entries. */
  lemma AssembleBounds(sql: bool, xss: bool, sca: bool, auth: bool)
    ensures 1 <= |Assemble(sql, xss, sca, auth)| <= 11
  {
  }

  /** The catch-all controls are present exactly when no rule matched, and
      then they are the whole result. */
  lemma CatchAllIffNoRule(sql: bool, xss: bool, sca: bool, auth: bool)
    ensures DefaultControls[0] in Assemble(sql, xss, sca, auth) <==> !(sql || xss || sca || auth)
    ensures DefaultControls[1] in Assemble(sql, xss, sca, auth) <==> !(sql || xss || sca || auth)
    ensures !(sql || xss || sca || auth) ==> Assemble(sql, xss, sca, auth) == DefaultControls
  {
  }

  /** Each rule's own control witnesses it: PCI 6.5.1 appears exactly when
      the SQL rule fired, PCI 6.5.7 exactly when the XSS rule fired, NIST
      ID.SC-1 exactly when the SCA rule fired and PCI 8.2 exactly when the
      AUTH rule fired. */
  lemma RuleWitnesses(sql: bool, xss: bool, sca: bool, auth: bool)
    ensures SqlControls[2] in Assemble(sql, xss, sca, auth) <==> sql
    ensures XssControls[1] in Assemble(sql, xss, sca, auth) <==> xss
    ensures ScaControls[1] in Assemble(sql, xss, sca, auth) <==> sca
    ensures AuthControls[2] in Assemble(sql, xss, sca, auth) <==> auth
  {
    InAssemble(SqlControls[2], sql, xss, sca, auth);
    InAssemble(XssControls[1], sql, xss, sca, auth);
    InAssemble(ScaControls[1], sql, xss, sca, auth);
    InAssemble(AuthControls[2], sql, xss, sca, auth);
  }

  /** An entry is in the result exactly when a fired rule's group holds it,
      or no rule fired and the catch-all holds it. */
  lemma InAssemble(m: Mapping, sql: bool, xss: bool, sca: bool, auth: bool)
    ensures m in Assemble(sql, xss, sca, auth)
            <==> (sql && m in SqlControls) || (xss && m in XssControls) || (sca && m in ScaControls)
                 || (auth && m in AuthControls) || (!(sql || xss || sca || auth) && m in DefaultControls)
  {
    var a := if sql then SqlControls else [];
    var b := if xss then XssControls else [];
    var c := if sca then ScaControls else [];
    var d := if auth then AuthControls else [];
    InFour(m, a, b, c, d);
  }

  lemma InFour<T>(m: T, a: seq<T>, b: seq<T>, c: seq<T>, d: seq<T>)
    ensures m in a + b + c + d <==> m in a || m in b || m in c || m in d
  {
  }

  /** Every entry of the result comes from a rule that fired, or from the
      catch-all when none did. */
  lemma EntriesComeFromFiredRules(sql: bool, xss: bool, sca: bool, auth: bool, m: Mapping)
    requires m in Assemble(sql, xss, sca, auth)
    ensures (sql && m in SqlControls) || (xss && m in XssControls) || (sca && m in ScaControls)
            || (auth && m in AuthControls) || (!(sql || xss || sca || auth) && m in DefaultControls)
  {
    InAssemble(m, sql, xss, sca, auth);
  }

  /** A category that only mentions SQL or injection maps to exactly
      ISO A.14.1.2, NIST PR.IP-1 and PCI 6.5.1, in that order. */
  lemma SqlOnly(category: string)
    requires var u := ToUpper(category);
             MentionsSql(u) && !MentionsXss(u) && !MentionsSca(u) && !MentionsAuth(u)
    ensures |MapVulnerability(category)| == 3
    ensures MapVulnerability(category)[0].standard == ISO27001
    ensures MapVulnerability(category)[0].control.id == "A.14.1.2"
    ensures MapVulnerability(category)[1].standard == NIST
    ensures MapVulnerability(category)[1].control.id == "PR.IP-1"
    ensures MapVulnerability(category)[2].standard == PCI_DSS
    ensures MapVulnerability(category)[2].control.id == "6.5.1"
  {
  }

  /** A category that only mentions XSS or scripting maps to exactly
      ISO A.14.1.3 and PCI 6.5.7. */
  lemma XssOnly(category: string)
    requires var u := ToUpper(category);
             !MentionsSql(u) && MentionsXss(u) && !MentionsSca(u) && !MentionsAuth(u)
    ensures |MapVulnerability(category)| == 2
    ensures MapVulnerability(category)[0] == Mapping(ISO27001, Control("A.14.1.3", "Protecting application services transactions"))
    ensures MapVulnerability(category)[1] == Mapping(PCI_DSS, Control("6.5.7", "Cross-site scripting (XSS)"))
  {
  }
}

=== FILE: compliance_view.dfy ===
/** The compliance page's client-side join of scan findings to control
    lists (frontend/src/pages/CompliancePage.tsx, `loadComplianceData` and
    the per-standard Compliant badge). */
module ComplianceView {
  import opened Wrappers
  import opened Strings

  /** A finding as the page receives it; `compliance` is the optional list of
      "<Standard>: <Control>" tags. */
  datatype Vulnerability = Vulnerability(title: string, severity: string, compliance: Option<seq<string>>)

  datatype Status = Pass | Fail

  datatype ControlView = ControlView(id: string, description: string, status: Status, issues: seq<Vulnerability>)

  datatype StandardView = StandardView(name: string, description: string, controls: seq<ControlView>)

  /** One entry of the scan history; `vulnerabilities` may be missing. */
  datatype ScanEntry = ScanEntry(vulnerabilities: Option<seq<Vulnerability>>)

  /** The page's React state: the standards shown and the loading flag. */
  datatype PageState = PageState(standards: seq<StandardView>, loading: bool)

  const InitialPage := PageState([], true)

  function PassControl(id: string, description: string): ControlView {
    ControlView(id, description, Pass, [])
  }

  /** The three standards and their controls, every control passing. */
  const InitialStandards: seq<StandardView> := [
    StandardView("ISO 27001", "Information Security Management", [
      PassControl("A.12.6.1", "Management of technical vulnerabilities"),
      PassControl("A.14.1.2", "Securing application services on public networks"),
      PassControl("A.14.1.3", "Protecting application services transactions"),
      PassControl("A.14.2.6", "Secure development environment"),
      PassControl("A.9.2.1", "User registration and de-registration")
    ]),
    StandardView("GDPR", "General Data Protection Regulation", [
      PassControl("Art. 32", "Security of processing")
    ]),
    StandardView("NIST CSF", "Cybersecurity Framework", [
      PassControl("PR.IP-1", "Data is protected at rest"),
      PassControl("ID.SC-1", "Cyber supply chain risk management processes are identified"),
      PassControl("DE.CM-8", "Vulnerability scans are performed")
    ])
  ]

  // ---------------------------------------------------------------------
  // Tags
  // ---------------------------------------------------------------------

  /** `const [stdName, controlId] = tag.split(': ')`: the first two pieces;
      the control id is undefined when the separator is missing. */
  function TagTarget(tag: string): (string, Option<string>) {
    var parts := Split(tag, ": ");
    (parts[0], if |parts| > 1 then Some(parts[1]) else None)
  }

  /** The tag designates control `id` of standard `name`. */
  predicate Matches(tag: string, name: string, id: string) {
    TagTarget(tag) == (name, Some(id))
  }

  /** A tag without the separator designates no control at all. */
  lemma TagWithoutSeparator(tag: string, name: string, id: string)
    requires !Contains(tag, ": ")
    ensures !Matches(tag, name, id)
  {
    SplitHead(tag, ": ");
  }

  /** The standard name is the text before the first separator. */
  lemma TagStandardIsPrefix(tag: string)
    requires Contains(tag, ": ")
    ensures TagTarget(tag).0 == tag[..IndexOf(tag, ": ").value]
    ensures TagTarget(tag).1.Some?
  {
    SplitHead(tag, ": ");
  }

  // ---------------------------------------------------------------------
  // The join
  // ---------------------------------------------------------------------

  /** The keys the page's two `find` calls compare: the standards' names
      and a standard's control ids, in order. The lookups themselves are
      `FirstIndex` over these. */
  function Names(stds: seq<StandardView>): seq<string> {
    seq(|stds|, i requires 0 <= i < |stds| => stds[i].name)
  }

  function Ids(cs: seq<ControlView>): seq<string> {
    seq(|cs|, i requires 0 <= i < |cs| => cs[i].id)
  }

  /** The control a tag designates is marked failed and gets the finding
      appended; nothing else changes. */
  function ApplyTag(stds: seq<StandardView>, v: Vulnerability, tag: string): seq<StandardView> {
    var (name, id) := TagTarget(tag);
    match FirstIndex(Names(stds), name)
    case None => stds
    case Some(i) =>
      if id.None? then stds
      else match FirstIndex(Ids(stds[i].controls), id.value)
        case None => stds
        case Some(j) =>
          var c := stds[i].controls[j];
          stds[i := stds[i].(controls := stds[i].controls[j := c.(status := Fail, issues := c.issues + [v])])]
  }

  function ApplyTags(stds: seq<StandardView>, v: Vulnerability, tags: seq<string>): seq<StandardView>
    decreases |tags|
  {
    if |tags| == 0 then stds else ApplyTags(ApplyTag(stds, v, tags[0]), v, tags[1..])
  }

  /** `vulns.forEach(v => { if (v.compliance) v.compliance.forEach(...) })`. */
  function ApplyVulns(stds: seq<StandardView>, vs: seq<Vulnerability>): seq<StandardView>
    decreases |vs|
  {
    if |vs| == 0 then stds
    else ApplyVulns(ApplyTags(stds, vs[0], vs[0].compliance.GetOr([])), vs[1..])
  }

  /** loadComplianceData: a failed fetch or an empty history leaves the
      standards list as it was (empty); otherwise only the first scan is
      joined, a missing vulnerability list counting as empty. Loading is
      cleared on every path. */
  function LoadComplianceData(page: PageState, history: Result<seq<ScanEntry>, string>): PageState {
    match history
    case Err(_) => page.(loading := false)
    case Ok(scans) =>
      if |scans| == 0 then page.(loading := false)
      else PageState(ApplyVulns(InitialStandards, scans[0].vulnerabilities.GetOr([])), false)
  }

  /** The Compliant badge: every control passes. */
  predicate Compliant(std: StandardView) {
    forall j :: 0 <= j < |std.controls| ==> std.controls[j].status == Pass
  }

  // ---------------------------------------------------------------------
  // Reference: what each control should end up holding
  // ---------------------------------------------------------------------

  /** Number of tags in `tags` designating control `id` of `name`. */
  function MatchCount(tags: seq<string>, name: string, id: string): nat {
    if |tags| == 0 then 0
    else (if Matches(tags[0], name, id) then 1 else 0) + MatchCount(tags[1..], name, id)
  }

  function Repeat(v: Vulnerability, n: nat): (r: seq<Vulnerability>)
    ensures |r| == n
    ensures forall k :: 0 <= k < n ==> r[k] == v
  {
    if n == 0 then [] else [v] + Repeat(v, n - 1)
  }

  /** Every (finding, tag) pair designating the control contributes the
      finding once, in finding order. */
  function MatchingIssues(vs: seq<Vulnerability>, name: string, id: string): seq<Vulnerability> {
    if |vs| == 0 then []
    else Repeat(vs[0], MatchCount(vs[0].compliance.GetOr([]), name, id)) + MatchingIssues(vs[1..], name, id)
  }

  /** Number of (finding, tag) pairs designating the control. */
  function PairCount(vs: seq<Vulnerability>, name: string, id: string): nat {
    if |vs| == 0 then 0
    else MatchCount(vs[0].compliance.GetOr([]), name, id) + PairCount(vs[1..], name, id)
  }

  /** A control after receiving `extra` findings: failed as soon as one
      arrives, and never back to passing. */
  function AddIssues(c: ControlView, extra: seq<Vulnerability>): ControlView {
    if |extra| == 0 then c else c.(status := Fail, issues := c.issues + extra)
  }

  lemma AddIssuesCompose(c: ControlView, a: seq<Vulnerability>, b: seq<Vulnerability>)
    ensures AddIssues(AddIssues(c, a), b) == AddIssues(c, a + b)
  {
    if |a| == 0 {
      assert a + b == b;
    } else if |b| == 0 {
      assert a + b == a;
    } else {
      assert c.issues + a + b == c.issues + (a + b);
    }
  }

  lemma RepeatAdd(v: Vulnerability, a: nat, b: nat)
    ensures Repeat(v, a + b) == Repeat(v, a) + Repeat(v, b)
  {
  }

  lemma MatchingIssuesLength(vs: seq<Vulnerability>, name: string, id: string)
    ensures |MatchingIssues(vs, name, id)| == PairCount(vs, name, id)
  {
  }

  // ---------------------------------------------------------------------
  // Shape
  // ---------------------------------------------------------------------

  predicate DistinctIds(cs: seq<ControlView>) {
    forall a, b :: 0 <= a < b < |cs| ==> cs[a].id != cs[b].id
  }

  /** Standard names are distinct, and so are control ids within each. */
  predicate WellFormed(stds: seq<StandardView>) {
    && (forall a, b :: 0 <= a < b < |stds| ==> stds[a].name != stds[b].name)
    && (forall k :: 0 <= k < |stds| ==> DistinctIds(stds[k].controls))
  }

  /** Same standards and controls, with the same names, ids and descriptions. */
  predicate SameShape(x: seq<StandardView>, y: seq<StandardView>) {
    && |x| == |y|
    && (forall i :: 0 <= i < |x| ==>
          x[i].name == y[i].name && x[i].description == y[i].description
          && |x[i].controls| == |y[i].controls|)
    && (forall i, j :: 0 <= i < |x| && 0 <= j < |x[i].controls| && j < |y[i].controls| ==>
          x[i].controls[j].id == y[i].controls[j].id
          && x[i].controls[j].description == y[i].controls[j].description)
  }

  lemma WellFormedInitial()
    ensures WellFormed(InitialStandards)
  {
    IsoIdsDistinct();
    NistIdsDistinct();
    assert DistinctIds(InitialStandards[1].controls);
    forall k | 0 <= k < |InitialStandards|
      ensures DistinctIds(InitialStandards[k].controls)
    {
      assert k == 0 || k == 1 || k == 2;
    }
  }

  lemma IsoIdsDistinct()
    ensures DistinctIds(InitialStandards[0].controls)
  {
  }

  lemma NistIdsDistinct()
    ensures DistinctIds(InitialStandards[2].controls)
  {
  }

  lemma SameShapeWellFormed(x: seq<StandardView>, y: seq<StandardView>)
    requires WellFormed(x) && SameShape(x, y)
    ensures WellFormed(y)
  {
    forall k | 0 <= k < |y|
      ensures DistinctIds(y[k].controls)
    {
      assert DistinctIds(x[k].controls);
    }
  }

  lemma SameShapeTrans(x: seq<StandardView>, y: seq<StandardView>, z: seq<StandardView>)
    requires SameShape(x, y) && SameShape(y, z)
    ensures SameShape(x, z)
  {
  }

  // ---------------------------------------------------------------------
  // Characterisation of the join
  // ---------------------------------------------------------------------

  /** One tag: the designated control, and only it, receives the finding. */
  lemma ApplyTagEffect(stds: seq<StandardView>, v: Vulnerability, tag: string)
    requires WellFormed(stds)
    ensures SameShape(stds, ApplyTag(stds, v, tag))
    ensures forall i, j :: 0 <= i < |stds| && 0 <= j < |stds[i].controls| ==>
              ApplyTag(stds, v, tag)[i].controls[j]
              == AddIssues(stds[i].controls[j],
                           if Matches(tag, stds[i].name, stds[i].controls[j].id) then [v] else [])
  {
    var r := ApplyTag(stds, v, tag);
    var (name, id) := TagTarget(tag);
    forall i, j | 0 <= i < |stds| && 0 <= j < |stds[i].controls|
      ensures r[i].controls[j]
              == AddIssues(stds[i].controls[j],
                           if Matches(tag, stds[i].name, stds[i].controls[j].id) then [v] else [])
    {
      var fs := FirstIndex(Names(stds), name);
      if Matches(tag, stds[i].name, stds[i].controls[j].id) {
        assert Names(stds)[i] == name;
        assert fs.Some? && Names(stds)[fs.value] == stds[fs.value].name;
        assert fs.value == i;
        assert DistinctIds(stds[i].controls);
        var fc := FirstIndex(Ids(stds[i].controls), id.value);
        assert Ids(stds[i].controls)[j] == id.value;
        assert fc.Some? && Ids(stds[i].controls)[fc.value] == stds[i].controls[fc.value].id;
        assert fc.value == j;
      } else if fs.Some? && fs.value == i && id.Some? {
        var fc := FirstIndex(Ids(stds[i].controls), id.value);
        assert fc.Some? ==> Ids(stds[i].controls)[fc.value] == stds[i].controls[fc.value].id;
        assert fc.None? || fc.value != j;
      }
    }
  }

  /** All tags of one finding: each control receives the finding once per
      tag designating it. */
  lemma {:induction false} ApplyTagsEffect(stds: seq<StandardView>, v: Vulnerability, tags: seq<string>)
    requires WellFormed(stds)
    ensures SameShape(stds, ApplyTags(stds, v, tags))
    ensures forall i, j :: 0 <= i < |stds| && 0 <= j < |stds[i].controls| ==>
              ApplyTags(stds, v, tags)[i].controls[j]
              == AddIssues(stds[i].controls[j], Repeat(v, MatchCount(tags, stds[i].name, stds[i].controls[j].id)))
    decreases |tags|
  {
    if |tags| > 0 {
      var mid := ApplyTag(stds, v, tags[0]);
      ApplyTagEffect(stds, v, tags[0]);
      SameShapeWellFormed(stds, mid);
      ApplyTagsEffect(mid, v, tags[1..]);
      SameShapeTrans(stds, mid, ApplyTags(mid, v, tags[1..]));
      assert ApplyTags(stds, v, tags) == ApplyTags(mid, v, tags[1..]);
      forall i, j | 0 <= i < |stds| && 0 <= j < |stds[i].controls|
        ensures ApplyTags(stds, v, tags)[i].controls[j]
                == AddIssues(stds[i].controls[j], Repeat(v, MatchCount(tags, stds[i].name, stds[i].controls[j].id)))
      {
        var c := stds[i].controls[j];
        var first := if Matches(tags[0], stds[i].name, c.id) then 1 else 0;
        var rest := MatchCount(tags[1..], stds[i].name, c.id);
        assert mid[i].controls[j] == AddIssues(c, Repeat(v, first));
        assert mid[i].name == stds[i].name && mid[i].controls[j].id == c.id;
        assert ApplyTags(stds, v, tags)[i].controls[j] == AddIssues(mid[i].controls[j], Repeat(v, rest));
        AddIssuesCompose(c, Repeat(v, first), Repeat(v, rest));
        RepeatAdd(v, first, rest);
      }
    }
  }

  /** All findings: each control ends up holding exactly the findings of
      the (finding, tag) pairs designating it, in order, and is failed iff
      it held some already or receives one. */
  lemma {:induction false} ApplyVulnsEffect(stds: seq<StandardView>, vs: seq<Vulnerability>)
    requires WellFormed(stds)
    ensures SameShape(stds, ApplyVulns(stds, vs))
    ensures forall i, j :: 0 <= i < |stds| && 0 <= j < |stds[i].controls| ==>
              ApplyVulns(stds, vs)[i].controls[j]
              == AddIssues(stds[i].controls[j], MatchingIssues(vs, stds[i].name, stds[i].controls[j].id))
    decreases |vs|
  {
    if |vs| > 0 {
      var mid := ApplyTags(stds, vs[0], vs[0].compliance.GetOr([]));
      ApplyTagsEffect(stds, vs[0], vs[0].compliance.GetOr([]));
      SameShapeWellFormed(stds, mid);
      ApplyVulnsEffect(mid, vs[1..]);
      SameShapeTrans(stds, mid, ApplyVulns(mid, vs[1..]));
      forall i, j | 0 <= i < |stds| && 0 <= j < |stds[i].controls|
        ensures ApplyVulns(stds, vs)[i].controls[j]
                == AddIssues(stds[i].controls[j], MatchingIssues(vs, stds[i].name, stds[i].controls[j].id))
      {
        var c := stds[i].controls[j];
        AddIssuesCompose(c, Repeat(vs[0], MatchCount(vs[0].compliance.GetOr([]), stds[i].name, c.id)),
                         MatchingIssues(vs[1..], stds[i].name, c.id));
      }
    }
  }

  // ---------------------------------------------------------------------
  // Page-level properties
  // ---------------------------------------------------------------------

  /** Empty history or a failed fetch: no standards shown, loading cleared. */
  lemma LoadWithoutScans(history: Result<seq<ScanEntry>, string>)
    requires history.Err? || history.value == []
    ensures LoadComplianceData(InitialPage, history) == PageState([], false)
  {
  }

  /** Only the latest scan (the first history entry) matters. */
  lemma OnlyFirstScanUsed(first: ScanEntry, rest: seq<ScanEntry>)
    ensures LoadComplianceData(InitialPage, Ok([first] + rest)) == LoadComplianceData(InitialPage, Ok([first]))
  {
  }

  /** A scan without findings, or whose finding list is missing, shows every
      control passing with no issues. */
  lemma MissingFindingsAllPass()
    ensures LoadComplianceData(InitialPage, Ok([ScanEntry(None)])).standards == InitialStandards
    ensures LoadComplianceData(InitialPage, Ok([ScanEntry(Some([]))])).standards == InitialStandards
  {
  }

  /** After a load with at least one scan, each control's issues are exactly
      the findings of the matching (finding, tag) pairs, duplicates counting
      twice; its status is failed iff it has an issue; and the standards,
      controls, ids and descriptions are those of the fixed lists. */
  lemma LoadJoin(first: ScanEntry, rest: seq<ScanEntry>)
    ensures var page := LoadComplianceData(InitialPage, Ok([first] + rest));
            var vs := first.vulnerabilities.GetOr([]);
            && !page.loading
            && SameShape(InitialStandards, page.standards)
            && forall i, j :: 0 <= i < |InitialStandards| && 0 <= j < |InitialStandards[i].controls| ==>
                 var c := page.standards[i].controls[j];
                 var name := InitialStandards[i].name;
                 var id := InitialStandards[i].controls[j].id;
                 && c.issues == MatchingIssues(vs, name, id)
                 && |c.issues| == PairCount(vs, name, id)
                 && (c.status == Fail <==> PairCount(vs, name, id) > 0)
  {
    var vs := first.vulnerabilities.GetOr([]);
    assert LoadComplianceData(InitialPage, Ok([first] + rest)).standards == ApplyVulns(InitialStandards, vs);
    WellFormedInitial();
    InitialAllClear();
    JoinFromClear(InitialStandards, vs);
  }

  /** Every control passing and without issues. */
  predicate AllClear(stds: seq<StandardView>) {
    forall i, j :: 0 <= i < |stds| && 0 <= j < |stds[i].controls| ==>
      stds[i].controls[j].status == Pass && stds[i].controls[j].issues == []
  }

  lemma InitialAllClear()
    ensures AllClear(InitialStandards)
  {
  }

  /** The join over standards that start clear. */
  lemma JoinFromClear(stds: seq<StandardView>, vs: seq<Vulnerability>)
    requires WellFormed(stds) && AllClear(stds)
    ensures SameShape(stds, ApplyVulns(stds, vs))
    ensures forall i, j :: 0 <= i < |stds| && 0 <= j < |stds[i].controls| ==>
              var c := ApplyVulns(stds, vs)[i].controls[j];
              var name := stds[i].name;
              var id := stds[i].controls[j].id;
              && c.issues == MatchingIssues(vs, name, id)
              && |c.issues| == PairCount(vs, name, id)
              && (c.status == Fail <==> PairCount(vs, name, id) > 0)
  {
    ApplyVulnsEffect(stds, vs);
    forall i, j | 0 <= i < |stds| && 0 <= j < |stds[i].controls|
      ensures |MatchingIssues(vs, stds[i].name, stds[i].controls[j].id)|
              == PairCount(vs, stds[i].name, stds[i].controls[j].id)
    {
      MatchingIssuesLength(vs, stds[i].name, stds[i].controls[j].id);
    }
  }

  /** Status is monotone: the join never turns a failed control back to
      passing, and never removes an issue. */
  lemma StatusMonotone(stds: seq<StandardView>, vs: seq<Vulnerability>, i: int, j: int)
    requires WellFormed(stds)
    requires 0 <= i < |stds| && 0 <= j < |stds[i].controls|
    ensures SameShape(stds, ApplyVulns(stds, vs))
    ensures stds[i].controls[j].status == Fail ==> ApplyVulns(stds, vs)[i].controls[j].status == Fail
    ensures stds[i].controls[j].issues <= ApplyVulns(stds, vs)[i].controls[j].issues
  {
    ApplyVulnsEffect(stds, vs);
  }

  /** A standard is shown Compliant iff no (finding, tag) pair designates
      any of its controls. */
  lemma CompliantIff(first: ScanEntry, rest: seq<ScanEntry>, i: int)
    requires 0 <= i < |InitialStandards|
    ensures var page := LoadComplianceData(InitialPage, Ok([first] + rest));
            var vs := first.vulnerabilities.GetOr([]);
            SameShape(InitialStandards, page.standards)
            && (Compliant(page.standards[i])
            <==> forall j :: 0 <= j < |InitialStandards[i].controls| ==>
                   PairCount(vs, InitialStandards[i].name, InitialStandards[i].controls[j].id) == 0)
  {
    LoadJoin(first, rest);
  }
}

=== FILE: container_scanner.dfy ===
/** The container image scanner (backend/internal/container/scanner.go): one
    Trivy run per image, its findings counted by severity, every scan kept
    in call order. The clock's Unix nanoseconds are a parameter. */
module ContainerScanner {
  import opened Strings
  import opened TrivyTally

  datatype ContainerScan = ContainerScan(id: string, image: string, status: string, counts: Tally, scannedAt: int)

  /** The demonstration figures reported when Trivy cannot be run. */
  const FallbackCounts := Tally(12, 2, 4, 6, 0)

  /** ScanImage: `run` holds the image findings' severities per result. */
  method ScanImage(scans: seq<ContainerScan>, image: string, nowNanos: int, run: TrivyRun<string>)
    returns (scans': seq<ContainerScan>, scan: ContainerScan)
    ensures scans' == scans + [scan]
    ensures scan.id == "scan-" + IntToString(nowNanos) && scan.image == image && scan.scannedAt == nowNanos
    ensures run.ExecFailed? ==> scan.status == "Failed (Mock Fallback)" && scan.counts == FallbackCounts
    ensures run.Unparseable? ==> scan.status == "Parse Error" && scan.counts == Zero
    ensures run.Parsed? ==> scan.status == "Completed" && scan.counts == TallyOf(Concat(run.results))
  {
    scan := ContainerScan("scan-" + IntToString(nowNanos), image, "Completed", Zero, nowNanos);
    match run {
      case ExecFailed(_) =>
        scan := scan.(status := "Failed (Mock Fallback)", counts := FallbackCounts);
      case Unparseable =>
        scan := scan.(status := "Parse Error");
      case Parsed(results) =>
        var t := CountSeverities(results);
        scan := scan.(counts := t);
    }
    scans' := scans + [scan];
  }

  /** GetScans returns the kept scans: after a run of calls, the scans in
      call order, one per call. */
  function GetScans(scans: seq<ContainerScan>): seq<ContainerScan> {
    scans
  }

  /** A completed scan's severity counters never exceed its total. */
  lemma CompletedCountsBounded(run: TrivyRun<string>)
    requires run.Parsed?
    ensures var t := TallyOf(Concat(run.results)); t.critical + t.high + t.medium + t.low <= t.total
  {
    TallyBounded(Concat(run.results));
  }
}

=== FILE: custom_report.dfy ===
/** Custom report assembly (backend/internal/reporting/custom.go). The
    generation instant enters as its RFC 1123 rendering; the content is
    modelled as text (the bytes are its UTF-8 encoding). */
module CustomReport {
  import opened Wrappers
  import opened Strings
  import opened ScanTypes

  datatype ReportConfig = ReportConfig(title: string, includeVulns: bool, includeCloud: bool,
                                       includeLogs: bool, format: string)

  datatype CloudAsset = CloudAsset(id: string, name: string, kind: string, provider: string,
                                   region: string, status: string, riskScore: int)

  /** Text followed by a newline per line, in order. */
  function Unlines(ls: seq<string>): string {
    if |ls| == 0 then "" else ls[0] + "\n" + Unlines(ls[1..])
  }

  function VulnLine(v: Vuln): string {
    "- [" + v.severity + "] " + v.title
  }

  function AssetLine(a: CloudAsset): string {
    "- [" + a.provider + "] " + a.name + " (" + a.kind + ") - Risk: " + IntToString(a.riskScore)
  }

  function VulnLines(vs: seq<Vuln>): (r: seq<string>)
    ensures |r| == |vs| && forall i :: 0 <= i < |vs| ==> r[i] == VulnLine(vs[i])
  {
    if |vs| == 0 then [] else [VulnLine(vs[0])] + VulnLines(vs[1..])
  }

  function AssetLines(as_: seq<CloudAsset>): (r: seq<string>)
    ensures |r| == |as_| && forall i :: 0 <= i < |as_| ==> r[i] == AssetLine(as_[i])
  {
    if |as_| == 0 then [] else [AssetLine(as_[0])] + AssetLines(as_[1..])
  }

  function Header(title: string, generated: string): string {
    "Report: " + title + "\nGenerated: " + generated + "\n\n"
  }

  function VulnSection(vulns: seq<Vuln>): string {
    "Vulnerabilities Found: " + IntToString(|vulns|) + "\n" + Unlines(VulnLines(vulns))
  }

  function CloudSection(assets: seq<CloudAsset>): string {
    "\n" + CloudTitle(|assets|) + "\n" + Unlines(AssetLines(assets))
  }

  function CloudTitle(n: int): string {
    "Cloud Posture: " + IntToString(n) + " Assets Scanned"
  }

  /** GenerateCustomReport: the header, then the findings section when
      asked for, then the cloud section when asked for; each item adds one
      line. Nothing can fail. */
  function GenerateCustomReport(config: ReportConfig, vulns: seq<Vuln>, assets: seq<CloudAsset>,
                                generated: string): (r: Result<string, string>)
    ensures r.Ok?
    ensures Header(config.title, generated) <= r.value
  {
    var content := Header(config.title, generated);
    var content := if config.includeVulns then content + VulnSection(vulns) else content;
    var content := if config.includeCloud then content + CloudSection(assets) else content;
    Ok(content)
  }

  // ---------------------------------------------------------------------
  // Reading a report back
  // ---------------------------------------------------------------------

  predicate NoNewline(s: string) { '\n' !in s }

  function HeaderLines(title: string, generated: string): seq<string> {
    ["Report: " + title, "Generated: " + generated, ""]
  }

  function VulnSectionLines(vulns: seq<Vuln>): seq<string> {
    ["Vulnerabilities Found: " + IntToString(|vulns|)] + VulnLines(vulns)
  }

  function CloudSectionLines(assets: seq<CloudAsset>): seq<string> {
    ["", CloudTitle(|assets|)] + AssetLines(assets)
  }

  /** The lines a report consists of. */
  function ExpectedLines(config: ReportConfig, vulns: seq<Vuln>, assets: seq<CloudAsset>,
                         generated: string): seq<string> {
    HeaderLines(config.title, generated)
    + (if config.includeVulns then VulnSectionLines(vulns) else [])
    + (if config.includeCloud then CloudSectionLines(assets) else [])
  }

  lemma {:induction false} UnlinesAppend(a: seq<string>, b: seq<string>)
    ensures Unlines(a + b) == Unlines(a) + Unlines(b)
    decreases |a|
  {
    if |a| == 0 {
      assert a + b == b;
    } else {
      assert (a + b)[0] == a[0];
      assert (a + b)[1..] == a[1..] + b;
      UnlinesAppend(a[1..], b);
    }
  }

  /** Splitting newline-free lines joined by newlines gives the lines back. */
  lemma {:induction false} SplitUnlines(ls: seq<string>, rest: string)
    requires forall i :: 0 <= i < |ls| ==> NoNewline(ls[i])
    ensures Split(Unlines(ls) + rest, "\n") == ls + Split(rest, "\n")
    decreases |ls|
  {
    if |ls| == 0 {
      assert Unlines(ls) + rest == rest;
    } else {
      var after := Unlines(ls[1..]) + rest;
      var tail := Split(after, "\n");
      assert tail == ls[1..] + Split(rest, "\n") by {
        SplitUnlines(ls[1..], rest);
      }
      assert Unlines(ls) + rest == ls[0] + ['\n'] + after by {
        assert Unlines(ls) == ls[0] + "\n" + Unlines(ls[1..]);
        ConcatAssoc(ls[0] + "\n", Unlines(ls[1..]), rest);
      }
      assert Split(ls[0] + ['\n'] + after, "\n") == [ls[0]] + tail by {
        assert NoNewline(ls[0]);
        SplitOnCharAt(ls[0], '\n', after);
      }
      assert [ls[0]] + tail == ls + Split(rest, "\n") by {
        assert ls == [ls[0]] + ls[1..];
        ConcatAssoc([ls[0]], ls[1..], Split(rest, "\n"));
      }
    }
  }

  lemma ConcatAssoc<T>(a: seq<T>, b: seq<T>, c: seq<T>)
    ensures a + b + c == a + (b + c)
  {
  }

  lemma NumberNoNewline(n: int)
    ensures NoNewline(IntToString(n))
  {
  }

  lemma UnlinesOne(a: string)
    ensures Unlines([a]) == a + "\n"
  {
    assert [a][1..] == [];
  }

  lemma UnlinesTwo(a: string, b: string)
    ensures Unlines([a, b]) == a + "\n" + b + "\n"
  {
    assert [a, b][1..] == [b];
    UnlinesOne(b);
  }

  lemma HeaderIsLines(title: string, generated: string)
    ensures Header(title, generated) == Unlines(HeaderLines(title, generated))
  {
    var a, b := "Report: " + title, "Generated: " + generated;
    var ls := [a, b, ""];
    assert ls[1..] == [b, ""] && ls[1..][1..] == [""];
    UnlinesOne("");
    assert Unlines(ls) == a + "\n" + (b + "\n" + ("" + "\n"));
    assert "\nGenerated: " == "\n" + "Generated: ";
    assert "\n\n" == "\n" + ("" + "\n");
  }

  lemma VulnSectionIsLines(vulns: seq<Vuln>)
    ensures VulnSection(vulns) == Unlines(VulnSectionLines(vulns))
  {
    var first := "Vulnerabilities Found: " + IntToString(|vulns|);
    UnlinesAppend([first], VulnLines(vulns));
    UnlinesOne(first);
  }

  lemma CloudSectionIsLines(assets: seq<CloudAsset>)
    ensures CloudSection(assets) == Unlines(CloudSectionLines(assets))
  {
    var second := CloudTitle(|assets|);
    UnlinesAppend(["", second], AssetLines(assets));
    UnlinesTwo("", second);
    var nl := "\n";
    assert "" + nl == nl;
  }

  /** The content is exactly the expected lines joined by newlines. */
  lemma ContentIsLines(config: ReportConfig, vulns: seq<Vuln>, assets: seq<CloudAsset>, generated: string)
    ensures GenerateCustomReport(config, vulns, assets, generated).value
            == Unlines(ExpectedLines(config, vulns, assets, generated))
  {
    var head := HeaderLines(config.title, generated);
    var vs := if config.includeVulns then VulnSectionLines(vulns) else [];
    var cs := if config.includeCloud then CloudSectionLines(assets) else [];
    UnlinesAppend(head + vs, cs);
    UnlinesAppend(head, vs);
    HeaderIsLines(config.title, generated);
    VulnSectionIsLines(vulns);
    CloudSectionIsLines(assets);
    var h := Header(config.title, generated);
    if !config.includeVulns {
      assert Unlines(vs) == "" && Unlines(head) + "" == Unlines(head);
    }
    if !config.includeCloud {
      assert Unlines(cs) == "" && Unlines(head + vs) + "" == Unlines(head + vs);
    }
  }

  predicate AllNoNewline(ls: seq<string>) {
    forall i :: 0 <= i < |ls| ==> NoNewline(ls[i])
  }

  lemma AllNoNewlineAppend(a: seq<string>, b: seq<string>)
    requires AllNoNewline(a) && AllNoNewline(b)
    ensures AllNoNewline(a + b)
  {
    forall i | 0 <= i < |a + b|
      ensures NoNewline((a + b)[i])
    {
      if i < |a| {
        assert (a + b)[i] == a[i];
      } else {
        assert (a + b)[i] == b[i - |a|];
      }
    }
  }

  lemma VulnLineNoNewline(v: Vuln)
    requires NoNewline(v.severity) && NoNewline(v.title)
    ensures NoNewline(VulnLine(v))
  {
  }

  lemma AssetLineNoNewline(a: CloudAsset)
    requires NoNewline(a.provider) && NoNewline(a.name) && NoNewline(a.kind)
    ensures NoNewline(AssetLine(a))
  {
    NumberNoNewline(a.riskScore);
  }

  lemma HeaderLinesNoNewline(title: string, generated: string)
    requires NoNewline(title) && NoNewline(generated)
    ensures AllNoNewline(HeaderLines(title, generated))
  {
    assert NoNewline("Report: " + title);
    assert NoNewline("Generated: " + generated);
  }

  lemma VulnSectionNoNewline(vulns: seq<Vuln>)
    requires forall v :: v in vulns ==> NoNewline(v.severity) && NoNewline(v.title)
    ensures AllNoNewline(VulnSectionLines(vulns))
  {
    var vl := VulnLines(vulns);
    forall i | 0 <= i < |vl|
      ensures NoNewline(vl[i])
    {
      assert vulns[i] in vulns;
      VulnLineNoNewline(vulns[i]);
    }
    NumberNoNewline(|vulns|);
    AllNoNewlineAppend(["Vulnerabilities Found: " + IntToString(|vulns|)], vl);
  }

  lemma CloudSectionNoNewline(assets: seq<CloudAsset>)
    requires forall a :: a in assets ==> NoNewline(a.provider) && NoNewline(a.name) && NoNewline(a.kind)
    ensures AllNoNewline(CloudSectionLines(assets))
  {
    var al := AssetLines(assets);
    forall i | 0 <= i < |al|
      ensures NoNewline(al[i])
    {
      assert assets[i] in assets;
      AssetLineNoNewline(assets[i]);
    }
    NumberNoNewline(|assets|);
    assert NoNewline(CloudTitle(|assets|));
    AllNoNewlineAppend(["", CloudTitle(|assets|)], al);
  }

  lemma LinesNoNewline(config: ReportConfig, vulns: seq<Vuln>, assets: seq<CloudAsset>, generated: string)
    requires NoNewline(config.title) && NoNewline(generated)
    requires forall v :: v in vulns ==> NoNewline(v.severity) && NoNewline(v.title)
    requires forall a :: a in assets ==> NoNewline(a.provider) && NoNewline(a.name) && NoNewline(a.kind)
    ensures AllNoNewline(ExpectedLines(config, vulns, assets, generated))
  {
    var head := HeaderLines(config.title, generated);
    var vs := if config.includeVulns then VulnSectionLines(vulns) else [];
    var cs := if config.includeCloud then CloudSectionLines(assets) else [];
    HeaderLinesNoNewline(config.title, generated);
    if config.includeVulns {
      VulnSectionNoNewline(vulns);
    }
    if config.includeCloud {
      CloudSectionNoNewline(assets);
    }
    AllNoNewlineAppend(head, vs);
    AllNoNewlineAppend(head + vs, cs);
  }

  /** Read back line by line, a report whose fields hold no newline has the
      header lines, then one line announcing the findings and one per
      finding in input order when findings are included, then an empty
      line, one announcing the assets and one per asset when cloud assets
      are included, and a final empty piece after the last newline. */
  lemma ReportLines(config: ReportConfig, vulns: seq<Vuln>, assets: seq<CloudAsset>, generated: string)
    requires NoNewline(config.title) && NoNewline(generated)
    requires forall v :: v in vulns ==> NoNewline(v.severity) && NoNewline(v.title)
    requires forall a :: a in assets ==> NoNewline(a.provider) && NoNewline(a.name) && NoNewline(a.kind)
    ensures Split(GenerateCustomReport(config, vulns, assets, generated).value, "\n")
            == ExpectedLines(config, vulns, assets, generated) + [""]
  {
    var ls := ExpectedLines(config, vulns, assets, generated);
    LinesNoNewline(config, vulns, assets, generated);
    ContentIsLines(config, vulns, assets, generated);
    SplitUnlines(ls, "");
    assert Unlines(ls) + "" == Unlines(ls);
    SplitOnCharAbsent("", '\n');
  }

  /** The logs flag and the format do not change the content. */
  lemma LogsAndFormatIgnored(config: ReportConfig, vulns: seq<Vuln>, assets: seq<CloudAsset>,
                             generated: string, logs: bool, format: string)
    ensures GenerateCustomReport(config.(includeLogs := logs, format := format), vulns, assets, generated)
            == GenerateCustomReport(config, vulns, assets, generated)
  {
  }

  /** With both sections off the report is the header alone. */
  lemma HeaderOnly(config: ReportConfig, vulns: seq<Vuln>, assets: seq<CloudAsset>, generated: string)
    requires !config.includeVulns && !config.includeCloud
    ensures GenerateCustomReport(config, vulns, assets, generated).value == Header(config.title, generated)
  {
  }
}

=== FILE: darkweb.dfy ===
/** The dark-web breach lookup (backend/internal/scanner/darkweb.go). The
    package-level results map becomes an explicit store; the clock's Unix
    seconds are a parameter. */
module DarkWeb {
  import opened Wrappers
  import opened Strings
  import opened ScanTypes

  /** The local breach database, keyed by lower-case address. */
  const KnownBreaches: map<string, seq<string>> := map[
    "test@example.com" := ["Collection #1", "Verifications.io"],
    "admin@corp.com" := ["LinkedIn 2016", "Adobe"],
    "ceo@cyberhash.ai" := ["Exploit.in"],
    "user@gmail.com" := ["MySpace"]
  ]

  const ExposedDomain := "example.com"

  /** `strings.Split(target, "@")[1]`: the text between the first and the
      second '@'. */
  function DomainOf(target: string): string
    requires Contains(target, "@")
  {
    SplitHead(target, "@");
    Split(target, "@")[1]
  }

  /** The breaches a target appears in, or None. The address lookup is on
      the lower-cased target; only when it misses and the target holds an
      '@' is the domain, in its original case, compared with the one
      exposed domain. */
  function Breaches(target: string): (r: Option<seq<string>>)
    ensures ToLower(target) in KnownBreaches ==> r == Some(KnownBreaches[ToLower(target)])
    ensures ToLower(target) !in KnownBreaches ==>
              (r.Some? <==> Contains(target, "@") && DomainOf(target) == ExposedDomain)
    ensures ToLower(target) !in KnownBreaches && r.Some? ==> r.value == ["Domain Exposure 2024"]
  {
    var key := ToLower(target);
    if key in KnownBreaches then Some(KnownBreaches[key])
    else if Contains(target, "@") && DomainOf(target) == ExposedDomain then Some(["Domain Exposure 2024"])
    else None
  }

  /** The single finding a scan reports. */
  function Finding(target: string): (v: Vuln)
    ensures Breaches(target).Some? <==> v.severity == "Critical"
    ensures Breaches(target).Some? <==> v.title == "Credentials Found in Breach"
    ensures Breaches(target).None? <==> v.severity == "Info"
    ensures Breaches(target).None? <==> v.title == "No Leaks Found"
    ensures v.category == "Dark Web"
  {
    match Breaches(target)
    case Some(b) =>
      Vuln("Credentials Found in Breach",
           "Target " + target + " found in breaches: " + Join(b, ", "),
           "Critical", "Dark Web", "Rotate passwords immediately and enable MFA.")
    case None =>
      Vuln("No Leaks Found", "Target " + target + " not found in known breach databases.",
           "Info", "Dark Web", "Continue monitoring.")
  }

  type Store = map<string, ScanResult>

  datatype Started = Started(id: string, store: Store)

  /** Start: the id is "darkweb-" and the Unix seconds; the stored result is
      completed at once (its target is not recorded), replacing any result
      stored under the same id. */
  function Start(store: Store, target: string, unixSeconds: int): (r: Started)
    ensures r.id == "darkweb-" + IntToString(unixSeconds)
    ensures r.store.Keys == store.Keys + {r.id}
    ensures r.store[r.id].status == "completed" && r.store[r.id].scanId == r.id
    ensures r.store[r.id].vulnerabilities == [Finding(target)]
    ensures forall k :: k in store && k != r.id ==> r.store[k] == store[k]
  {
    var id := "darkweb-" + IntToString(unixSeconds);
    Started(id, store[id := ScanResult(id, "", "completed", [Finding(target)])])
  }

  datatype Status = Status(status: string, progress: int)

  function GetStatus(store: Store, id: string): (r: Status)
    ensures id in store <==> r == Status("completed", 100)
    ensures id !in store <==> r == Status("unknown", 0)
  {
    if id in store then Status("completed", 100) else Status("unknown", 0)
  }

  function GetResults(store: Store, id: string): (r: Result<ScanResult, string>)
    ensures id in store <==> r.Ok?
    ensures r.Ok? ==> r.value == store[id]
    ensures r.Err? ==> r.error == "scan not found"
  {
    if id in store then Ok(store[id]) else Err("scan not found")
  }

  // ---------------------------------------------------------------------
  // Properties
  // ---------------------------------------------------------------------

  /** A started scan is immediately complete and its results hold exactly
      the one finding for the target. */
  lemma StartThenQuery(store: Store, target: string, unixSeconds: int)
    ensures var s := Start(store, target, unixSeconds);
            && GetStatus(s.store, s.id) == Status("completed", 100)
            && GetResults(s.store, s.id).Ok?
            && GetResults(s.store, s.id).value.vulnerabilities == [Finding(target)]
  {
  }

  /** The address lookup ignores case. */
  lemma AddressLookupIgnoresCase(target: string)
    requires ToLower(target) in KnownBreaches
    ensures Breaches(ToUpper(target)) == Breaches(target)
  {
    ToLowerAfterToUpper(target);
  }

  /** Any address at the exposed domain counts as breached, even one that
      is not in the database. */
  lemma ExposedDomainFound(local: string)
    requires '@' !in local
    ensures Breaches(local + "@" + ExposedDomain).Some?
  {
    DomainSplit(local, ExposedDomain);
  }

  /** For an address missing from the database, the domain decides, and
      the comparison is exact: "EXAMPLE.COM" is not the exposed domain. */
  lemma DomainFallback(local: string, domain: string)
    requires '@' !in local && '@' !in domain
    requires ToLower(local + "@" + domain) !in KnownBreaches
    ensures Breaches(local + "@" + domain).Some? <==> domain == ExposedDomain
  {
    DomainSplit(local, domain);
  }

  lemma DomainSplit(local: string, domain: string)
    requires '@' !in local && '@' !in domain
    ensures Contains(local + "@" + domain, "@")
    ensures DomainOf(local + "@" + domain) == domain
  {
    var target := local + "@" + domain;
    assert target == local + ['@'] + domain;
    SplitOnCharAt(local, '@', domain);
    SplitOnCharAbsent(domain, '@');
    assert target[|local|] == '@';
    OccursAtChar(target, '@', |local|);
  }

  /** A target without '@' that is not in the database is never found. */
  lemma NoAtSignNoDomainFallback(target: string)
    requires ToLower(target) !in KnownBreaches && !Contains(target, "@")
    ensures Finding(target).title == "No Leaks Found"
  {
  }
}

=== FILE: dashboard_stats.dfy ===
/** The dashboard statistics endpoint and the integration test-message
    routing of the HTTP server (backend/internal/api/server.go). */
module DashboardStats {
  import opened Wrappers
  import opened ScanTypes

  datatype Stats = Stats(vulns: int, critical: int, high: int, medium: int, low: int, score: int)

  /** An HTTP reply: status code and either the stats or an error text. */
  datatype StatsReply = StatsReply(code: int, body: Result<Stats, string>)

  // ---------------------------------------------------------------------
  // Reference definition
  // ---------------------------------------------------------------------

  /** Number of findings whose severity is exactly `sev`. */
  function CountSeverity(vs: seq<Vuln>, sev: string): nat {
    if |vs| == 0 then 0
    else CountSeverity(vs[..|vs| - 1], sev) + (if vs[|vs| - 1].severity == sev then 1 else 0)
  }

  function Weighted(critical: int, high: int, medium: int, low: int): int {
    critical * 10 + high * 5 + medium * 2 + low
  }

  /** `100 - weighted`, floored at 0; the counters' weighted sum is never
      negative, so the score never exceeds 100. */
  function Score(weighted: int): (r: int)
    ensures 0 <= r
    ensures weighted >= 0 ==> r <= 100
    ensures r == 0 <==> weighted >= 100
    ensures r > 0 ==> r + weighted == 100
  {
    if 100 - weighted < 0 then 0 else 100 - weighted
  }

  /** The statistics of a list of findings, stated without loops. */
  function StatsOf(vs: seq<Vuln>): Stats {
    var c := CountSeverity(vs, "Critical");
    var h := CountSeverity(vs, "High");
    var m := CountSeverity(vs, "Medium");
    var l := CountSeverity(vs, "Low");
    Stats(|vs|, c, h, m, l, Score(Weighted(c, h, m, l)))
  }

  // ---------------------------------------------------------------------
  // The handler
  // ---------------------------------------------------------------------

  /** The five counters hold the statistics of the findings `seen`. */
  predicate Counted(vulns: int, critical: int, high: int, medium: int, low: int, seen: seq<Vuln>) {
    && vulns == |seen|
    && critical == CountSeverity(seen, "Critical")
    && high == CountSeverity(seen, "High")
    && medium == CountSeverity(seen, "Medium")
    && low == CountSeverity(seen, "Low")
  }

  lemma CountSeveritySnoc(vs: seq<Vuln>, v: Vuln, sev: string)
    ensures CountSeverity(vs + [v], sev) == CountSeverity(vs, sev) + (if v.severity == sev then 1 else 0)
  {
    assert (vs + [v])[..|vs|] == vs;
  }

  /** The inner loop over one scan's findings, continuing the counts of the
      findings already seen. */
  method CountScan(vulns0: int, critical0: int, high0: int, medium0: int, low0: int,
                   ghost seen: seq<Vuln>, scanVulns: seq<Vuln>)
    returns (vulns: int, critical: int, high: int, medium: int, low: int)
    requires Counted(vulns0, critical0, high0, medium0, low0, seen)
    ensures Counted(vulns, critical, high, medium, low, seen + scanVulns)
  {
    vulns, critical, high, medium, low := vulns0, critical0, high0, medium0, low0;
    var j := 0;
    assert seen + scanVulns[..0] == seen;
    while j < |scanVulns|
      invariant 0 <= j <= |scanVulns|
      invariant Counted(vulns, critical, high, medium, low, seen + scanVulns[..j])
    {
      var v := scanVulns[j];
      var sev := v.severity;
      ghost var cur := seen + scanVulns[..j];
      assert seen + scanVulns[..j + 1] == cur + [v];
      CountSeveritySnoc(cur, v, "Critical");
      CountSeveritySnoc(cur, v, "High");
      CountSeveritySnoc(cur, v, "Medium");
      CountSeveritySnoc(cur, v, "Low");
      vulns := vulns + 1;
      if sev == "Critical" {
        critical := critical + 1;
      } else if sev == "High" {
        high := high + 1;
      } else if sev == "Medium" {
        medium := medium + 1;
      } else if sev == "Low" {
        low := low + 1;
      }
      j := j + 1;
    }
    assert scanVulns[..j] == scanVulns;
  }

  /** The counting loops: every finding of every scan bumps the total once
      and at most one severity counter; the score is clamped. */
  method ComputeStats(history: seq<ScanResult>) returns (s: Stats)
    ensures s == StatsOf(Flatten(history))
    ensures s.critical + s.high + s.medium + s.low <= s.vulns
    ensures 0 <= s.score <= 100
  {
    var vulns, critical, high, medium, low := 0, 0, 0, 0, 0;
    var i := 0;
    while i < |history|
      invariant 0 <= i <= |history|
      invariant Counted(vulns, critical, high, medium, low, Flatten(history[..i]))
    {
      vulns, critical, high, medium, low := CountScan(vulns, critical, high, medium, low,
                                                      Flatten(history[..i]), history[i].vulnerabilities);
      assert history[..i + 1] == history[..i] + [history[i]];
      FlattenAppend(history[..i], history[i]);
      i := i + 1;
    }
    assert history[..i] == history;
    var weighted := critical * 10 + high * 5 + medium * 2 + low;
    var score := 100 - weighted;
    if score < 0 {
      score := 0;
    }
    s := Stats(vulns, critical, high, medium, low, score);
    SeverityCountsBounded(Flatten(history));
  }

  /** getDashboardStats: a failed history lookup is a 500 with no stats;
      otherwise a 200 carrying the stats of every finding in the history. */
  method GetDashboardStats(history: Result<seq<ScanResult>, string>) returns (reply: StatsReply)
    ensures history.Err? ==> reply == StatsReply(500, Err("Failed to get history"))
    ensures history.Ok? ==> reply.code == 200 && reply.body == Ok(StatsOf(Flatten(history.value)))
  {
    if history.Err? {
      return StatsReply(500, Err("Failed to get history"));
    }
    var s := ComputeStats(history.value);
    return StatsReply(200, Ok(s));
  }

  // ---------------------------------------------------------------------
  // Properties of the reference
  // ---------------------------------------------------------------------

  /** The four severity counters together never exceed the total, since a
      finding bumps at most one of them. */
  lemma {:induction false} SeverityCountsBounded(vs: seq<Vuln>)
    ensures CountSeverity(vs, "Critical") + CountSeverity(vs, "High")
            + CountSeverity(vs, "Medium") + CountSeverity(vs, "Low") <= |vs|
    decreases |vs|
  {
    if |vs| > 0 {
      SeverityCountsBounded(vs[..|vs| - 1]);
    }
  }

  /** One more finding, of any severity, never raises the score. */
  lemma AddingFindingNeverRaisesScore(vs: seq<Vuln>, v: Vuln)
    ensures StatsOf(vs + [v]).score <= StatsOf(vs).score
    ensures StatsOf(vs + [v]).vulns == StatsOf(vs).vulns + 1
  {
    assert (vs + [v])[..|vs|] == vs;
  }

  /** A finding whose severity is none of the four exact names leaves every
      counter but the total, and the score, unchanged. */
  lemma UnrankedSeverityOnlyCounts(vs: seq<Vuln>, v: Vuln)
    requires v.severity !in ["Critical", "High", "Medium", "Low"]
    ensures var before := StatsOf(vs);
            var after := StatsOf(vs + [v]);
            after == before.(vulns := before.vulns + 1)
  {
    assert (vs + [v])[..|vs|] == vs;
  }

  /** A critical finding lowers a positive score by 10, floored at 0. */
  lemma CriticalCostsTen(vs: seq<Vuln>, v: Vuln)
    requires v.severity == "Critical"
    ensures StatsOf(vs + [v]).score == if StatsOf(vs).score > 10 then StatsOf(vs).score - 10 else 0
  {
    assert (vs + [v])[..|vs|] == vs;
  }

  /** No findings: a perfect score. */
  lemma EmptyHistoryPerfect()
    ensures StatsOf(Flatten([])) == Stats(0, 0, 0, 0, 0, 100)
  {
  }

  // ---------------------------------------------------------------------
  // Test-message routing
  // ---------------------------------------------------------------------

  datatype Channel = Slack | Jira | Teams {
    function Name(): string {
      match this
      case Slack => "Slack"
      case Jira => "Jira"
      case Teams => "Teams"
    }
  }

  /** sendTestIntegrationMessage: Jira and Teams by exact name, Slack for
      any other requested type. */
  function RouteTestMessage(requested: string): (ch: Channel)
    ensures ch.Name() == requested || (ch == Slack && requested != "Jira" && requested != "Teams")
  {
    if requested == Jira.Name() then Jira
    else if requested == "Teams" then Teams
    else Slack
  }

  /** Routing is faithful to every channel's own name, so it inverts Name. */
  lemma RouteNameRoundTrip(ch: Channel)
    ensures RouteTestMessage(ch.Name()) == ch
  {
  }

  /** Any other requested type falls back to Slack. */
  lemma RouteFallback(requested: string)
    ensures RouteTestMessage(requested) == Slack <==> requested != "Jira" && requested != "Teams"
  {
  }
}

=== FILE: dashboard_view.dfy ===
/** The dashboard page's client-side state (frontend/src/pages/Dashboard.tsx):
    the bounded live-message buffer, the ten-entry log panel, and the
    flatten / severity-sort / top-five list of findings. */
module DashboardView {
  import opened Wrappers
  import opened ScanTypes
  import DashboardStats
  import Strings

  const MessageCapacity := 50
  const LogCapacity := 10
  const TopCount := 5

  function Min(a: int, b: int): int { if a < b then a else b }

  // ---------------------------------------------------------------------
  // Bounded newest-first buffers
  // ---------------------------------------------------------------------

  /** `[item, ...prev].slice(0, cap)`. */
  function Push<T>(buf: seq<T>, item: T, cap: nat): (r: seq<T>)
    requires cap > 0
    ensures |r| == Min(cap, |buf| + 1)
    ensures r[0] == item
    ensures forall k :: 0 <= k < |r| - 1 ==> r[k + 1] == buf[k]
  {
    ([item] + buf)[..Min(cap, |buf| + 1)]
  }

  /** The buffer after pushing every item of `items`, oldest first, onto an
      empty buffer. */
  function Feed<T>(items: seq<T>, cap: nat): seq<T>
    requires cap > 0
  {
    if |items| == 0 then [] else Push(Feed(items[..|items| - 1], cap), items[|items| - 1], cap)
  }

  /** A buffer fed one item at a time holds the `cap` most recent items,
      newest first: nothing is lost below capacity and nothing is
      reordered. */
  lemma {:induction false} FeedKeepsNewest<T>(items: seq<T>, cap: nat)
    requires cap > 0
    ensures Feed(items, cap) == Strings.Reverse(items)[..Min(cap, |items|)]
    decreases |items|
  {
    if |items| > 0 {
      var prefix := items[..|items| - 1];
      FeedKeepsNewest(prefix, cap);
      var f := Feed(items, cap);
      var want := Strings.Reverse(items)[..Min(cap, |items|)];
      assert |f| == |want|;
      forall k | 0 <= k < |f|
        ensures f[k] == want[k]
      {
        if k > 0 {
          assert f[k] == Feed(prefix, cap)[k - 1];
          assert Strings.Reverse(prefix)[k - 1] == items[|items| - 1 - k];
        }
      }
    }
  }

  // ---------------------------------------------------------------------
  // Live messages and the log panel
  // ---------------------------------------------------------------------

  datatype Feeds = Feeds(messages: seq<string>, logs: seq<string>)

  /** The effect on `messages`, as written: when the buffer is non-empty,
      its LAST element is pushed onto the log panel. */
  function LogEffectAsWritten(logs: seq<string>, messages: seq<string>): (r: seq<string>)
    ensures |messages| == 0 ==> r == logs
    ensures |messages| > 0 ==> r == Push(logs, messages[|messages| - 1], LogCapacity)
  {
    if |messages| > 0 then Push(logs, messages[|messages| - 1], LogCapacity) else logs
  }

  /** One websocket message arrives, and the effect then runs once. */
  function ReceiveAsWritten(f: Feeds, message: string): (r: Feeds)
    ensures r.messages == Push(f.messages, message, MessageCapacity)
  {
    var messages := Push(f.messages, message, MessageCapacity);
    Feeds(messages, LogEffectAsWritten(f.logs, messages))
  }

  /** With the buffer newest-first, its last element is the OLDEST message
      kept: two different messages leave the first one logged twice and the
      second one not at all. */
  lemma LogRepeatsOldest(m1: string, m2: string)
    requires m1 != m2
    ensures ReceiveAsWritten(ReceiveAsWritten(Feeds([], []), m1), m2).logs == [m1, m1]
  {
    var f1 := ReceiveAsWritten(Feeds([], []), m1);
    assert f1.messages == [m1];
    assert f1.logs == [m1];
    var f2 := ReceiveAsWritten(f1, m2);
    assert f2.messages == [m2, m1];
  }

  /** The log panel as evidently intended: the newest message, which is at
      the head of the buffer, is logged. */
  function LogEffect(logs: seq<string>, messages: seq<string>): (r: seq<string>)
    ensures |messages| == 0 ==> r == logs
    ensures |messages| > 0 ==> 1 <= |r| <= LogCapacity && r[0] == messages[0]
  {
    if |messages| > 0 then Push(logs, messages[0], LogCapacity) else logs
  }

  function Receive(f: Feeds, message: string): Feeds {
    var messages := Push(f.messages, message, MessageCapacity);
    Feeds(messages, LogEffect(f.logs, messages))
  }

  function ReceiveAll(items: seq<string>): Feeds {
    if |items| == 0 then Feeds([], []) else Receive(ReceiveAll(items[..|items| - 1]), items[|items| - 1])
  }

  /** With the intended effect, after any sequence of messages the buffer
      holds the 50 newest and the log panel the 10 newest, newest first. */
  lemma {:induction false} ReceiveAllKeepsNewest(items: seq<string>)
    ensures ReceiveAll(items).messages == Strings.Reverse(items)[..Min(MessageCapacity, |items|)]
    ensures ReceiveAll(items).logs == Strings.Reverse(items)[..Min(LogCapacity, |items|)]
    decreases |items|
  {
    ReceiveAllIsFeed(items);
    FeedKeepsNewest(items, MessageCapacity);
    FeedKeepsNewest(items, LogCapacity);
  }

  lemma {:induction false} ReceiveAllIsFeed(items: seq<string>)
    ensures ReceiveAll(items).messages == Feed(items, MessageCapacity)
    ensures ReceiveAll(items).logs == Feed(items, LogCapacity)
    decreases |items|
  {
    if |items| > 0 {
      ReceiveAllIsFeed(items[..|items| - 1]);
    }
  }

  // ---------------------------------------------------------------------
  // Severity order
  // ---------------------------------------------------------------------

  /** `severityOrder[sev] ?? 4`. */
  function Rank(sev: string): (r: nat)
    ensures r <= 4
  {
    if sev == "Critical" then 0
    else if sev == "High" then 1
    else if sev == "Medium" then 2
    else if sev == "Low" then 3
    else 4
  }

  /** The four named severities rank 0 to 3 in that order; every other
      severity ranks last. */
  lemma RankLevels(sev: string)
    ensures Rank("Critical") == 0 && Rank("High") == 1 && Rank("Medium") == 2 && Rank("Low") == 3
    ensures Rank(sev) == 4 <==> sev !in ["Critical", "High", "Medium", "Low"]
  {
  }

  function RankOf(v: Vuln): nat { Rank(v.severity) }

  predicate SortedByRank(s: seq<Vuln>) {
    forall a, b :: 0 <= a < b < |s| ==> RankOf(s[a]) <= RankOf(s[b])
  }

  /** Inserts `v` before the first entry of equal or higher rank: a finding
      taken from earlier in the input lands before findings of the same
      rank that came later, which is what a stable sort does. */
  function Insert(v: Vuln, s: seq<Vuln>): seq<Vuln> {
    if |s| == 0 || RankOf(v) <= RankOf(s[0]) then [v] + s else [s[0]] + Insert(v, s[1..])
  }

  /** `allVulns.sort(...)`: the comparator orders by rank, and the sort is
      stable. */
  function SortBySeverity(s: seq<Vuln>): seq<Vuln> {
    if |s| == 0 then [] else Insert(s[0], SortBySeverity(s[1..]))
  }

  /** The findings of rank exactly `k`, in input order. */
  function Bucket(s: seq<Vuln>, k: nat): (r: seq<Vuln>)
    ensures forall i :: 0 <= i < |r| ==> RankOf(r[i]) == k
  {
    if |s| == 0 then []
    else (if RankOf(s[0]) == k then [s[0]] else []) + Bucket(s[1..], k)
  }

  lemma InsertPermutes(v: Vuln, s: seq<Vuln>)
    ensures multiset(Insert(v, s)) == multiset(s) + multiset{v}
  {
    if |s| > 0 && RankOf(v) > RankOf(s[0]) {
      InsertPermutes(v, s[1..]);
      assert s == [s[0]] + s[1..];
    }
  }

  /** Inserting never lets a rank below a common lower bound in. */
  lemma {:induction false} InsertLowerBound(v: Vuln, s: seq<Vuln>, lb: nat)
    requires RankOf(v) >= lb
    requires forall i :: 0 <= i < |s| ==> RankOf(s[i]) >= lb
    ensures forall i :: 0 <= i < |Insert(v, s)| ==> RankOf(Insert(v, s)[i]) >= lb
    decreases |s|
  {
    if |s| > 0 && RankOf(v) > RankOf(s[0]) {
      InsertLowerBound(v, s[1..], lb);
      var t := Insert(v, s[1..]);
      assert Insert(v, s) == [s[0]] + t;
    }
  }

  lemma {:induction false} InsertKeepsSorted(v: Vuln, s: seq<Vuln>)
    requires SortedByRank(s)
    ensures SortedByRank(Insert(v, s))
    ensures |s| > 0 ==> Insert(v, s)[0] == v || Insert(v, s)[0] == s[0]
    decreases |s|
  {
    if |s| > 0 && RankOf(v) > RankOf(s[0]) {
      var rest := s[1..];
      var t := Insert(v, rest);
      assert SortedByRank(rest);
      InsertKeepsSorted(v, rest);
      assert forall i :: 0 <= i < |rest| ==> RankOf(rest[i]) >= RankOf(s[0]);
      InsertLowerBound(v, rest, RankOf(s[0]));
      var r := [s[0]] + t;
      assert Insert(v, s) == r;
      forall a, b | 0 <= a < b < |r|
        ensures RankOf(r[a]) <= RankOf(r[b])
      {
        assert r[b] == t[b - 1];
        if a > 0 {
          assert r[a] == t[a - 1];
        }
      }
    } else {
      var r := [v] + s;
      assert Insert(v, s) == r;
      forall a, b | 0 <= a < b < |r|
        ensures RankOf(r[a]) <= RankOf(r[b])
      {
        assert r[b] == s[b - 1];
        if a > 0 {
          assert r[a] == s[a - 1];
        } else if b > 1 {
          assert RankOf(s[0]) <= RankOf(s[b - 1]);
        }
      }
    }
  }

  /** Insertion moves `v` only past findings of lower rank, so each rank's
      findings keep their relative order, with `v` at the head of its own. */
  lemma BucketOfInsert(v: Vuln, s: seq<Vuln>, k: nat)
    ensures Bucket(Insert(v, s), k) == Bucket([v] + s, k)
  {
    if |s| > 0 && RankOf(v) > RankOf(s[0]) {
      BucketOfInsert(v, s[1..], k);
      assert ([s[0]] + Insert(v, s[1..]))[1..] == Insert(v, s[1..]);
      assert ([v] + s)[1..] == s;
      assert ([v] + s[1..])[1..] == s[1..];
    }
  }

  /** The sort is a permutation, ordered by rank, and stable: the findings
      of each rank keep their input order. These three facts determine the
      result. */
  lemma SortCorrect(s: seq<Vuln>)
    ensures SortedByRank(SortBySeverity(s))
    ensures multiset(SortBySeverity(s)) == multiset(s)
    ensures forall k: nat :: Bucket(SortBySeverity(s), k) == Bucket(s, k)
  {
    SortSorted(s);
    SortPermutes(s);
    SortKeepsBuckets(s);
  }

  lemma {:induction false} SortSorted(s: seq<Vuln>)
    ensures SortedByRank(SortBySeverity(s))
    decreases |s|
  {
    if |s| > 0 {
      SortSorted(s[1..]);
      InsertKeepsSorted(s[0], SortBySeverity(s[1..]));
    }
  }

  lemma {:induction false} SortPermutes(s: seq<Vuln>)
    ensures multiset(SortBySeverity(s)) == multiset(s)
    decreases |s|
  {
    if |s| > 0 {
      SortPermutes(s[1..]);
      InsertPermutes(s[0], SortBySeverity(s[1..]));
      ConsPermutes(s, SortBySeverity(s), SortBySeverity(s[1..]));
    }
  }

  /** One step of an insertion sort keeps the multiset: the head inserted
      into a permutation of the tail is a permutation of the whole. */
  lemma ConsPermutes<T>(s: seq<T>, r: seq<T>, t: seq<T>)
    requires |s| > 0
    requires multiset(t) == multiset(s[1..])
    requires multiset(r) == multiset(t) + multiset{s[0]}
    ensures multiset(r) == multiset(s)
  {
    assert s == [s[0]] + s[1..];
  }

  lemma {:induction false} SortKeepsBuckets(s: seq<Vuln>)
    ensures forall k: nat :: Bucket(SortBySeverity(s), k) == Bucket(s, k)
    decreases |s|
  {
    if |s| > 0 {
      var t := s[1..];
      var st := SortBySeverity(t);
      SortKeepsBuckets(t);
      assert SortBySeverity(s) == Insert(s[0], st);
      forall k: nat
        ensures Bucket(SortBySeverity(s), k) == Bucket(s, k)
      {
        BucketOfInsert(s[0], st, k);
        BucketCons(s[0], st, k);
        BucketCons(s[0], t, k);
        assert s == [s[0]] + t;
      }
    }
  }

  lemma BucketCons(v: Vuln, s: seq<Vuln>, k: nat)
    ensures Bucket([v] + s, k) == (if RankOf(v) == k then [v] else []) + Bucket(s, k)
  {
    assert ([v] + s)[1..] == s;
  }

  // ---------------------------------------------------------------------
  // fetchData
  // ---------------------------------------------------------------------

  /** A scan as the page receives it; the vulnerability list may be null. */
  datatype ScanView = ScanView(vulnerabilities: Option<seq<Vuln>>)

  /** `scans.flatMap(scan => scan.vulnerabilities || [])`. */
  function FlatMapVulns(scans: seq<ScanView>): (r: seq<Vuln>)
    ensures |scans| == 0 ==> r == []
  {
    if |scans| == 0 then []
    else FlatMapVulns(scans[..|scans| - 1]) + scans[|scans| - 1].vulnerabilities.GetOr([])
  }

  /** A scan without findings, or with a null list, contributes nothing. */
  lemma FlatMapSkipsEmpty(scans: seq<ScanView>, scan: ScanView)
    requires scan.vulnerabilities.GetOr([]) == []
    ensures FlatMapVulns(scans + [scan]) == FlatMapVulns(scans)
  {
    assert (scans + [scan])[..|scans|] == scans;
  }

  /** The five highest-ranked findings. */
  function TopFive(scans: seq<ScanView>): (r: seq<Vuln>)
    ensures |r| == Min(TopCount, |FlatMapVulns(scans)|)
    ensures r <= SortBySeverity(FlatMapVulns(scans))
  {
    var sorted := SortBySeverity(FlatMapVulns(scans));
    SortPermutes(FlatMapVulns(scans));
    assert |sorted| == |FlatMapVulns(scans)| by {
      assert |multiset(sorted)| == |multiset(FlatMapVulns(scans))|;
    }
    sorted[..Min(TopCount, |sorted|)]
  }

  /** No finding left out of the top list outranks one that is in it. */
  lemma TopFiveOutranksRest(scans: seq<ScanView>, v: Vuln, w: Vuln)
    requires v in TopFive(scans)
    requires w in SortBySeverity(FlatMapVulns(scans))[|TopFive(scans)|..]
    ensures RankOf(v) <= RankOf(w)
  {
    var sorted := SortBySeverity(FlatMapVulns(scans));
    var top := TopFive(scans);
    SortSorted(FlatMapVulns(scans));
    assert top == sorted[..|top|];
    PrefixOutranksRest(sorted, |top|, v, w);
  }

  /** In a list sorted by rank, nothing after a cut outranks anything
      before it. */
  lemma PrefixOutranksRest(sorted: seq<Vuln>, n: nat, v: Vuln, w: Vuln)
    requires SortedByRank(sorted) && n <= |sorted|
    requires v in sorted[..n] && w in sorted[n..]
    ensures RankOf(v) <= RankOf(w)
  {
    var a :| 0 <= a < n && sorted[..n][a] == v;
    var b :| 0 <= b < |sorted| - n && sorted[n..][b] == w;
    assert sorted[a] == v;
    assert sorted[n + b] == w;
  }

  datatype DashboardState = DashboardState(stats: DashboardStats.Stats, topVulns: seq<Vuln>)

  const InitialDashboard := DashboardState(DashboardStats.Stats(0, 0, 0, 0, 0, 85), [])

  /** fetchData: a failed stats request skips everything (the catch); a
      history with no scans leaves the top list as it was. */
  function FetchData(st: DashboardState, stats: Result<DashboardStats.Stats, string>,
                     history: Result<seq<ScanView>, string>): (r: DashboardState)
    ensures stats.Err? ==> r == st
    ensures stats.Ok? ==> r.stats == stats.value
    ensures (stats.Err? || history.Err? || |history.value| == 0) ==> r.topVulns == st.topVulns
    ensures stats.Ok? && history.Ok? && |history.value| > 0 ==>
              r.topVulns == TopFive(history.value) && |r.topVulns| <= TopCount
  {
    match stats
    case Err(_) => st
    case Ok(s) =>
      var st1 := st.(stats := s);
      if history.Ok? && |history.value| > 0 then st1.(topVulns := TopFive(history.value)) else st1
  }
}

=== FILE: iac_scanner.dfy ===
/** The infrastructure-as-code scanner (backend/internal/iac/scanner.go):
    one Trivy config run per path, its failed checks counted by severity,
    every scan kept in call order. The clock's Unix seconds are a
    parameter. */
module IacScanner {
  import opened Strings
  import opened TrivyTally

  /** A misconfiguration check as Trivy reports it. */
  datatype Misconfig = Misconfig(id: string, title: string, severity: string, status: string)

  datatype IacScan = IacScan(id: string, path: string, status: string, counts: Tally, scannedAt: int)

  /** The demonstration figures reported when Trivy cannot be run. */
  const FallbackCounts := Tally(5, 0, 2, 3, 0)

  /** Reference: the severities of the checks that failed, in order;
      passing checks and any other status are not issues. */
  function FailedSeverities(ms: seq<Misconfig>): seq<string> {
    if |ms| == 0 then []
    else FailedSeverities(ms[..|ms| - 1]) + (if ms[|ms| - 1].status == "FAIL" then [ms[|ms| - 1].severity] else [])
  }

  lemma FailedSnoc(ms: seq<Misconfig>, m: Misconfig)
    ensures FailedSeverities(ms + [m]) == FailedSeverities(ms) + (if m.status == "FAIL" then [m.severity] else [])
  {
    assert (ms + [m])[..|ms|] == ms;
  }

  /** The inner counting loop over one result's checks, continuing the
      tally of the checks already seen. */
  method AddFailures(t0: Tally, ghost seen: seq<Misconfig>, ms: seq<Misconfig>) returns (t: Tally)
    requires t0 == TallyOf(FailedSeverities(seen))
    ensures t == TallyOf(FailedSeverities(seen + ms))
  {
    t := t0;
    var j := 0;
    assert seen + ms[..0] == seen;
    while j < |ms|
      invariant 0 <= j <= |ms|
      invariant t == TallyOf(FailedSeverities(seen + ms[..j]))
    {
      var m := ms[j];
      assert seen + ms[..j + 1] == (seen + ms[..j]) + [m];
      FailedSnoc(seen + ms[..j], m);
      if m.status == "FAIL" {
        TallyOfSnoc(FailedSeverities(seen + ms[..j]), m.severity);
        t := Bump(t, m.severity);
      } else {
        assert FailedSeverities(seen + ms[..j + 1]) == FailedSeverities(seen + ms[..j]);
      }
      j := j + 1;
    }
    assert ms[..j] == ms;
  }

  /** The counting loop: only failed checks are issues. */
  method CountFailures(results: seq<seq<Misconfig>>) returns (t: Tally)
    ensures t == TallyOf(FailedSeverities(Concat(results)))
  {
    t := Zero;
    var i := 0;
    while i < |results|
      invariant 0 <= i <= |results|
      invariant t == TallyOf(FailedSeverities(Concat(results[..i])))
    {
      t := AddFailures(t, Concat(results[..i]), results[i]);
      assert results[..i + 1] == results[..i] + [results[i]];
      ConcatAppend(results[..i], results[i]);
      i := i + 1;
    }
    assert results[..i] == results;
  }

  /** ScanPath. */
  method ScanPath(scans: seq<IacScan>, path: string, nowSeconds: int, run: TrivyRun<Misconfig>)
    returns (scans': seq<IacScan>, scan: IacScan)
    ensures scans' == scans + [scan]
    ensures scan.id == "iac-" + IntToString(nowSeconds) && scan.path == path && scan.scannedAt == nowSeconds
    ensures run.ExecFailed? ==> scan.status == "Failed (Mock Fallback)" && scan.counts == FallbackCounts
    ensures run.Unparseable? ==> scan.status == "Parse Error" && scan.counts == Zero
    ensures run.Parsed? ==> scan.status == "Completed"
                            && scan.counts == TallyOf(FailedSeverities(Concat(run.results)))
  {
    scan := IacScan("iac-" + IntToString(nowSeconds), path, "Completed", Zero, nowSeconds);
    match run {
      case ExecFailed(_) =>
        scan := scan.(status := "Failed (Mock Fallback)", counts := FallbackCounts);
      case Unparseable =>
        scan := scan.(status := "Parse Error");
      case Parsed(results) =>
        var t := CountFailures(results);
        scan := scan.(counts := t);
    }
    scans' := scans + [scan];
  }

  /** GetScans returns the kept scans, one per call in call order. */
  function GetScans(scans: seq<IacScan>): seq<IacScan> {
    scans
  }

  /** Passing checks never count: appending one leaves the tally as is. */
  lemma PassingCheckIgnored(ms: seq<Misconfig>, m: Misconfig)
    requires m.status != "FAIL"
    ensures TallyOf(FailedSeverities(ms + [m])) == TallyOf(FailedSeverities(ms))
  {
    FailedSnoc(ms, m);
    assert FailedSeverities(ms + [m]) == FailedSeverities(ms) + [];
    assert FailedSeverities(ms) + [] == FailedSeverities(ms);
  }

  /** The issue count is the number of failed checks, and the four
      severity counters never exceed it. */
  lemma {:induction false} IssuesAreFailures(ms: seq<Misconfig>)
    ensures TallyOf(FailedSeverities(ms)).total <= |ms|
    ensures var t := TallyOf(FailedSeverities(ms)); t.critical + t.high + t.medium + t.low <= t.total
    decreases |ms|
  {
    TallyBounded(FailedSeverities(ms));
    if |ms| > 0 {
      IssuesAreFailures(ms[..|ms| - 1]);
    }
  }
}

=== FILE: layout.dfy ===
/** The application shell (frontend/src/components/Layout.tsx): the side
    navigation's items, which of them is highlighted for the current
    location, and the breadcrumb label in the top bar. Icons, styling (the
    label's CSS capitalisation among them) and the sidebar toggle are
    presentation and not modelled. */
module Layout {
  import opened Wrappers
  import opened Strings

  datatype NavItem = NavItem(name: string, path: string)

  /** The item list is one array in the page; it is written here as its
      three runs: the product pages, the red-team pages under "/redhat/",
      and the two administration pages. */
  const CoreItems: seq<NavItem> := [
    NavItem("Dashboard", "/"),
    NavItem("Threat Hunter", "/threat-hunting"),
    NavItem("Scans", "/scans"),
    NavItem("Vulnerabilities", "/vulnerabilities"),
    NavItem("Compliance", "/compliance"),
    NavItem("Cloud Security", "/cloud"),
    NavItem("IaC Scan", "/iac"),
    NavItem("Containers", "/containers"),
    NavItem("Phishing Sim", "/phishing"),
    NavItem("Hardware TDT", "/hardware"),
    NavItem("Identity (ITDR)", "/identity"),
    NavItem("Attack Paths", "/apm"),
    NavItem("Ephemeral Infra", "/ephemeral"),
    NavItem("Deepfake Detect", "/deepfake"),
    NavItem("Code Context", "/code-context"),
    NavItem("Secrets Mesh", "/secrets"),
    NavItem("ZKP Identity", "/zkp"),
    NavItem("Insider Threat", "/insider"),
    NavItem("Red Teaming", "/cart"),
    NavItem("Browser Isolation", "/rbi"),
    NavItem("Sovereign Cloud", "/sovereign"),
    NavItem("Quantum Crypto", "/quantum")
  ]

  const RedTeamItems: seq<NavItem> := [
    NavItem("APT Simulation", "/redhat/apt"),
    NavItem("Social Engineering", "/redhat/social"),
    NavItem("LotL Attacks", "/redhat/lotl"),
    NavItem("Ransomware Sim", "/redhat/ransomware"),
    NavItem("Data Exfiltration", "/redhat/exfil"),
    NavItem("AD Attack Paths", "/redhat/ad"),
    NavItem("Zero-Day Sim", "/redhat/zeroday"),
    NavItem("eBPF Observability", "/redhat/ebpf"),
    NavItem("Serverless Security", "/redhat/serverless"),
    NavItem("Cloud Entitlements", "/redhat/ciem"),
    NavItem("IaC Drift", "/redhat/drift"),
    NavItem("K8s Admission", "/redhat/admission"),
    NavItem("RASP Protection", "/redhat/rasp"),
    NavItem("API Schema", "/redhat/schema"),
    NavItem("Bot Management", "/redhat/bot"),
    NavItem("SBOM Manager", "/redhat/sbom"),
    NavItem("DSPM", "/redhat/dspm"),
    NavItem("EASM", "/redhat/easm"),
    NavItem("Threat Intel", "/redhat/intel"),
    NavItem("Security Data Lake", "/redhat/datalake"),
    NavItem("JIT Access", "/redhat/jit"),
    NavItem("SA Anomalies", "/redhat/sa-anomaly"),
    NavItem("Evidence Collection", "/redhat/evidence"),
    NavItem("TPRM", "/redhat/tprm"),
    NavItem("Policy-as-Code", "/redhat/policy"),
    NavItem("LLM Firewall", "/redhat/llm-firewall"),
    NavItem("Quantum VPN", "/redhat/quantum"),
    NavItem("5G/IoT Slicing", "/redhat/iot-slicing"),
    NavItem("Digital Twin", "/redhat/digital-twin"),
    NavItem("God Mode", "/redhat/god-mode")
  ]

  const AdminItems: seq<NavItem> := [
    NavItem("Integrations", "/integrations"),
    NavItem("Settings", "/settings")
  ]

  /** The navigation items, in display order. */
  const NavItems: seq<NavItem> := CoreItems + RedTeamItems + AdminItems

  const RedTeamPrefix := "/redhat/"

  // ---------------------------------------------------------------------
  // Item paths are keys
  // ---------------------------------------------------------------------

  predicate DistinctPaths(items: seq<NavItem>) {
    forall i, j :: 0 <= i < j < |items| ==> items[i].path != items[j].path
  }

  /** Whether a path starts "/re", as every red-team path does. */
  predicate StartsRe(p: string) {
    |p| >= 3 && p[1] == 'r' && p[2] == 'e'
  }

  // The lemmas from here to DistinctPathsConcat are proof helpers for
  // NavPathsDistinct: each checks one slice of the literal item table, so
  // that no single proof has to compare every pair at once. They state
  // nothing about the page beyond what NavPathsDistinct states.

  /** The product run's pairs, in four parts to keep each proof small. */
  lemma CoreDistinctFirst()
    ensures forall i, j :: 0 <= i < 4 && i < j < |CoreItems| ==> CoreItems[i].path != CoreItems[j].path
  {
  }

  lemma CoreDistinctSecond()
    ensures forall i, j :: 4 <= i < 7 && i < j < |CoreItems| ==> CoreItems[i].path != CoreItems[j].path
  {
  }

  lemma CoreDistinctMiddle()
    ensures forall i, j :: 7 <= i < 14 && i < j < |CoreItems| ==> CoreItems[i].path != CoreItems[j].path
  {
  }

  lemma CoreDistinctLast()
    ensures forall i, j :: 14 <= i < j < |CoreItems| ==> CoreItems[i].path != CoreItems[j].path
  {
  }

  lemma CoreDistinct()
    ensures DistinctPaths(CoreItems)
    ensures forall i :: 0 <= i < |CoreItems| ==> !StartsRe(CoreItems[i].path)
  {
    CoreDistinctFirst();
    CoreDistinctSecond();
    CoreDistinctMiddle();
    CoreDistinctLast();
  }

  /** The red-team run's pairs, three rows at a time to keep each proof
      small. */
  lemma RedTeamDistinctFrom0()
    ensures forall i, j :: 0 <= i < 3 && i < j < |RedTeamItems| ==> RedTeamItems[i].path != RedTeamItems[j].path
  {
  }

  lemma RedTeamDistinctFrom3()
    ensures forall i, j :: 3 <= i < 6 && i < j < |RedTeamItems| ==> RedTeamItems[i].path != RedTeamItems[j].path
  {
  }

  lemma RedTeamDistinctFrom6()
    ensures forall i, j :: 6 <= i < 9 && i < j < |RedTeamItems| ==> RedTeamItems[i].path != RedTeamItems[j].path
  {
  }

  lemma RedTeamDistinctFrom9()
    ensures forall i, j :: 9 <= i < 12 && i < j < |RedTeamItems| ==> RedTeamItems[i].path != RedTeamItems[j].path
  {
  }

  lemma RedTeamDistinctFrom12()
    ensures forall i, j :: 12 <= i < 15 && i < j < |RedTeamItems| ==> RedTeamItems[i].path != RedTeamItems[j].path
  {
  }

  lemma RedTeamDistinctFrom15()
    ensures forall i, j :: 15 <= i < 18 && i < j < |RedTeamItems| ==> RedTeamItems[i].path != RedTeamItems[j].path
  {
  }

  lemma RedTeamDistinctFrom18()
    ensures forall i, j :: 18 <= i < 21 && i < j < |RedTeamItems| ==> RedTeamItems[i].path != RedTeamItems[j].path
  {
  }

  lemma RedTeamDistinctFrom21()
    ensures forall i, j :: 21 <= i < 24 && i < j < |RedTeamItems| ==> RedTeamItems[i].path != RedTeamItems[j].path
  {
  }

  lemma RedTeamDistinctFrom24()
    ensures forall i, j :: 24 <= i < 27 && i < j < |RedTeamItems| ==> RedTeamItems[i].path != RedTeamItems[j].path
  {
  }

  lemma RedTeamDistinctFrom27()
    ensures forall i, j :: 27 <= i < 30 && i < j < |RedTeamItems| ==> RedTeamItems[i].path != RedTeamItems[j].path
  {
  }

  /** The red-team prefix, ten rows at a time. */
  lemma RedTeamStartsReA()
    ensures forall i :: 0 <= i < 10 ==> StartsRe(RedTeamItems[i].path)
  {
  }

  lemma RedTeamStartsReB()
    ensures forall i :: 10 <= i < 20 ==> StartsRe(RedTeamItems[i].path)
  {
  }

  lemma RedTeamStartsReC()
    ensures forall i :: 20 <= i < 30 ==> StartsRe(RedTeamItems[i].path)
  {
  }

  lemma RedTeamStartsRe()
    ensures forall i :: 0 <= i < |RedTeamItems| ==> StartsRe(RedTeamItems[i].path)
  {
    RedTeamStartsReA();
    RedTeamStartsReB();
    RedTeamStartsReC();
  }

  lemma RedTeamDistinct()
    ensures DistinctPaths(RedTeamItems)
    ensures forall i :: 0 <= i < |RedTeamItems| ==> StartsRe(RedTeamItems[i].path)
  {
    RedTeamDistinctFrom0();
    RedTeamDistinctFrom3();
    RedTeamDistinctFrom6();
    RedTeamDistinctFrom9();
    RedTeamDistinctFrom12();
    RedTeamDistinctFrom15();
    RedTeamDistinctFrom18();
    RedTeamDistinctFrom21();
    RedTeamDistinctFrom24();
    RedTeamDistinctFrom27();
    RedTeamStartsRe();
  }

  lemma AdminDistinct()
    ensures DistinctPaths(AdminItems)
    ensures forall i :: 0 <= i < |AdminItems| ==> !StartsRe(AdminItems[i].path)
    ensures forall i, j :: 0 <= i < |CoreItems| && 0 <= j < |AdminItems| ==> CoreItems[i].path != AdminItems[j].path
  {
  }

  /** Three runs with distinct paths, no path shared between runs, join
      into a list with distinct paths. */
  lemma DistinctPathsConcat(a: seq<NavItem>, b: seq<NavItem>, c: seq<NavItem>)
    requires DistinctPaths(a) && DistinctPaths(b) && DistinctPaths(c)
    requires forall i, j :: 0 <= i < |a| && 0 <= j < |b| ==> a[i].path != b[j].path
    requires forall i, j :: 0 <= i < |a| && 0 <= j < |c| ==> a[i].path != c[j].path
    requires forall i, j :: 0 <= i < |b| && 0 <= j < |c| ==> b[i].path != c[j].path
    ensures DistinctPaths(a + b + c)
  {
    var all := a + b + c;
    forall i, j | 0 <= i < j < |all|
      ensures all[i].path != all[j].path
    {
      var m, n := |a|, |a| + |b|;
      if j < m {
        assert all[i] == a[i] && all[j] == a[j];
      } else if i < m && j < n {
        assert all[i] == a[i] && all[j] == b[j - m];
      } else if i < m {
        assert all[i] == a[i] && all[j] == c[j - n];
      } else if j < n {
        assert all[i] == b[i - m] && all[j] == b[j - m];
      } else if i < n {
        assert all[i] == b[i - m] && all[j] == c[j - n];
      } else {
        assert all[i] == c[i - n] && all[j] == c[j - n];
      }
    }
  }

  /** The paths serve as the list's React keys: no two items share one. */
  lemma NavPathsDistinct()
    ensures DistinctPaths(NavItems)
  {
    CoreDistinct();
    RedTeamDistinct();
    AdminDistinct();
    DistinctPathsConcat(CoreItems, RedTeamItems, AdminItems);
  }

  // ---------------------------------------------------------------------
  // The highlighted item
  // ---------------------------------------------------------------------

  /** An item is highlighted when the location is exactly its path; a
      deeper location such as "/scans/42" highlights nothing. */
  predicate IsActive(pathname: string, item: NavItem) {
    pathname == item.path
  }

  /** The positions of the highlighted items. */
  function ActiveItems(pathname: string): (r: set<nat>)
    ensures forall i :: i in r <==> 0 <= i < |NavItems| && NavItems[i].path == pathname
    ensures |r| <= 1
    ensures r == {} <==> forall i :: 0 <= i < |NavItems| ==> NavItems[i].path != pathname
  {
    ActiveAtMostOne(pathname);
    set i: nat | i < |NavItems| && IsActive(pathname, NavItems[i])
  }

  lemma ActiveAtMostOne(pathname: string)
    ensures |set i: nat | i < |NavItems| && IsActive(pathname, NavItems[i])| <= 1
  {
    NavPathsDistinct();
    var r := set i: nat | i < |NavItems| && IsActive(pathname, NavItems[i]);
    if r != {} {
      var k :| k in r;
      assert r == {k};
    }
  }

  /** On an item's own page exactly that item is highlighted. */
  lemma OwnPageHighlightsItself(k: nat)
    requires k < |NavItems|
    ensures ActiveItems(NavItems[k].path) == {k}
  {
    var r := ActiveItems(NavItems[k].path);
    assert k in r;
    forall i | i in r
      ensures i == k
    {
      NavPathsDistinct();
    }
  }

  // ---------------------------------------------------------------------
  // The breadcrumb
  // ---------------------------------------------------------------------

  /** `pathname.slice(1)`: everything after the first character. */
  function Tail(pathname: string): string {
    if |pathname| == 0 then "" else pathname[1..]
  }

  /** The breadcrumb label: "Dashboard" at the root; elsewhere the path
      without its leading character, with its first '-' (only) turned
      into a space. */
  function Breadcrumb(pathname: string): (crumb: string)
    ensures pathname == "/" ==> crumb == "Dashboard"
    ensures pathname != "/" ==> |crumb| == |Tail(pathname)|
    ensures pathname != "/" ==>
              forall k :: 0 <= k < |crumb| ==>
                crumb[k] == (if IndexOf(Tail(pathname), "-") == Some(k) then ' ' else Tail(pathname)[k])
  {
    if pathname == "/" then "Dashboard"
    else
      var t := Tail(pathname);
      match IndexOf(t, "-")
      case None => t
      case Some(i) =>
        OccursAtChar(t, '-', i);
        var r := ReplaceFirst(t, "-", " ");
        assert r == t[..i] + " " + t[i + 1..];
        r
  }

  /** The first hyphen of the path is the one replaced; later ones stay. */
  lemma OnlyFirstHyphenReplaced(a: string, b: string)
    requires '-' !in a
    ensures Breadcrumb("/" + a + "-" + b) == a + " " + b
  {
    var p := "/" + a + "-" + b;
    var t := a + "-" + b;
    assert Tail(p) == t;
    OccursAtChar(t, '-', |a|);
    var idx := IndexOf(t, "-");
    assert idx.Some?;
    OccursAtChar(t, '-', idx.value);
    assert idx.value == |a|;
    assert t[..|a|] == a && t[|a| + 1..] == b;
  }

  /** A path without hyphens is shown as it is, less its leading slash. */
  lemma NoHyphenShownAsIs(a: string)
    requires '-' !in a && a != ""
    ensures Breadcrumb("/" + a) == a
  {
    assert Tail("/" + a) == a;
    if IndexOf(a, "-").Some? {
      OccursAtChar(a, '-', IndexOf(a, "-").value);
    }
  }
}

=== FILE: monitor_store.dfy ===
/** The security monitor's persistence (backend/internal/database/monitor.go
    over the models in backend/internal/models/monitor.go): the request log
    and the IP blocklist with expiry. Time is an abstract clock in seconds;
    the table is a map from address to its live row, plus the addresses
    whose row was soft-deleted, which still occupy the unique index on the
    address column. */
module MonitorStore {
  import opened Wrappers
  import Strings

  datatype SecurityLog = SecurityLog(ip: string, verb: string, path: string, payload: string,
                                     riskScore: int, attackType: string, status: string, createdAt: int)

  /** A live blocklist row; no expiry means a permanent block. */
  datatype Block = Block(reason: string, blockedBy: string, expiresAt: Option<int>)

  datatype MonitorDb = MonitorDb(blocks: map<string, Block>, deletedIps: set<string>, logs: seq<SecurityLog>)

  const EmptyDb := MonitorDb(map[], {}, [])

  const UniqueViolation := "UNIQUE constraint failed: blocked_ips.ip_address"

  // ---------------------------------------------------------------------
  // Logs
  // ---------------------------------------------------------------------

  function CreateSecurityLog(db: MonitorDb, entry: SecurityLog): (r: MonitorDb)
    ensures r.logs == db.logs + [entry]
    ensures r.blocks == db.blocks && r.deletedIps == db.deletedIps
  {
    db.(logs := db.logs + [entry])
  }

  /** GetSecurityLogs: newest first, at most `limit` of them; a negative
      limit is no limit. Entries are stored in creation order. */
  function GetSecurityLogs(db: MonitorDb, limit: int): (r: seq<SecurityLog>)
    ensures limit >= 0 ==> |r| == if limit < |db.logs| then limit else |db.logs|
    ensures limit < 0 ==> |r| == |db.logs|
    ensures forall k :: 0 <= k < |r| ==> r[k] == db.logs[|db.logs| - 1 - k]
  {
    var newest := Strings.Reverse(db.logs);
    if limit < 0 || limit >= |newest| then newest else newest[..limit]
  }

  /** A log written last is the first one read back. */
  lemma NewestLogFirst(db: MonitorDb, entry: SecurityLog, limit: int)
    requires limit != 0
    ensures GetSecurityLogs(CreateSecurityLog(db, entry), limit)[0] == entry
  {
  }

  // ---------------------------------------------------------------------
  // Blocklist
  // ---------------------------------------------------------------------

  /** BlockIP: a positive duration expires at now + duration, any other is
      permanent. Inserting a second row for an address that already has
      one, live or soft-deleted, violates the unique index. */
  function BlockIP(db: MonitorDb, ip: string, reason: string, blockedBy: string,
                   duration: int, now: int): (r: (MonitorDb, Outcome<string>))
    ensures (ip in db.blocks || ip in db.deletedIps) <==> r.1.Failure?
    ensures r.1.Failure? ==> r.0 == db && r.1.error == UniqueViolation
    ensures r.1.Success? ==> r.0.blocks.Keys == db.blocks.Keys + {ip}
    ensures r.1.Success? ==> r.0.blocks[ip].expiresAt == (if duration > 0 then Some(now + duration) else None)
    ensures r.1.Success? ==> forall k :: k in db.blocks ==> r.0.blocks[k] == db.blocks[k]
    ensures r.0.logs == db.logs && r.0.deletedIps == db.deletedIps
  {
    if ip in db.blocks || ip in db.deletedIps then (db, Failure(UniqueViolation))
    else
      var expires := if duration > 0 then Some(now + duration) else None;
      (db.(blocks := db.blocks[ip := Block(reason, blockedBy, expires)]), Success)
  }

  /** UnblockIP as written: gorm's Delete on a model with a DeletedAt column
      only marks the row deleted, so the address stays in the unique index. */
  function UnblockIPAsWritten(db: MonitorDb, ip: string): (r: MonitorDb)
    ensures ip !in r.blocks
    ensures r.blocks == db.blocks - {ip}
    ensures ip in db.blocks ==> r.deletedIps == db.deletedIps + {ip}
    ensures r.logs == db.logs
  {
    if ip in db.blocks then db.(blocks := db.blocks - {ip}, deletedIps := db.deletedIps + {ip}) else db
  }

  /** UnblockIP as evidently intended: the row is removed outright, freeing
      the address for a later block. */
  function UnblockIP(db: MonitorDb, ip: string): (r: MonitorDb)
    ensures ip !in r.blocks
    ensures r.blocks == db.blocks - {ip}
    ensures r.deletedIps == db.deletedIps && r.logs == db.logs
  {
    db.(blocks := db.blocks - {ip})
  }

  /** A block that has expired: its expiry is strictly before now. */
  predicate Expired(b: Block, now: int) {
    b.expiresAt.Some? && now > b.expiresAt.value
  }

  /** IsIPBlocked, with the as-written soft delete for the expiry clean-up. */
  function IsIPBlockedAsWritten(db: MonitorDb, ip: string, now: int): (r: (bool, MonitorDb))
    ensures r.0 <==> ip in db.blocks && !Expired(db.blocks[ip], now)
    ensures ip in db.blocks && Expired(db.blocks[ip], now) ==> r.1 == UnblockIPAsWritten(db, ip)
    ensures !(ip in db.blocks && Expired(db.blocks[ip], now)) ==> r.1 == db
  {
    if ip !in db.blocks then (false, db)
    else if Expired(db.blocks[ip], now) then (false, UnblockIPAsWritten(db, ip))
    else (true, db)
  }

  /** IsIPBlocked: no row means not blocked; an expired row reports not
      blocked and is removed; a permanent or live row reports blocked. */
  function IsIPBlocked(db: MonitorDb, ip: string, now: int): (r: (bool, MonitorDb))
    ensures r.0 <==> ip in db.blocks && !Expired(db.blocks[ip], now)
    ensures ip in db.blocks && Expired(db.blocks[ip], now) ==> r.1 == UnblockIP(db, ip)
    ensures !(ip in db.blocks && Expired(db.blocks[ip], now)) ==> r.1 == db
  {
    if ip !in db.blocks then (false, db)
    else if Expired(db.blocks[ip], now) then (false, UnblockIP(db, ip))
    else (true, db)
  }

  /** GetBlockedIPs: every live row, expired or not; only a lookup through
      IsIPBlocked clears a lapsed one. */
  function GetBlockedIPs(db: MonitorDb): (r: map<string, Block>)
    ensures r.Keys == db.blocks.Keys
    ensures forall ip :: ip in r ==> r[ip] == db.blocks[ip]
  {
    db.blocks
  }

  // ---------------------------------------------------------------------
  // Properties
  // ---------------------------------------------------------------------

  /** A block for a positive duration holds through its expiry instant and
      lapses right after; a non-positive duration never lapses. */
  lemma BlockLifetime(db: MonitorDb, ip: string, reason: string, blockedBy: string, duration: int, now: int, later: int)
    requires ip !in db.blocks && ip !in db.deletedIps
    requires later >= now
    ensures var b := BlockIP(db, ip, reason, blockedBy, duration, now).0;
            IsIPBlocked(b, ip, later).0 <==> duration <= 0 || later <= now + duration
  {
  }

  /** Without soft-deleted rows, blocking fails exactly when the address is
      already blocked, and the intended unblock keeps it that way. */
  predicate NoTombstones(db: MonitorDb) { db.deletedIps == {} }

  lemma IntendedOperationsKeepNoTombstones(db: MonitorDb, ip: string, now: int, duration: int)
    requires NoTombstones(db)
    ensures NoTombstones(UnblockIP(db, ip))
    ensures NoTombstones(IsIPBlocked(db, ip, now).1)
    ensures NoTombstones(BlockIP(db, ip, "", "", duration, now).0)
    ensures BlockIP(db, ip, "", "", duration, now).1.Failure? <==> ip in db.blocks
  {
  }

  /** As written: once a timed block has lapsed and been cleaned up, the
      address can never be blocked again; the insert hits the unique index
      and the address stays unblocked. */
  lemma LapsedBlockCannotBeRenewed(ip: string, duration: int, t0: int, t1: int)
    requires duration > 0 && t1 > t0 + duration
    ensures var db1 := BlockIP(EmptyDb, ip, "r", "System", duration, t0).0;
            var check := IsIPBlockedAsWritten(db1, ip, t1);
            var again := BlockIP(check.1, ip, "r", "System", duration, t1);
            && !check.0
            && again.1 == Failure(UniqueViolation)
            && !IsIPBlockedAsWritten(again.0, ip, t1).0
  {
  }

  /** As intended: after the clean-up the address can be blocked afresh,
      and the new block is in force. */
  lemma LapsedBlockRenewable(db: MonitorDb, ip: string, duration: int, t0: int, t1: int)
    requires NoTombstones(db) && ip !in db.blocks
    requires duration > 0 && t1 > t0 + duration
    ensures var db1 := BlockIP(db, ip, "r", "System", duration, t0).0;
            var check := IsIPBlocked(db1, ip, t1);
            var again := BlockIP(check.1, ip, "r", "System", duration, t1);
            && !check.0
            && again.1 == Success
            && IsIPBlocked(again.0, ip, t1).0
  {
  }

  /** A blocked address is listed; a lapsed one stays listed until a lookup
      of it clears the row, and after that lookup it is gone from the list
      while every other row is kept. */
  lemma ListingAgreesWithLookup(db: MonitorDb, ip: string, now: int)
    ensures IsIPBlocked(db, ip, now).0 ==> ip in GetBlockedIPs(db)
    ensures ip in GetBlockedIPs(IsIPBlocked(db, ip, now).1) <==> IsIPBlocked(db, ip, now).0
    ensures forall k :: k != ip && k in GetBlockedIPs(db) ==> k in GetBlockedIPs(IsIPBlocked(db, ip, now).1)
  {
  }

  /** Unblocking lifts the block at once. */
  lemma UnblockLifts(db: MonitorDb, ip: string, now: int)
    ensures !IsIPBlocked(UnblockIP(db, ip), ip, now).0
    ensures !IsIPBlockedAsWritten(UnblockIPAsWritten(db, ip), ip, now).0
  {
  }
}

=== FILE: orchestrator.dfy ===
/** The scan orchestrator (backend/internal/scanner/orchestrator.go): it
    fans a target out to every scanner, records the scan, delegates status
    to the first scanner, and merges the scanners' results. Scanners are
    represented by the replies they give; the database by a map from scan
    id to record. The goroutine fan-out is modelled sequentially: each
    goroutine writes only its own slot, so the order does not matter. */
module Orchestrator {
  import opened Wrappers
  import opened ScanTypes

  type Db = map<string, ScanResult>

  datatype StartOutcome =
    | Started(id: string, db: Db)
    | StartFailed(message: string)
    /** `scanIDs[0]` on an empty slice: a run-time panic. */
    | Panicked

  /** The first failure among the scanners' start replies, in scanner
      order. */
  function FirstError(starts: seq<Result<string, string>>): (r: Option<string>)
    ensures r.None? <==> forall i :: 0 <= i < |starts| ==> starts[i].Ok?
    ensures r.Some? ==> exists i :: 0 <= i < |starts| && starts[i] == Err(r.value)
  {
    if |starts| == 0 then None
    else if starts[0].Err? then Some(starts[0].error)
    else
      var rest := FirstError(starts[1..]);
      assert forall i :: 1 <= i < |starts| ==> starts[i] == starts[1..][i - 1];
      rest
  }

  /** Start: `dbCreate` is the outcome of inserting the new record. */
  function Start(db: Db, starts: seq<Result<string, string>>, target: string, dbCreate: Outcome<string>): (r: StartOutcome)
    ensures r.StartFailed? && (exists i :: 0 <= i < |starts| && starts[i].Err?) ==>
              r.message == "one or more scanners failed to start: " + FirstError(starts).value
    ensures (exists i :: 0 <= i < |starts| && starts[i].Err?) ==> r.StartFailed?
    ensures r.Panicked? <==> |starts| == 0
    ensures r.Started? ==> |starts| > 0 && starts[0] == Ok(r.id) && dbCreate.Success?
    ensures r.Started? ==> r.db == db[r.id := ScanResult(r.id, target, "queued", [])]
    ensures (forall i :: 0 <= i < |starts| ==> starts[i].Ok?) && |starts| > 0 && dbCreate.Success? ==> r.Started?
  {
    match FirstError(starts)
    case Some(err) => StartFailed("one or more scanners failed to start: " + err)
    case None =>
      if |starts| == 0 then Panicked
      else
        var id := starts[0].value;
        match dbCreate
        case Failure(m) => StartFailed("failed to create scan record: " + m)
        case Success => Started(id, db[id := ScanResult(id, target, "queued", [])])
  }

  // ---------------------------------------------------------------------
  // Status
  // ---------------------------------------------------------------------

  datatype Status = Status(status: string, progress: int)

  datatype StatusReply = StatusReply(reply: Result<Status, string>, db: Db)

  /** GetStatus asks only the first scanner; on success the stored record's
      status follows (an update matching no row changes nothing). With no
      scanners it answers ("unknown", 0) without error. */
  function GetStatus(db: Db, replies: seq<Result<Status, string>>, scanId: string): (r: StatusReply)
    ensures |replies| == 0 ==> r == StatusReply(Ok(Status("unknown", 0)), db)
    ensures |replies| > 0 ==> r.reply == replies[0]
    ensures r.reply.Err? ==> r.db == db
    ensures |replies| > 0 && r.reply.Ok? && scanId in db ==> r.db == db[scanId := db[scanId].(status := r.reply.value.status)]
    ensures scanId !in db ==> r.db == db
  {
    if |replies| == 0 then StatusReply(Ok(Status("unknown", 0)), db)
    else
      var db' := if replies[0].Ok? && scanId in db then db[scanId := db[scanId].(status := replies[0].value.status)] else db;
      StatusReply(replies[0], db')
  }

  /** Only the first scanner is consulted. */
  lemma StatusOnlyFromFirst(db: Db, first: Result<Status, string>, others: seq<Result<Status, string>>, scanId: string)
    ensures GetStatus(db, [first] + others, scanId) == GetStatus(db, [first], scanId)
  {
  }

  // ---------------------------------------------------------------------
  // Results
  // ---------------------------------------------------------------------

  /** Reference: the findings of the scanners that answered, in scanner
      order. */
  function Merged(replies: seq<Result<ScanResult, string>>): seq<Vuln> {
    if |replies| == 0 then []
    else Merged(replies[..|replies| - 1])
         + (if replies[|replies| - 1].Ok? then replies[|replies| - 1].value.vulnerabilities else [])
  }

  /** Reference: some scanner that answered is still running. */
  predicate AnyRunning(replies: seq<Result<ScanResult, string>>) {
    exists i :: 0 <= i < |replies| && replies[i].Ok? && replies[i].value.status == "running"
  }

  /** GetResults: merge, then look the record up and store the merge. */
  method GetResults(db: Db, replies: seq<Result<ScanResult, string>>, scanId: string)
    returns (r: Result<ScanResult, string>, db': Db)
    ensures scanId !in db ==> r == Err("record not found") && db' == db
    ensures scanId in db ==> r.Ok?
    ensures r.Ok? ==> r.value.vulnerabilities == Merged(replies)
    ensures r.Ok? ==> (r.value.status == "running" <==> AnyRunning(replies))
    ensures r.Ok? ==> (r.value.status == "completed" <==> !AnyRunning(replies))
    ensures r.Ok? ==> r.value == db[scanId].(status := r.value.status, vulnerabilities := r.value.vulnerabilities)
    ensures r.Ok? ==> db' == db[scanId := r.value]
  {
    var combined: seq<Vuln> := [];
    var primary := "completed";
    var i := 0;
    while i < |replies|
      invariant 0 <= i <= |replies|
      invariant combined == Merged(replies[..i])
      invariant primary == "running" || primary == "completed"
      invariant primary == "running" <==> AnyRunning(replies[..i])
    {
      assert replies[..i + 1][..i] == replies[..i];
      if replies[i].Ok? {
        if replies[i].value.status == "running" {
          primary := "running";
          assert replies[..i + 1][i] == replies[i];
        }
        combined := combined + replies[i].value.vulnerabilities;
      }
      assert AnyRunning(replies[..i + 1])
             <==> (AnyRunning(replies[..i]) || (replies[i].Ok? && replies[i].value.status == "running")) by {
        if AnyRunning(replies[..i + 1]) {
          var k :| 0 <= k < i + 1 && replies[..i + 1][k].Ok? && replies[..i + 1][k].value.status == "running";
          if k < i {
            assert replies[..i][k] == replies[..i + 1][k];
          }
        }
        if AnyRunning(replies[..i]) {
          var k :| 0 <= k < i && replies[..i][k].Ok? && replies[..i][k].value.status == "running";
          assert replies[..i + 1][k] == replies[..i][k];
        }
      }
      i := i + 1;
    }
    assert replies[..i] == replies;
    if scanId !in db {
      return Err("record not found"), db;
    }
    var scan := db[scanId].(status := primary, vulnerabilities := combined);
    r, db' := Ok(scan), db[scanId := scan];
  }

  /** The merge holds as many findings as the answering scanners reported. */
  function AnsweredCount(replies: seq<Result<ScanResult, string>>): nat {
    if |replies| == 0 then 0
    else AnsweredCount(replies[..|replies| - 1])
         + (if replies[|replies| - 1].Ok? then |replies[|replies| - 1].value.vulnerabilities| else 0)
  }

  lemma {:induction false} MergedLength(replies: seq<Result<ScanResult, string>>)
    ensures |Merged(replies)| == AnsweredCount(replies)
    decreases |replies|
  {
    if |replies| > 0 {
      MergedLength(replies[..|replies| - 1]);
    }
  }

  /** A failing scanner is skipped: inserting one anywhere changes neither
      the merged findings nor the merged status. */
  lemma FailedScannerSkipped(before: seq<Result<ScanResult, string>>, err: string,
                             after: seq<Result<ScanResult, string>>)
    ensures Merged(before + [Err(err)] + after) == Merged(before + after)
    ensures AnyRunning(before + [Err(err)] + after) <==> AnyRunning(before + after)
  {
    FailedScannerAddsNothing(before, err, after);
    FailedScannerNotRunning(before, err, after);
  }

  lemma {:induction false} FailedScannerAddsNothing(before: seq<Result<ScanResult, string>>, err: string,
                                                    after: seq<Result<ScanResult, string>>)
    ensures Merged(before + [Err(err)] + after) == Merged(before + after)
    decreases |after|
  {
    var with := before + [Err(err)] + after;
    var without := before + after;
    if |after| == 0 {
      assert with[..|with| - 1] == before;
      assert without == before;
    } else {
      var init := after[..|after| - 1];
      FailedScannerAddsNothing(before, err, init);
      assert with[..|with| - 1] == before + [Err(err)] + init;
      assert without[..|without| - 1] == before + init;
      assert with[|with| - 1] == without[|without| - 1];
    }
  }

  lemma FailedScannerNotRunning(before: seq<Result<ScanResult, string>>, err: string,
                                after: seq<Result<ScanResult, string>>)
    ensures AnyRunning(before + [Err(err)] + after) <==> AnyRunning(before + after)
  {
    var with := before + [Err(err)] + after;
    var without := before + after;
    if AnyRunning(with) {
      var k :| 0 <= k < |with| && with[k].Ok? && with[k].value.status == "running";
      if k < |before| {
        assert without[k] == with[k];
      } else {
        assert without[k - 1] == with[k];
      }
    }
    if AnyRunning(without) {
      var k :| 0 <= k < |without| && without[k].Ok? && without[k].value.status == "running";
      if k < |before| {
        assert with[k] == without[k];
      } else {
        assert with[k + 1] == without[k];
      }
    }
  }

  /** Two scanners reporting one finding each give a merge of two. */
  lemma TwoScannersTwoFindings(a: ScanResult, b: ScanResult)
    requires |a.vulnerabilities| == 1 && |b.vulnerabilities| == 1
    ensures |Merged([Ok(a), Ok(b)])| == 2
  {
    var rs: seq<Result<ScanResult, string>> := [Ok(a), Ok(b)];
    var one: seq<Result<ScanResult, string>> := [Ok(a)];
    assert rs[..1] == one;
    assert one[..0] == [];
    assert Merged(one) == Merged([]) + a.vulnerabilities;
    assert Merged(rs) == Merged(rs[..1]) + b.vulnerabilities;
  }
}

=== FILE: phishing.dfy ===
/** Phishing simulation (backend/internal/phishing/campaign.go): template
    seeding, campaign creation and completion, click counting, and the
    list of active campaigns. The generated UUID and the clock are
    parameters; the delayed completion goroutine is one explicit step. */
module Phishing {

  datatype Template = Template(name: string, subject: string, body: string, difficulty: string, createdBy: string)

  datatype Campaign = Campaign(id: string, name: string, templateId: string, targetCount: int,
                               sentCount: int, clickCount: int, status: string, createdAt: int)

  /** The template table and the in-memory `activeCampaigns` registry. */
  datatype Manager = Manager(templates: seq<Template>, active: map<string, Campaign>)

  const SeedSet: seq<Template> := [
    Template("Urgent Password Reset", "Action Required: Reset your password", "Click here to reset...", "Easy", "System"),
    Template("CEO Gift Card", "Urgent Request", "Can you buy some gift cards?", "Medium", "System"),
    Template("HR Policy Update", "New Remote Work Policy", "Please review the attached...", "Hard", "System")
  ]

  /** SeedTemplates: the three stock templates, only into an empty table. */
  function SeedTemplates(templates: seq<Template>): (r: seq<Template>)
    ensures |templates| == 0 ==> r == SeedSet
    ensures |templates| > 0 ==> r == templates
    ensures |r| > 0
  {
    if |templates| == 0 then SeedSet else templates
  }

  /** Starting the manager on a table: seeds it, registry empty. */
  function NewManager(templates: seq<Template>): (m: Manager)
    ensures |m.templates| > 0 && m.active == map[]
  {
    Manager(SeedTemplates(templates), map[])
  }

  /** The campaign CreateCampaign builds and returns. */
  function NewCampaign(id: string, name: string, templateId: string, targetCount: int, now: int): (c: Campaign)
    ensures c.sentCount == 0 && c.clickCount == 0 && c.status == "Running"
    ensures c.targetCount == targetCount && c.id == id && c.createdAt == now
  {
    Campaign(id, name, templateId, targetCount, 0, 0, "Running", now)
  }

  /** The completion step the background sender takes after its delay. */
  function Complete(c: Campaign): (r: Campaign)
    ensures r.sentCount == r.targetCount == c.targetCount && r.status == "Completed"
    ensures r.clickCount == c.clickCount && r.id == c.id
  {
    c.(sentCount := c.targetCount, status := "Completed")
  }

  datatype Created = Created(manager: Manager, campaign: Campaign)

  /** CreateCampaign as written: the campaign is returned but never put in
      the registry. */
  function CreateCampaignAsWritten(m: Manager, id: string, name: string, templateId: string,
                                   targetCount: int, now: int): (r: Created)
    ensures r.manager == m
    ensures r.campaign == NewCampaign(id, name, templateId, targetCount, now)
  {
    Created(m, NewCampaign(id, name, templateId, targetCount, now))
  }

  /** CreateCampaign as evidently intended: the campaign is also registered
      under its id, so the listing and click counting can see it. */
  function CreateCampaign(m: Manager, id: string, name: string, templateId: string,
                          targetCount: int, now: int): (r: Created)
    ensures r.campaign == NewCampaign(id, name, templateId, targetCount, now)
    ensures r.manager.active == m.active[id := r.campaign] && r.manager.templates == m.templates
  {
    var c := NewCampaign(id, name, templateId, targetCount, now);
    Created(m.(active := m.active[id := c]), c)
  }

  /** The completion step applied to the registered copy, if there is one. */
  function CompleteRegistered(m: Manager, id: string): (r: Manager)
    ensures id in m.active ==> r.active == m.active[id := Complete(m.active[id])]
    ensures id !in m.active ==> r == m
  {
    if id in m.active then m.(active := m.active[id := Complete(m.active[id])]) else m
  }

  datatype Clicked = Clicked(manager: Manager, found: bool)

  /** SimulateClick. */
  function SimulateClick(m: Manager, id: string): (r: Clicked)
    ensures r.found <==> id in m.active
    ensures r.found ==> r.manager.active == m.active[id := m.active[id].(clickCount := m.active[id].clickCount + 1)]
    ensures !r.found ==> r.manager == m
    ensures r.manager.templates == m.templates && r.manager.active.Keys == m.active.Keys
  {
    if id in m.active then
      Clicked(m.(active := m.active[id := m.active[id].(clickCount := m.active[id].clickCount + 1)]), true)
    else Clicked(m, false)
  }

  /** GetTemplates: the template table as stored. */
  function GetTemplates(m: Manager): seq<Template> {
    m.templates
  }

  /** GetCampaigns: the registered campaigns. Go ranges over a map in no
      fixed order, so the listing is a set. */
  function GetCampaigns(m: Manager): (r: set<Campaign>)
    ensures forall c :: c in r <==> exists id :: id in m.active && m.active[id] == c
  {
    set id | id in m.active :: m.active[id]
  }

  // ---------------------------------------------------------------------
  // Properties
  // ---------------------------------------------------------------------

  /** Seeding is idempotent: a second start never adds templates. */
  lemma SeedOnce(templates: seq<Template>)
    ensures SeedTemplates(SeedTemplates(templates)) == SeedTemplates(templates)
  {
  }

  /** A manager started on an empty table lists exactly the three stock
      templates; one started on a filled table lists that table unchanged,
      and nothing the campaigns do touches the listing. */
  lemma TemplatesListing(templates: seq<Template>, id: string, name: string, templateId: string,
                         targetCount: int, now: int)
    ensures |templates| == 0 ==> GetTemplates(NewManager(templates)) == SeedSet
    ensures |templates| > 0 ==> GetTemplates(NewManager(templates)) == templates
    ensures var m := NewManager(templates);
            GetTemplates(CreateCampaign(m, id, name, templateId, targetCount, now).manager) == GetTemplates(m)
  {
  }

  /** As written: right after creation the campaign is neither listed nor
      clickable, whenever no registered campaign carries its id (a fresh
      manager, for one). */
  lemma CreatedCampaignUnreachable(m: Manager, id: string, name: string, templateId: string,
                                   targetCount: int, now: int)
    requires forall k :: k in m.active ==> k != id && m.active[k].id != id
    ensures var r := CreateCampaignAsWritten(m, id, name, templateId, targetCount, now);
            && r.campaign !in GetCampaigns(r.manager)
            && !SimulateClick(r.manager, r.campaign.id).found
  {
    assert forall c :: c in GetCampaigns(m) ==> c.id != id;
  }

  /** As intended: a created campaign is listed, each click on it counts
      once, and completion leaves the clicks in place. */
  lemma CreatedCampaignReachable(m: Manager, id: string, name: string, templateId: string,
                                 targetCount: int, now: int)
    ensures var r := CreateCampaign(m, id, name, templateId, targetCount, now);
            var click := SimulateClick(r.manager, id);
            var done := CompleteRegistered(click.manager, id);
            && r.campaign in GetCampaigns(r.manager)
            && click.found
            && click.manager.active[id].clickCount == 1
            && done.active[id].status == "Completed"
            && done.active[id].sentCount == targetCount
            && done.active[id].clickCount == 1
  {
    var r := CreateCampaign(m, id, name, templateId, targetCount, now);
    assert r.manager.active[id] == r.campaign;
  }

  /** Clicks on one campaign leave every other campaign as it was. */
  lemma ClickIsolated(m: Manager, id: string, other: string)
    requires other != id && other in m.active
    ensures SimulateClick(m, id).manager.active[other] == m.active[other]
  {
  }
}

=== FILE: sca.dfy ===
/** The software-composition scanner (backend/internal/scanner/sca.go): a
    scan record starts running, the background run looks for three
    dependency manifests under the target, asks the remediation engine about
    each one found, and records a finding for every file whose analysis
    reports something. The scan table is a map keyed by scan id; the file
    system is a parameter `read(dir, file)`, the language model is the
    `llm` of the remediation engine, and the clock's nanoseconds are a
    parameter. */
module Sca {
  import opened Wrappers
  import opened Strings
  import opened ScanTypes
  import AiEngine

  /** The stored scan row: the scanner's result plus its type. */
  datatype ScaRecord = ScaRecord(scanId: string, target: string, status: string, kind: string,
                                 vulnerabilities: seq<Vuln>, createdAt: int)

  type Table = map<string, ScaRecord>

  const ManifestFiles: seq<string> := ["go.mod", "package.json", "requirements.txt"]
  const NothingFound := "No critical issues found"
  const ScanNotFound := "scan not found"

  datatype Started = Started(id: string, table: Table)

  /** Start: a running SCA record under "sca-<nanoseconds>". The run itself
      is the separate step RunScan. */
  function Start(table: Table, target: string, nowNanos: int): (r: Started)
    ensures r.id == "sca-" + IntToString(nowNanos)
    ensures r.id in r.table && r.table.Keys == table.Keys + {r.id}
    ensures var rec := r.table[r.id];
            rec.status == "running" && rec.kind == "SCA" && rec.target == target
            && rec.scanId == r.id && rec.vulnerabilities == []
    ensures forall k :: k in table && k != r.id ==> r.table[k] == table[k]
  {
    var id := "sca-" + IntToString(nowNanos);
    Started(id, table[id := ScaRecord(id, target, "running", "SCA", [], nowNanos)])
  }

  /** The directory searched: the two local-server targets mean the
      working directory; any other target is taken as a path. */
  function RealPath(target: string): (p: string)
    ensures target == "http://localhost:8080" || target == "localhost" ==> p == "."
    ensures target != "http://localhost:8080" && target != "localhost" ==> p == target
  {
    if target == "http://localhost:8080" || target == "localhost" then "." else target
  }

  /** The manifests that could be read, with their contents, in list order. */
  function FoundFiles(dir: string, files: seq<string>, read: (string, string) -> Option<string>): (r: seq<(string, string)>)
    ensures |r| <= |files|
    ensures forall i :: 0 <= i < |r| ==> r[i].0 in files && read(dir, r[i].0) == Some(r[i].1)
  {
    if |files| == 0 then []
    else
      var rest := FoundFiles(dir, files[..|files| - 1], read);
      var f := files[|files| - 1];
      match read(dir, f)
      case Some(content) => rest + [(f, content)]
      case None => rest
  }

  /** An analysis is reported unless it is empty or the all-clear answer. */
  predicate Reportable(analysis: string) {
    |analysis| > 0 && analysis != NothingFound
  }

  /** The finding recorded for one reported file. */
  function ScaFinding(filename: string, analysis: string): (v: Vuln)
    ensures v.severity == "High" && v.category == "SCA" && v.description == analysis
    ensures v.title == "Supply Chain Risks in " + filename
  {
    Vuln("Supply Chain Risks in " + filename, analysis, "High", "SCA",
         "Update dependencies or remove vulnerable packages.")
  }

  /** What one found file contributes: nothing without an engine, nothing
      when the analysis fails, and a finding when the analysis is
      reportable. */
  function FileFindings(engine: Option<AiEngine.Engine>, llm: AiEngine.Prompt -> AiEngine.Reply,
                        file: (string, string)): (r: seq<Vuln>)
    ensures |r| <= 1
    ensures |r| == 1 <==> && engine.Some?
                          && AiEngine.AnalyzeDependencies(engine.value, file.0, file.1, llm).Ok?
                          && Reportable(AiEngine.AnalyzeDependencies(engine.value, file.0, file.1, llm).value)
    ensures |r| == 1 ==> r[0] == ScaFinding(file.0, AiEngine.AnalyzeDependencies(engine.value, file.0, file.1, llm).value)
  {
    match engine
    case None => []
    case Some(e) =>
      match AiEngine.AnalyzeDependencies(e, file.0, file.1, llm)
      case Err(_) => []
      case Ok(analysis) => if Reportable(analysis) then [ScaFinding(file.0, analysis)] else []
  }

  /** Reference: the findings of all found files, in file order. */
  function Findings(engine: Option<AiEngine.Engine>, llm: AiEngine.Prompt -> AiEngine.Reply,
                    files: seq<(string, string)>): seq<Vuln> {
    if |files| == 0 then []
    else Findings(engine, llm, files[..|files| - 1]) + FileFindings(engine, llm, files[|files| - 1])
  }

  /** The analysis loop of the background run. */
  method AnalyzeFiles(engine: Option<AiEngine.Engine>, llm: AiEngine.Prompt -> AiEngine.Reply,
                      files: seq<(string, string)>) returns (vulns: seq<Vuln>)
    ensures vulns == Findings(engine, llm, files)
  {
    vulns := [];
    var i := 0;
    while i < |files|
      invariant 0 <= i <= |files|
      invariant vulns == Findings(engine, llm, files[..i])
    {
      assert files[..i + 1][..i] == files[..i];
      vulns := vulns + FileFindings(engine, llm, files[i]);
      i := i + 1;
    }
    assert files[..i] == files;
  }

  /** The background run: when the record exists it is marked completed and
      receives the findings; when it does not, nothing is written. */
  method RunScan(table: Table, scanId: string, target: string, read: (string, string) -> Option<string>,
                 engine: Option<AiEngine.Engine>, llm: AiEngine.Prompt -> AiEngine.Reply) returns (table': Table)
    ensures scanId !in table ==> table' == table
    ensures scanId in table ==>
              table' == table[scanId := table[scanId].(status := "completed",
                vulnerabilities := table[scanId].vulnerabilities
                                   + Findings(engine, llm, FoundFiles(RealPath(target), ManifestFiles, read)))]
  {
    var files := FoundFiles(RealPath(target), ManifestFiles, read);
    var vulns := AnalyzeFiles(engine, llm, files);
    if scanId in table {
      var rec := table[scanId];
      table' := table[scanId := rec.(status := "completed", vulnerabilities := rec.vulnerabilities + vulns)];
    } else {
      table' := table;
    }
  }

  datatype Status = Status(status: string, progress: int, error: Option<string>)

  /** GetStatus. */
  function GetStatus(table: Table, scanId: string): (r: Status)
    ensures scanId !in table <==> r == Status("unknown", 0, Some(ScanNotFound))
    ensures scanId in table ==> r.error == None && r.status == table[scanId].status
    ensures scanId in table ==> (r.progress == 100 <==> r.status == "completed")
    ensures r.progress == 0 || r.progress == 100
  {
    if scanId !in table then Status("unknown", 0, Some(ScanNotFound))
    else
      var rec := table[scanId];
      Status(rec.status, if rec.status == "completed" then 100 else 0, None)
  }

  /** GetResults. */
  function GetResults(table: Table, scanId: string): (r: Result<ScaRecord, string>)
    ensures scanId in table <==> r.Ok?
    ensures r.Ok? ==> r.value == table[scanId]
    ensures r.Err? ==> r.error == ScanNotFound
  {
    if scanId in table then Ok(table[scanId]) else Err(ScanNotFound)
  }

  // ---------------------------------------------------------------------
  // Properties
  // ---------------------------------------------------------------------

  /** Every recorded finding is a high-severity SCA finding, one at most
      per found file. */
  lemma {:induction false} FindingsShape(engine: Option<AiEngine.Engine>, llm: AiEngine.Prompt -> AiEngine.Reply,
                                         files: seq<(string, string)>)
    ensures |Findings(engine, llm, files)| <= |files|
    ensures AllHighSca(Findings(engine, llm, files))
    decreases |files|
  {
    if |files| > 0 {
      var init := files[..|files| - 1];
      var last := FileFindings(engine, llm, files[|files| - 1]);
      FindingsShape(engine, llm, init);
      FileFindingsShape(engine, llm, files[|files| - 1]);
      assert Findings(engine, llm, files) == Findings(engine, llm, init) + last;
      AllHighScaAppend(Findings(engine, llm, init), last);
    }
  }

  /** Every finding is rated High and filed under SCA. */
  predicate AllHighSca(vs: seq<Vuln>) {
    forall k :: 0 <= k < |vs| ==> vs[k].severity == "High" && vs[k].category == "SCA"
  }

  lemma AllHighScaAppend(a: seq<Vuln>, b: seq<Vuln>)
    requires AllHighSca(a) && AllHighSca(b)
    ensures AllHighSca(a + b)
  {
    forall k | 0 <= k < |a + b|
      ensures (a + b)[k].severity == "High" && (a + b)[k].category == "SCA"
    {
      if k < |a| {
        assert (a + b)[k] == a[k];
      } else {
        assert (a + b)[k] == b[k - |a|];
      }
    }
  }

  lemma FileFindingsShape(engine: Option<AiEngine.Engine>, llm: AiEngine.Prompt -> AiEngine.Reply, file: (string, string))
    ensures AllHighSca(FileFindings(engine, llm, file))
  {
    var r := FileFindings(engine, llm, file);
    if |r| == 1 {
      assert r[0].severity == "High" && r[0].category == "SCA";
    }
  }

  /** Without a remediation engine every found file is skipped. */
  lemma {:induction false} NoEngineNoFindings(llm: AiEngine.Prompt -> AiEngine.Reply, files: seq<(string, string)>)
    ensures Findings(None, llm, files) == []
    decreases |files|
  {
    if |files| > 0 {
      NoEngineNoFindings(llm, files[..|files| - 1]);
    }
  }

  /** The all-clear answer and an empty answer record nothing, whatever
      the file. */
  lemma AllClearRecordsNothing(e: AiEngine.Engine, llm: AiEngine.Prompt -> AiEngine.Reply, file: (string, string))
    requires AiEngine.AnalyzeDependencies(e, file.0, file.1, llm) == Ok(NothingFound)
             || AiEngine.AnalyzeDependencies(e, file.0, file.1, llm) == Ok("")
    ensures FileFindings(Some(e), llm, file) == []
  {
    var reply := AiEngine.AnalyzeDependencies(e, file.0, file.1, llm);
    assert reply.Ok? && !Reportable(reply.value);
  }

  /** Over the life of one scan the status goes from running with no
      progress to completed with full progress (the table RunScan leaves),
      and the results then hold exactly the findings of the run. */
  lemma ScanLifecycle(table: Table, target: string, nowNanos: int, read: (string, string) -> Option<string>,
                      engine: Option<AiEngine.Engine>, llm: AiEngine.Prompt -> AiEngine.Reply)
    ensures var s := Start(table, target, nowNanos);
            GetStatus(s.table, s.id) == Status("running", 0, None)
    ensures var s := Start(table, target, nowNanos);
            var found := Findings(engine, llm, FoundFiles(RealPath(target), ManifestFiles, read));
            var done := s.table[s.id := s.table[s.id].(status := "completed",
                                                       vulnerabilities := s.table[s.id].vulnerabilities + found)];
            && GetStatus(done, s.id) == Status("completed", 100, None)
            && GetResults(done, s.id).Ok?
            && GetResults(done, s.id).value.vulnerabilities == found
  {
    var found := Findings(engine, llm, FoundFiles(RealPath(target), ManifestFiles, read));
    assert [] + found == found;
  }
}

=== FILE: scan_types.dfy ===
/** The scanner package's shared records (backend/internal/scanner/scanner.go):
    a finding and the result of one scan. */
module ScanTypes {

  /** A finding; `severity` is one of "Critical", "High", "Medium", "Low",
      "Info" by convention, but any text can arrive. The dark-web and SCA
      scanners also fill in a category. */
  datatype Vuln = Vuln(title: string, description: string, severity: string, category: string, solution: string)

  datatype ScanResult = ScanResult(scanId: string, target: string, status: string, vulnerabilities: seq<Vuln>)

  /** Every finding of every scan, in scan order. */
  function Flatten(history: seq<ScanResult>): (r: seq<Vuln>)
    ensures |history| == 0 ==> r == []
  {
    if |history| == 0 then []
    else Flatten(history[..|history| - 1]) + history[|history| - 1].vulnerabilities
  }

  lemma FlattenAppend(history: seq<ScanResult>, scan: ScanResult)
    ensures Flatten(history + [scan]) == Flatten(history) + scan.vulnerabilities
  {
    assert (history + [scan])[..|history|] == history;
  }

  /** A scan with no findings contributes nothing. */
  lemma FlattenSkipsEmpty(history: seq<ScanResult>, scan: ScanResult)
    requires scan.vulnerabilities == []
    ensures Flatten(history + [scan]) == Flatten(history)
  {
    FlattenAppend(history, scan);
  }

  /** The flattened length is the sum of the scans' finding counts. */
  function TotalCount(history: seq<ScanResult>): nat {
    if |history| == 0 then 0
    else TotalCount(history[..|history| - 1]) + |history[|history| - 1].vulnerabilities|
  }

  lemma {:induction false} FlattenLength(history: seq<ScanResult>)
    ensures |Flatten(history)| == TotalCount(history)
    decreases |history|
  {
    if |history| > 0 {
      FlattenLength(history[..|history| - 1]);
    }
  }
}

=== FILE: security_middleware.dfy ===
/** The request-screening middleware (backend/internal/middleware/monitor.go)
    over the monitor store. Regular-expression matching is outside the
    model: `matches(pattern, payload)` stands for Go's regexp.MatchString on
    the listed patterns. The clock is a parameter in seconds. */
module SecurityMiddleware {
  import opened Wrappers
  import opened Strings
  import opened MonitorStore

  const SqliPatterns: seq<string> := [
    "(?i)(\\%27)|(\\')|(\\-\\-)",
    "(?i)((\\%27)|(\\'))union",
    "(?i)exec(\\s|\\+)+(s|x)p\\w+",
    "(?i)(or|and)\\s+1=1"
  ]

  const XssPatterns: seq<string> := [
    "(?i)<script.*?>.*?<\\/script>",
    "(?i)javascript:",
    "(?i)on\\w+\\s*="
  ]

  const MonitorPrefix := "/api/v1/monitor"
  const BlockSeconds := 24 * 60 * 60
  const IpBlockedMessage := "Access denied. Your IP is blocked."
  const MaliciousMessage := "Malicious activity detected."

  /** An incoming request; a request without a body reads as an empty one. */
  datatype Request = Request(ip: string, verb: string, path: string, body: string, rawQuery: string)

  datatype Response = Forbidden(error: string) | Next

  datatype Handled = Handled(db: MonitorDb, response: Response)

  /** Monitor endpoints and the loopback addresses skip the blocklist, so
      an operator can always reach the unblock endpoint. */
  predicate Bypassed(req: Request) {
    MonitorPrefix <= req.path || req.ip == "::1" || req.ip == "127.0.0.1"
  }

  /** Some pattern of the list matches the payload. */
  predicate AnyMatch(patterns: seq<string>, payload: string, matches: (string, string) -> bool) {
    exists i :: 0 <= i < |patterns| && matches(patterns[i], payload)
  }

  datatype Analysis = Analysis(score: int, attackType: string)

  /** The first matching pattern of a list, searched in order. */
  function FirstMatch(patterns: seq<string>, payload: string, matches: (string, string) -> bool): (r: Option<nat>)
    ensures r.Some? <==> AnyMatch(patterns, payload, matches)
    ensures r.Some? ==> r.value < |patterns| && matches(patterns[r.value], payload)
  {
    if |patterns| == 0 then None
    else if matches(patterns[0], payload) then Some(0)
    else
      var rest := FirstMatch(patterns[1..], payload, matches);
      assert forall i :: 1 <= i < |patterns| ==> patterns[i] == patterns[1..][i - 1];
      if rest.Some? then Some(rest.value + 1) else None
  }

  /** The risk analysis: a SQL-injection match scores 50 and ends the
      search; only a payload with no such match is tried against the XSS
      patterns, which score 30. */
  function Analyze(payload: string, matches: (string, string) -> bool): (a: Analysis)
    ensures AnyMatch(SqliPatterns, payload, matches) <==> a == Analysis(50, "SQL Injection")
    ensures (!AnyMatch(SqliPatterns, payload, matches) && AnyMatch(XssPatterns, payload, matches))
            <==> a == Analysis(30, "XSS")
    ensures (!AnyMatch(SqliPatterns, payload, matches) && !AnyMatch(XssPatterns, payload, matches))
            <==> a == Analysis(0, "None")
  {
    var sqli := if FirstMatch(SqliPatterns, payload, matches).Some? then Analysis(50, "SQL Injection")
                else Analysis(0, "None");
    if sqli.score == 0 && FirstMatch(XssPatterns, payload, matches).Some? then Analysis(sqli.score + 30, "XSS")
    else sqli
  }

  /** The middleware's work after the blocklist lookup. `gate` is what the
      lookup gave: the verdict and the store after its clean-up of a lapsed
      row. `lookupFault` is a failed lookup, which lets the request through
      and leaves the store as it was. */
  function Screen(db: MonitorDb, gate: (bool, MonitorDb), req: Request, now: int, lookupFault: bool,
                  matches: (string, string) -> bool): (r: Handled)
    ensures !Bypassed(req) && !lookupFault && gate.0 ==> r == Handled(db, Forbidden(IpBlockedMessage))
    ensures r.response.Next? <==>
              (Bypassed(req) || lookupFault || !gate.0) && !AnyMatch(SqliPatterns, req.body + req.rawQuery, matches)
    ensures r.response.Forbidden? ==> r.response.error in {IpBlockedMessage, MaliciousMessage}
  {
    var db1 := if Bypassed(req) || lookupFault then db else gate.1;
    if !Bypassed(req) && !lookupFault && gate.0 then
      Handled(db, Forbidden(IpBlockedMessage))
    else
      var payload := req.body + req.rawQuery;
      var a := Analyze(payload, matches);
      var status := if a.score >= 50 then "Blocked" else "Logged";
      var db2 := if a.score >= 50
                 then BlockIP(db1, req.ip, "High Risk Activity: " + a.attackType, "System", BlockSeconds, now).0
                 else db1;
      var entry := SecurityLog(req.ip, req.verb, req.path, payload, a.score, a.attackType, status, now);
      Handled(CreateSecurityLog(db2, entry), if status == "Blocked" then Forbidden(MaliciousMessage) else Next)
  }

  /** The middleware for one request at instant `now`, as written: the
      lookup clears a lapsed row with the store's soft delete, so the
      address keeps its place in the unique index and the auto-block that
      follows an attack fails. */
  function HandleAsWritten(db: MonitorDb, req: Request, now: int, lookupFault: bool,
                           matches: (string, string) -> bool): (r: Handled)
    ensures !Bypassed(req) && !lookupFault && IsIPBlockedAsWritten(db, req.ip, now).0 ==>
              r == Handled(db, Forbidden(IpBlockedMessage))
    ensures r.response.Next? <==>
              (Bypassed(req) || lookupFault || !IsIPBlockedAsWritten(db, req.ip, now).0)
              && !AnyMatch(SqliPatterns, req.body + req.rawQuery, matches)
    ensures r.response.Forbidden? ==> r.response.error in {IpBlockedMessage, MaliciousMessage}
  {
    Screen(db, IsIPBlockedAsWritten(db, req.ip, now), req, now, lookupFault, matches)
  }

  /** The middleware as evidently intended: the lookup removes a lapsed row
      outright, so an attack from that address blocks it afresh. */
  function Handle(db: MonitorDb, req: Request, now: int, lookupFault: bool,
                  matches: (string, string) -> bool): (r: Handled)
    ensures !Bypassed(req) && !lookupFault && IsIPBlocked(db, req.ip, now).0 ==>
              r == Handled(db, Forbidden(IpBlockedMessage))
    ensures r.response.Next? <==>
              (Bypassed(req) || lookupFault || !IsIPBlocked(db, req.ip, now).0)
              && !AnyMatch(SqliPatterns, req.body + req.rawQuery, matches)
    ensures r.response.Forbidden? ==> r.response.error in {IpBlockedMessage, MaliciousMessage}
  {
    Screen(db, IsIPBlocked(db, req.ip, now), req, now, lookupFault, matches)
  }

  /** A request let through the blocklist gate. Both lookups give the same
      verdict; they differ only in how they clear a lapsed row. */
  predicate Admitted(db: MonitorDb, req: Request, now: int, lookupFault: bool) {
    Bypassed(req) || lookupFault || !IsIPBlocked(db, req.ip, now).0
  }

  /** The log entry written for an admitted request. */
  function LogEntry(req: Request, now: int, matches: (string, string) -> bool): SecurityLog {
    var a := Analyze(req.body + req.rawQuery, matches);
    SecurityLog(req.ip, req.verb, req.path, req.body + req.rawQuery, a.score, a.attackType,
                if a.score >= 50 then "Blocked" else "Logged", now)
  }

  /** Whether a store holds no row at all for an address, live or
      soft-deleted. */
  predicate NoRow(db: MonitorDb, ip: string) {
    ip !in db.blocks && ip !in db.deletedIps
  }

  // ---------------------------------------------------------------------
  // Properties
  // ---------------------------------------------------------------------

  /** Every admitted request is logged exactly once, with its payload,
      score and verdict; a refused one is not logged. This holds with
      either delete. */
  lemma AdmittedRequestLoggedOnce(db: MonitorDb, req: Request, now: int, lookupFault: bool,
                                  matches: (string, string) -> bool)
    ensures var r := HandleAsWritten(db, req, now, lookupFault, matches);
            if Admitted(db, req, now, lookupFault) then
              && |r.db.logs| == |db.logs| + 1
              && r.db.logs[..|db.logs|] == db.logs
              && r.db.logs[|db.logs|] == LogEntry(req, now, matches)
            else r.db == db
    ensures var r := Handle(db, req, now, lookupFault, matches);
            if Admitted(db, req, now, lookupFault) then
              && |r.db.logs| == |db.logs| + 1
              && r.db.logs[..|db.logs|] == db.logs
              && r.db.logs[|db.logs|] == LogEntry(req, now, matches)
            else r.db == db
  {
  }

  /** The logged score is one of 0, 30 and 50, and the verdict is
      "Blocked" exactly for 50. */
  lemma ScoreLevels(payload: string, matches: (string, string) -> bool)
    ensures Analyze(payload, matches).score in {0, 30, 50}
    ensures Analyze(payload, matches).score >= 50 <==> AnyMatch(SqliPatterns, payload, matches)
  {
  }

  /** As written, a SQL-injection attempt from an address that is not
      blocked is refused, and it blocks the address for the next 24 hours
      exactly when the store held no row for it before. An address whose
      block had lapsed, or was lifted, keeps its soft-deleted row, so the
      auto-block fails and later requests from it get through the gate. */
  lemma AutoBlockAsWritten(db: MonitorDb, req: Request, now: int, later: int, matches: (string, string) -> bool)
    requires !Bypassed(req) && !IsIPBlockedAsWritten(db, req.ip, now).0
    requires AnyMatch(SqliPatterns, req.body + req.rawQuery, matches)
    requires now <= later <= now + BlockSeconds
    ensures HandleAsWritten(db, req, now, false, matches).response == Forbidden(MaliciousMessage)
    ensures IsIPBlockedAsWritten(HandleAsWritten(db, req, now, false, matches).db, req.ip, later).0
            <==> NoRow(db, req.ip)
  {
    var db1 := IsIPBlockedAsWritten(db, req.ip, now).1;
    assert NoRow(db1, req.ip) <==> NoRow(db, req.ip);
  }

  /** The lapsed block of the middleware, as written: an attack from an
      address whose block has expired is refused but not blocked, and a
      harmless follow-up from the same address is let through. */
  lemma LapsedAttackerReadmitted(db: MonitorDb, req: Request, next: Request, now: int, later: int,
                                 matches: (string, string) -> bool, matches2: (string, string) -> bool)
    requires req.ip in db.blocks && Expired(db.blocks[req.ip], now)
    requires !Bypassed(req) && AnyMatch(SqliPatterns, req.body + req.rawQuery, matches)
    requires next.ip == req.ip && !Bypassed(next) && !AnyMatch(SqliPatterns, next.body + next.rawQuery, matches2)
    requires now <= later
    ensures HandleAsWritten(db, req, now, false, matches).response == Forbidden(MaliciousMessage)
    ensures HandleAsWritten(HandleAsWritten(db, req, now, false, matches).db, next, later, false, matches2).response
            == Next
  {
    var db1 := IsIPBlockedAsWritten(db, req.ip, now).1;
    assert req.ip !in db1.blocks && req.ip in db1.deletedIps;
  }

  /** As intended: a SQL-injection attempt from an address that is not
      blocked, in a store without soft-deleted rows, blocks that address,
      even one whose earlier block has lapsed; any later request from it,
      within 24 hours and outside the monitor endpoints, is refused. */
  lemma AttackBlocksFollowUps(db: MonitorDb, req: Request, next: Request, now: int, later: int,
                              matches: (string, string) -> bool, matches2: (string, string) -> bool)
    requires NoTombstones(db) && !IsIPBlocked(db, req.ip, now).0
    requires !Bypassed(req) && AnyMatch(SqliPatterns, req.body + req.rawQuery, matches)
    requires next.ip == req.ip && !Bypassed(next)
    requires now <= later <= now + BlockSeconds
    ensures Handle(db, req, now, false, matches).response == Forbidden(MaliciousMessage)
    ensures Handle(Handle(db, req, now, false, matches).db, next, later, false, matches2).response
            == Forbidden(IpBlockedMessage)
  {
    var db1 := IsIPBlocked(db, req.ip, now).1;
    assert req.ip !in db1.blocks && req.ip !in db1.deletedIps;
  }

  /** The bypass is total: a monitor-endpoint or loopback request is never
      refused for its address, whatever the blocklist holds. */
  lemma BypassIgnoresBlocklist(db: MonitorDb, req: Request, now: int, lookupFault: bool,
                               matches: (string, string) -> bool)
    requires Bypassed(req)
    ensures HandleAsWritten(db, req, now, lookupFault, matches).response != Forbidden(IpBlockedMessage)
    ensures Handle(db, req, now, lookupFault, matches).response != Forbidden(IpBlockedMessage)
  {
  }

  /** The first SQL-injection pattern matches any apostrophe, so in the
      model of that pattern any payload holding one, from an address that
      is not blocked, is refused. As written the address is then blocked
      exactly when it had no row before; as intended, in a store without
      soft-deleted rows, it is blocked in every case. */
  lemma ApostropheIsAnAttack(db: MonitorDb, req: Request, now: int, matches: (string, string) -> bool)
    requires forall p :: matches(SqliPatterns[0], p) <==> Contains(p, "%27") || Contains(p, "'") || Contains(p, "--")
    requires !Bypassed(req) && !IsIPBlocked(db, req.ip, now).0
    requires Contains(req.body + req.rawQuery, "'")
    ensures HandleAsWritten(db, req, now, false, matches).response == Forbidden(MaliciousMessage)
    ensures IsIPBlockedAsWritten(HandleAsWritten(db, req, now, false, matches).db, req.ip, now).0
            <==> NoRow(db, req.ip)
    ensures Handle(db, req, now, false, matches).response == Forbidden(MaliciousMessage)
    ensures NoTombstones(db) ==> IsIPBlocked(Handle(db, req, now, false, matches).db, req.ip, now).0
  {
    assert matches(SqliPatterns[0], req.body + req.rawQuery);
    assert AnyMatch(SqliPatterns, req.body + req.rawQuery, matches);
    AutoBlockAsWritten(db, req, now, now, matches);
    var db1 := IsIPBlocked(db, req.ip, now).1;
    assert NoTombstones(db) ==> req.ip !in db1.blocks && req.ip !in db1.deletedIps;
  }
}

=== FILE: strings.dfy ===
/** String and sequence helpers with the semantics of the Go `strings` package and the
    JavaScript `String.prototype` methods the system calls. Strings are
    `seq<char>`; case mapping covers ASCII letters only. */
module Strings {
  import opened Wrappers

  /** The sequence read back to front. */
  function Reverse<T>(s: seq<T>): (r: seq<T>)
    ensures |r| == |s|
    ensures forall k :: 0 <= k < |s| ==> r[k] == s[|s| - 1 - k]
  {
    if |s| == 0 then [] else [s[|s| - 1]] + Reverse(s[..|s| - 1])
  }

  /** The index of the first element equal to `x`, as an array's `find`
      or `findIndex` locates it (`None` when there is none). */
  function FirstIndex<T(==)>(xs: seq<T>, x: T): (r: Option<nat>)
    ensures r.Some? ==> r.value < |xs| && xs[r.value] == x
    ensures r.Some? ==> forall k :: 0 <= k < r.value ==> xs[k] != x
    ensures r.None? <==> forall k :: 0 <= k < |xs| ==> xs[k] != x
  {
    if |xs| == 0 then None
    else if xs[0] == x then Some(0)
    else match FirstIndex(xs[1..], x)
      case None => None
      case Some(k) => Some(k + 1)
  }

  // ---------------------------------------------------------------------
  // Case mapping (strings.ToUpper / strings.ToLower on ASCII)
  // ---------------------------------------------------------------------

  predicate IsLower(c: char) { 'a' <= c <= 'z' }
  predicate IsUpper(c: char) { 'A' <= c <= 'Z' }

  function UpperChar(c: char): char {
    if IsLower(c) then (c as int - 32) as char else c
  }

  function LowerChar(c: char): char {
    if IsUpper(c) then (c as int + 32) as char else c
  }

  function ToUpper(s: string): (r: string)
    ensures |r| == |s|
    ensures forall i :: 0 <= i < |s| ==> r[i] == UpperChar(s[i])
  {
    if |s| == 0 then [] else [UpperChar(s[0])] + ToUpper(s[1..])
  }

  function ToLower(s: string): (r: string)
    ensures |r| == |s|
    ensures forall i :: 0 <= i < |s| ==> r[i] == LowerChar(s[i])
  {
    if |s| == 0 then [] else [LowerChar(s[0])] + ToLower(s[1..])
  }

  /** Upper-casing is idempotent, and upper-casing a lower-cased string
      gives the same result as upper-casing the original. */
  lemma ToUpperIdempotent(s: string)
    ensures ToUpper(ToUpper(s)) == ToUpper(s)
    ensures ToUpper(ToLower(s)) == ToUpper(s)
  {
    assert ToUpper(ToUpper(s)) == ToUpper(s);
    assert ToUpper(ToLower(s)) == ToUpper(s);
  }

  /** Lower-casing forgets any earlier upper-casing. */
  lemma ToLowerAfterToUpper(s: string)
    ensures ToLower(ToUpper(s)) == ToLower(s)
  {
    forall i | 0 <= i < |s|
      ensures ToLower(ToUpper(s))[i] == ToLower(s)[i]
    {
      assert LowerChar(UpperChar(s[i])) == LowerChar(s[i]);
    }
  }

  // ---------------------------------------------------------------------
  // Searching
  // ---------------------------------------------------------------------

  /** `sub` occurs in `s` at position `i`. */
  predicate OccursAt(s: string, sub: string, i: int) {
    0 <= i && i + |sub| <= |s| && s[i..i + |sub|] == sub
  }

  /** Index of the first occurrence of `sub` in `s`, as strings.Index and
      String.prototype.indexOf compute it (`None` for -1). */
  function IndexOf(s: string, sub: string): (r: Option<nat>)
    ensures r.Some? ==> OccursAt(s, sub, r.value)
    ensures r.Some? ==> forall j :: 0 <= j < r.value ==> !OccursAt(s, sub, j)
    ensures r.None? ==> forall j :: 0 <= j ==> !OccursAt(s, sub, j)
    decreases |s|
  {
    if sub <= s then Some(0)
    else if |s| == 0 then None
    else
      match IndexOf(s[1..], sub)
      case None =>
        assert forall j :: 1 <= j ==> (OccursAt(s, sub, j) <==> OccursAt(s[1..], sub, j - 1));
        None
      case Some(k) =>
        assert forall j :: 1 <= j ==> (OccursAt(s, sub, j) <==> OccursAt(s[1..], sub, j - 1));
        Some(k + 1)
  }

  /** strings.Contains / String.prototype.includes. */
  predicate Contains(s: string, sub: string) {
    IndexOf(s, sub).Some?
  }

  lemma ContainsIff(s: string, sub: string)
    ensures Contains(s, sub) <==> exists i :: OccursAt(s, sub, i)
  {
  }

  // ---------------------------------------------------------------------
  // Splitting and joining on a non-empty separator
  // ---------------------------------------------------------------------

  /** strings.Split(s, sep) and String.prototype.split(sep) for a non-empty
      separator: the pieces between consecutive occurrences of `sep`. */
  function Split(s: string, sep: string): (parts: seq<string>)
    requires |sep| > 0
    ensures |parts| >= 1
    decreases |s|
  {
    match Cut(s, sep)
    case None => [s]
    case Some(halves) => [halves.0] + Split(halves.1, sep)
  }

  /** The text before and after the first occurrence of `sep`. */
  function Cut(s: string, sep: string): (r: Option<(string, string)>)
    requires |sep| > 0
    ensures r.Some? ==> |r.value.1| < |s|
  {
    match IndexOf(s, sep)
    case None => None
    case Some(i) => Some((s[..i], s[i + |sep|..]))
  }

  /** No piece of a split holds the separator. */
  lemma {:induction false} SplitPiecesLackSeparator(s: string, sep: string)
    requires |sep| > 0
    ensures forall i :: 0 <= i < |Split(s, sep)| ==> !Contains(Split(s, sep)[i], sep)
    decreases |s|
  {
    match IndexOf(s, sep)
    case None =>
    case Some(i) =>
      var rest := s[i + |sep|..];
      BeforeFirstLacks(s, sep, i);
      SplitPiecesLackSeparator(rest, sep);
      SplitAtFirst(s, sep, i);
  }

  /** The text before the first occurrence holds no occurrence. */
  lemma BeforeFirstLacks(s: string, sep: string, i: nat)
    requires |sep| > 0 && IndexOf(s, sep) == Some(i)
    ensures !Contains(s[..i], sep)
  {
    var head := s[..i];
    forall j | 0 <= j
      ensures !OccursAt(head, sep, j)
    {
      if j + |sep| <= |head| {
        assert j < i;
        assert !OccursAt(s, sep, j);
        assert head[j..j + |sep|] == s[j..j + |sep|];
      }
    }
  }

  /** One unfolding of Split at the first occurrence. */
  lemma SplitAtFirst(s: string, sep: string, i: nat)
    requires |sep| > 0 && IndexOf(s, sep) == Some(i)
    ensures Split(s, sep) == [s[..i]] + Split(s[i + |sep|..], sep)
  {
    assert Cut(s, sep) == Some((s[..i], s[i + |sep|..]));
  }

  /** Array.prototype.join / strings.Join. */
  function Join(parts: seq<string>, sep: string): string {
    if |parts| == 0 then []
    else if |parts| == 1 then parts[0]
    else parts[0] + sep + Join(parts[1..], sep)
  }

  /** Joining the pieces with the separator gives back the original text,
      so splitting loses nothing. */
  lemma {:induction false} SplitJoin(s: string, sep: string)
    requires |sep| > 0
    ensures Join(Split(s, sep), sep) == s
    decreases |s|
  {
    match IndexOf(s, sep)
    case None =>
      assert Split(s, sep) == [s];
    case Some(i) =>
      var rest := s[i + |sep|..];
      SplitJoin(rest, sep);
      JoinAtFirst(s, sep, i);
      RecomposeAt(s, sep, i);
  }

  /** Joining the pieces of a split at its first occurrence. */
  lemma JoinAtFirst(s: string, sep: string, i: nat)
    requires |sep| > 0 && IndexOf(s, sep) == Some(i)
    ensures Join(Split(s, sep), sep) == s[..i] + sep + Join(Split(s[i + |sep|..], sep), sep)
  {
    SplitAtFirst(s, sep, i);
    JoinCons(s[..i], Split(s[i + |sep|..], sep), sep);
  }

  /** Text is the part before an occurrence, the occurrence, and the rest. */
  lemma RecomposeAt(s: string, sep: string, i: nat)
    requires OccursAt(s, sep, i)
    ensures s == s[..i] + sep + s[i + |sep|..]
  {
    assert s[i..] == s[i..i + |sep|] + s[i + |sep|..];
    assert s == s[..i] + s[i..];
  }

  lemma JoinCons(head: string, tail: seq<string>, sep: string)
    requires |tail| >= 1
    ensures Join([head] + tail, sep) == head + sep + Join(tail, sep)
  {
    assert ([head] + tail)[1..] == tail;
  }

  /** The first piece of a split is the text before the first separator. */
  lemma SplitHead(s: string, sep: string)
    requires |sep| > 0
    ensures IndexOf(s, sep).None? ==> Split(s, sep) == [s]
    ensures IndexOf(s, sep).Some? ==>
              |Split(s, sep)| >= 2 && Split(s, sep)[0] == s[..IndexOf(s, sep).value]
  {
  }

  /** With a one-character separator, an occurrence is just that character. */
  lemma OccursAtChar(s: string, c: char, i: int)
    ensures OccursAt(s, [c], i) <==> 0 <= i < |s| && s[i] == c
  {
    if 0 <= i < |s| {
      assert s[i..i + 1] == [s[i]];
    }
  }

  /** Text without the separator character splits into itself. */
  lemma SplitOnCharAbsent(s: string, c: char)
    requires c !in s
    ensures Split(s, [c]) == [s]
  {
    if IndexOf(s, [c]).Some? {
      OccursAtChar(s, c, IndexOf(s, [c]).value);
    }
  }

  /** Splitting `a + c + b`, where `a` lacks `c`, yields `a` first and then
      the pieces of `b`. */
  lemma SplitOnCharAt(a: string, c: char, b: string)
    requires c !in a
    ensures Split(a + [c] + b, [c]) == [a] + Split(b, [c])
  {
    var s := a + [c] + b;
    OccursAtChar(s, c, |a|);
    var idx := IndexOf(s, [c]);
    assert idx.Some?;
    OccursAtChar(s, c, idx.value);
    assert idx.value == |a|;
    assert s[..|a|] == a;
    assert s[|a| + 1..] == b;
    SplitAtFirst(s, [c], |a|);
  }

  // ---------------------------------------------------------------------
  // Replacing
  // ---------------------------------------------------------------------

  /** String.prototype.replace with a string pattern: only the first
      occurrence is replaced. */
  function ReplaceFirst(s: string, from: string, to: string): string {
    match IndexOf(s, from)
    case None => s
    case Some(i) => s[..i] + to + s[i + |from|..]
  }

  // ---------------------------------------------------------------------
  // Whitespace (String.prototype.trim on ASCII whitespace)
  // ---------------------------------------------------------------------

  predicate IsSpace(c: char) {
    c == ' ' || c == '\t' || c == '\n' || c == '\r' || c == '\U{000B}' || c == '\U{000C}'
  }

  function TrimStart(s: string): (r: string)
    ensures |r| <= |s| && r == s[|s| - |r|..]
    ensures |r| > 0 ==> !IsSpace(r[0])
    ensures forall i :: 0 <= i < |s| - |r| ==> IsSpace(s[i])
  {
    if |s| > 0 && IsSpace(s[0]) then TrimStart(s[1..]) else s
  }

  function TrimEnd(s: string): (r: string)
    ensures |r| <= |s| && r == s[..|r|]
    ensures |r| > 0 ==> !IsSpace(r[|r| - 1])
    ensures forall i :: |r| <= i < |s| ==> IsSpace(s[i])
  {
    if |s| > 0 && IsSpace(s[|s| - 1]) then TrimEnd(s[..|s| - 1]) else s
  }

  function Trim(s: string): string {
    TrimEnd(TrimStart(s))
  }

  /** Trimming leaves nothing exactly when every character is whitespace. */
  lemma TrimEmptyIff(s: string)
    ensures Trim(s) == [] <==> forall i :: 0 <= i < |s| ==> IsSpace(s[i])
  {
  }

  // ---------------------------------------------------------------------
  // Decimal rendering (fmt's %d)
  // ---------------------------------------------------------------------

  function DigitChar(d: nat): char
    requires d < 10
  {
    "0123456789"[d]
  }

  function NatToString(n: nat): (r: string)
    ensures |r| >= 1
    ensures forall i :: 0 <= i < |r| ==> '0' <= r[i] <= '9'
  {
    if n < 10 then [DigitChar(n)] else NatToString(n / 10) + [DigitChar(n % 10)]
  }

  function IntToString(n: int): (r: string)
    ensures |r| >= 1
    ensures forall i :: 0 <= i < |r| ==> r[i] == '-' || '0' <= r[i] <= '9'
  {
    if n < 0 then "-" + NatToString(-n) else NatToString(n)
  }

  /** Reading the decimal digits back gives the number: %d is injective. */
  function DigitsValue(s: string): int
    requires forall i :: 0 <= i < |s| ==> '0' <= s[i] <= '9'
  {
    if |s| == 0 then 0 else DigitsValue(s[..|s| - 1]) * 10 + (s[|s| - 1] as int - '0' as int)
  }

  lemma {:induction false} NatToStringRoundTrip(n: nat)
    ensures DigitsValue(NatToString(n)) == n
  {
    var r := NatToString(n);
    DigitCharValue(n % 10);
    if n >= 10 {
      NatToStringRoundTrip(n / 10);
      assert r == NatToString(n / 10) + [DigitChar(n % 10)];
      assert r[..|r| - 1] == NatToString(n / 10);
      assert DigitsValue(r) == (n / 10) * 10 + n % 10;
    }
  }

  lemma DigitCharValue(d: nat)
    requires d < 10
    ensures DigitChar(d) as int - '0' as int == d
  {
    assert "0123456789"[d] as int == '0' as int + d;
  }
}

=== FILE: tenant.dfy ===
/** The tenant middleware (backend/internal/middleware/tenant.go): the
    organisation a request acts for. */
module Tenant {
  import opened Wrappers

  const DefaultOrg := "org_default"

  /** The request context after the middleware: the organisation id, and
      that the chain went on. */
  datatype TenantContext = TenantContext(orgId: string, proceeded: bool)

  /** `header` is the X-Org-ID header's first value; an absent header reads
      as the empty string, like a present but empty one. */
  function HandleTenant(header: Option<string>): (r: TenantContext)
    ensures r.proceeded
    ensures r.orgId != ""
    ensures header.Some? && header.value != "" ==> r.orgId == header.value
    ensures header.None? || header.value == "" ==> r.orgId == DefaultOrg
  {
    var orgId := header.GetOr("");
    TenantContext(if orgId == "" then DefaultOrg else orgId, true)
  }

  /** Resolving is idempotent: feeding the resolved id back as the header
      resolves to itself. */
  lemma TenantResolveIdempotent(header: Option<string>)
    ensures HandleTenant(Some(HandleTenant(header).orgId)) == HandleTenant(header)
  {
  }
}

=== FILE: threat_hunting.dfy ===
/** The threat-hunting chat page (frontend/src/pages/ThreatHuntingPage.tsx):
    the conversation, the input box and the loading flag, and how a send
    moves them. A send is two steps: the click, which records the user's
    message and issues the request, and the settlement of that request,
    whose outcome (the reply text or a failure) is a parameter. */
module ThreatHunting {
  import opened Wrappers
  import opened Strings

  datatype Role = User | Model

  datatype Message = Message(role: Role, content: string)

  datatype ChatState = ChatState(messages: seq<Message>, input: string, loading: bool)

  /** What the page sends: the new message and the conversation before it. */
  datatype ChatRequest = ChatRequest(message: string, history: seq<Message>)

  datatype Sent = Ignored(state: ChatState) | Pending(state: ChatState, request: ChatRequest)

  const Welcome := "Hello! I am CyberShield AI. I have access to your system's security logs and vulnerability data. How can I assist you with threat hunting today?"
  const Apology := "Sorry, I encountered an error processing your request."

  /** The page as it opens: one welcome message from the model. */
  function Initial(): (s: ChatState)
    ensures s.messages == [Message(Model, Welcome)] && s.input == "" && !s.loading
  {
    ChatState([Message(Model, Welcome)], "", false)
  }

  /** Typing into the input box. */
  function SetInput(s: ChatState, text: string): (r: ChatState)
    ensures r.input == text && r.messages == s.messages && r.loading == s.loading
  {
    s.(input := text)
  }

  /** The click on send. Blank input (after trimming) or a request in
      flight makes it do nothing; otherwise the untrimmed input becomes a
      user message, the box is cleared, loading is set, and the request
      carries the conversation as it was before the new message. */
  function BeginSend(s: ChatState): (r: Sent)
    ensures r.Ignored? <==> Trim(s.input) == "" || s.loading
    ensures r.Ignored? ==> r.state == s
    ensures r.Pending? ==> && r.state.messages == s.messages + [Message(User, s.input)]
                           && r.state.input == ""
                           && r.state.loading
                           && r.request == ChatRequest(s.input, s.messages)
  {
    if Trim(s.input) == "" || s.loading then Ignored(s)
    else Pending(ChatState(s.messages + [Message(User, s.input)], "", true), ChatRequest(s.input, s.messages))
  }

  /** The request settles: a reply is appended as a model message, a failure
      as the fixed apology, and loading ends either way. The text typed
      meanwhile stays in the box. */
  function Settle(s: ChatState, outcome: Result<string, string>): (r: ChatState)
    ensures |r.messages| == |s.messages| + 1 && r.messages[..|s.messages|] == s.messages
    ensures r.messages[|s.messages|].role == Model
    ensures outcome.Ok? ==> r.messages[|s.messages|].content == outcome.value
    ensures outcome.Err? ==> r.messages[|s.messages|].content == Apology
    ensures !r.loading && r.input == s.input
  {
    var reply := match outcome
      case Ok(text) => text
      case Err(_) => Apology;
    assert (s.messages + [Message(Model, reply)])[..|s.messages|] == s.messages;
    ChatState(s.messages + [Message(Model, reply)], s.input, false)
  }

  // ---------------------------------------------------------------------
  // The conversation's shape
  // ---------------------------------------------------------------------

  /** Neighbouring messages come from different speakers. */
  predicate Alternates(ms: seq<Message>) {
    forall i :: 0 <= i < |ms| - 1 ==> ms[i].role != ms[i + 1].role
  }

  /** The conversation opens with the model, the speakers alternate, and the
      user spoke last exactly while a request is in flight. */
  predicate Consistent(s: ChatState) {
    && |s.messages| >= 1
    && s.messages[0].role == Model
    && Alternates(s.messages)
    && (s.loading <==> s.messages[|s.messages| - 1].role == User)
  }

  lemma AppendAlternates(ms: seq<Message>, m: Message)
    requires |ms| >= 1 && Alternates(ms) && ms[|ms| - 1].role != m.role
    ensures Alternates(ms + [m])
  {
    var t := ms + [m];
    forall i | 0 <= i < |t| - 1
      ensures t[i].role != t[i + 1].role
    {
      if i < |ms| - 1 {
        assert t[i] == ms[i] && t[i + 1] == ms[i + 1];
      }
    }
  }

  lemma InitialConsistent()
    ensures Consistent(Initial())
  {
  }

  /** Typing and clicking send keep the conversation's shape. */
  lemma SendKeepsConsistent(s: ChatState, text: string)
    requires Consistent(s)
    ensures Consistent(SetInput(s, text))
    ensures Consistent(BeginSend(s).state)
  {
    if BeginSend(s).Pending? {
      AppendAlternates(s.messages, Message(User, s.input));
    }
  }

  /** Settling a pending request keeps the conversation's shape. */
  lemma SettleKeepsConsistent(s: ChatState, outcome: Result<string, string>)
    requires Consistent(s) && s.loading
    ensures Consistent(Settle(s, outcome))
  {
    var r := Settle(s, outcome);
    AppendAlternates(s.messages, r.messages[|s.messages|]);
    assert r.messages == s.messages + [r.messages[|s.messages|]];
  }

  /** One request at a time: while a send is in flight a second click does
      nothing, whatever has been typed meanwhile. */
  lemma OneRequestInFlight(s: ChatState, text: string)
    requires BeginSend(s).Pending?
    ensures BeginSend(SetInput(BeginSend(s).state, text)).Ignored?
  {
  }

  /** A full exchange adds exactly the user's message and one answer, and
      leaves the page ready for the next send. */
  lemma ExchangeAddsTwo(s: ChatState, outcome: Result<string, string>)
    requires BeginSend(s).Pending?
    ensures var after := Settle(BeginSend(s).state, outcome);
            && after.messages[..|s.messages|] == s.messages
            && |after.messages| == |s.messages| + 2
            && after.messages[|s.messages|] == Message(User, s.input)
            && after.messages[|s.messages| + 1].role == Model
            && !after.loading && after.input == ""
  {
    var mid := BeginSend(s).state;
    var after := Settle(mid, outcome);
    assert after.messages[..|mid.messages|] == mid.messages;
    assert after.messages[..|s.messages|] == mid.messages[..|s.messages|];
  }
}

=== FILE: trivy_tally.dfy ===
/** Counting Trivy findings by severity, as the container and IaC scanners
    do (backend/internal/container/scanner.go, backend/internal/iac/scanner.go).
    Running Trivy and decoding its JSON are outside the model: a run is
    given as its decoded outcome. */
module TrivyTally {

  /** How a Trivy invocation ended: the process failed, its output did not
      decode, or it decoded to a list of results, each a list of items. */
  datatype TrivyRun<T> = ExecFailed(error: string) | Unparseable | Parsed(results: seq<seq<T>>)

  datatype Tally = Tally(total: nat, critical: nat, high: nat, medium: nat, low: nat)

  const Zero := Tally(0, 0, 0, 0, 0)

  /** The severity names Trivy emits; the switch matches them exactly. */
  predicate Ranked(sev: string) {
    sev == "CRITICAL" || sev == "HIGH" || sev == "MEDIUM" || sev == "LOW"
  }

  /** One more finding: the total always grows, and the counter of its
      severity grows when the name is one of the four. */
  function Bump(t: Tally, sev: string): (r: Tally)
    ensures r.total == t.total + 1
    ensures r.critical + r.high + r.medium + r.low
            == t.critical + t.high + t.medium + t.low + (if Ranked(sev) then 1 else 0)
  {
    var t' := t.(total := t.total + 1);
    if sev == "CRITICAL" then t'.(critical := t.critical + 1)
    else if sev == "HIGH" then t'.(high := t.high + 1)
    else if sev == "MEDIUM" then t'.(medium := t.medium + 1)
    else if sev == "LOW" then t'.(low := t.low + 1)
    else t'
  }

  /** Reference: how many entries carry exactly this name. */
  function Count(sevs: seq<string>, name: string): nat {
    if |sevs| == 0 then 0
    else Count(sevs[..|sevs| - 1], name) + (if sevs[|sevs| - 1] == name then 1 else 0)
  }

  /** Reference: the tally of a list of severities. */
  function TallyOf(sevs: seq<string>): Tally {
    Tally(|sevs|, Count(sevs, "CRITICAL"), Count(sevs, "HIGH"), Count(sevs, "MEDIUM"), Count(sevs, "LOW"))
  }

  /** Bumping agrees with the reference one finding at a time. */
  lemma TallyOfSnoc(sevs: seq<string>, sev: string)
    ensures TallyOf(sevs + [sev]) == Bump(TallyOf(sevs), sev)
  {
    assert (sevs + [sev])[..|sevs|] == sevs;
  }

  /** The four counters never exceed the total. */
  lemma {:induction false} TallyBounded(sevs: seq<string>)
    ensures var t := TallyOf(sevs); t.critical + t.high + t.medium + t.low <= t.total
    decreases |sevs|
  {
    if |sevs| > 0 {
      TallyBounded(sevs[..|sevs| - 1]);
    }
  }

  /** A severity outside the four names, such as "UNKNOWN" or a lower-case
      "critical", counts only towards the total. */
  lemma UnrankedCountsOnlyInTotal(sevs: seq<string>, sev: string)
    requires !Ranked(sev)
    ensures var before := TallyOf(sevs); var after := TallyOf(sevs + [sev]);
            after == before.(total := before.total + 1)
  {
    TallyOfSnoc(sevs, sev);
  }

  /** Every item of every result, in order. */
  function Concat<T>(rs: seq<seq<T>>): seq<T> {
    if |rs| == 0 then [] else Concat(rs[..|rs| - 1]) + rs[|rs| - 1]
  }

  lemma ConcatAppend<T>(rs: seq<seq<T>>, r: seq<T>)
    ensures Concat(rs + [r]) == Concat(rs) + r
  {
    assert (rs + [r])[..|rs|] == rs;
  }

  /** The scanners' nested counting loop over the decoded results. */
  method CountSeverities(results: seq<seq<string>>) returns (t: Tally)
    ensures t == TallyOf(Concat(results))
  {
    t := Zero;
    var i := 0;
    while i < |results|
      invariant 0 <= i <= |results|
      invariant t == TallyOf(Concat(results[..i]))
    {
      t := AddSeverities(t, Concat(results[..i]), results[i]);
      assert results[..i + 1] == results[..i] + [results[i]];
      ConcatAppend(results[..i], results[i]);
      i := i + 1;
    }
    assert results[..i] == results;
  }

  /** The inner counting loop over one result's findings, continuing the
      tally of the findings already seen. */
  method AddSeverities(t0: Tally, ghost seen: seq<string>, sevs: seq<string>) returns (t: Tally)
    requires t0 == TallyOf(seen)
    ensures t == TallyOf(seen + sevs)
  {
    t := t0;
    var j := 0;
    assert seen + sevs[..0] == seen;
    while j < |sevs|
      invariant 0 <= j <= |sevs|
      invariant t == TallyOf(seen + sevs[..j])
    {
      TallyOfSnoc(seen + sevs[..j], sevs[j]);
      assert seen + sevs[..j + 1] == (seen + sevs[..j]) + [sevs[j]];
      t := Bump(t, sevs[j]);
      j := j + 1;
    }
    assert sevs[..j] == sevs;
  }
}

=== FILE: ueba.dfy ===
/** User and entity behaviour analytics (backend/internal/ueba/engine.go):
    the risk thresholds of simulated behaviour records and the anomaly feed
    built from the most recent risky ones. The random generator and the
    clock are parameters; the behaviour table is a sequence of rows. */
module Ueba {
  import opened Strings

  datatype UserBehavior = UserBehavior(id: nat, userId: string, riskScore: int, anomalies: int,
                                       status: string, lastActive: int)

  datatype Severity = Low | Medium | High | Critical

  datatype Anomaly = Anomaly(id: string, userId: string, kind: string, description: string,
                             severity: Severity, timestamp: int)

  const FeedLimit := 10

  /** The status a risk score earns: above 80 is high risk, above 50
      suspicious, anything else normal. */
  function BehaviourStatus(score: int): (s: string)
    ensures s == "High Risk" <==> score > 80
    ensures s == "Suspicious" <==> 50 < score <= 80
    ensures s == "Normal" <==> score <= 50
  {
    if score > 80 then "High Risk" else if score > 50 then "Suspicious" else "Normal"
  }

  /** One step of the simulation: a record from the drawn values. */
  function SimulatedBehaviour(id: nat, user: nat, score: int, anomalies: int, now: int): (b: UserBehavior)
    ensures b.status == BehaviourStatus(score) && b.riskScore == score && b.lastActive == now
    ensures b.userId == "user-" + NatToString(user)
  {
    UserBehavior(id, "user-" + NatToString(user), score, anomalies, BehaviourStatus(score), now)
  }

  // ---------------------------------------------------------------------
  // The query: non-normal rows, most recent first, at most ten
  // ---------------------------------------------------------------------

  /** The rows whose status is not "Normal", in table order. */
  function Risky(rows: seq<UserBehavior>): (r: seq<UserBehavior>)
    ensures forall i :: 0 <= i < |r| ==> r[i].status != "Normal"
    ensures multiset(r) <= multiset(rows)
    ensures forall b: UserBehavior :: b.status != "Normal" ==> multiset(r)[b] == multiset(rows)[b]
  {
    if |rows| == 0 then []
    else
      assert rows == [rows[0]] + rows[1..];
      (if rows[0].status != "Normal" then [rows[0]] else []) + Risky(rows[1..])
  }

  predicate NewestFirst(s: seq<UserBehavior>) {
    forall a, b :: 0 <= a < b < |s| ==> s[a].lastActive >= s[b].lastActive
  }

  function InsertByRecency(b: UserBehavior, s: seq<UserBehavior>): seq<UserBehavior> {
    if |s| == 0 || b.lastActive >= s[0].lastActive then [b] + s else [s[0]] + InsertByRecency(b, s[1..])
  }

  /** `Order("last_active desc")`; rows with equal instants are left in an
      order the database chooses, here the insertion order. */
  function SortByRecency(s: seq<UserBehavior>): seq<UserBehavior> {
    if |s| == 0 then [] else InsertByRecency(s[0], SortByRecency(s[1..]))
  }

  lemma InsertByRecencyPermutes(b: UserBehavior, s: seq<UserBehavior>)
    ensures multiset(InsertByRecency(b, s)) == multiset(s) + multiset{b}
  {
    if |s| > 0 && b.lastActive < s[0].lastActive {
      InsertByRecencyPermutes(b, s[1..]);
      assert s == [s[0]] + s[1..];
    }
  }

  lemma InsertByRecencySorted(b: UserBehavior, s: seq<UserBehavior>)
    requires NewestFirst(s)
    ensures NewestFirst(InsertByRecency(b, s))
  {
    if |s| > 0 && b.lastActive < s[0].lastActive {
      InsertByRecencySorted(b, s[1..]);
      InsertByRecencyPermutes(b, s[1..]);
      var t := InsertByRecency(b, s[1..]);
      forall i | 0 <= i < |t|
        ensures t[i].lastActive <= s[0].lastActive
      {
        assert t[i] in multiset(s[1..]) + multiset{b};
        if t[i] != b {
          assert t[i] in s[1..];
        }
      }
    }
  }

  lemma {:induction false} SortByRecencyCorrect(s: seq<UserBehavior>)
    ensures NewestFirst(SortByRecency(s))
    ensures multiset(SortByRecency(s)) == multiset(s)
    decreases |s|
  {
    if |s| > 0 {
      SortByRecencyCorrect(s[1..]);
      InsertByRecencySorted(s[0], SortByRecency(s[1..]));
      InsertByRecencyPermutes(s[0], SortByRecency(s[1..]));
      assert s == [s[0]] + s[1..];
    }
  }

  /** The rows the feed is built from. */
  function FeedRows(rows: seq<UserBehavior>): seq<UserBehavior> {
    var sorted := SortByRecency(Risky(rows));
    if |sorted| <= FeedLimit then sorted else sorted[..FeedLimit]
  }

  /** A prefix of a newest-first list is newest first, is drawn from the
      list, and is at least as recent as everything after it. */
  lemma PrefixOfNewestFirst(sorted: seq<UserBehavior>, n: nat)
    requires NewestFirst(sorted) && n <= |sorted|
    ensures NewestFirst(sorted[..n])
    ensures multiset(sorted[..n]) <= multiset(sorted)
    ensures forall i, j :: 0 <= i < n <= j < |sorted| ==> sorted[j].lastActive <= sorted[..n][i].lastActive
  {
    assert sorted == sorted[..n] + sorted[n..];
  }

  /** The feed rows are risky rows of the table, newest first, as many as
      there are up to ten, and no risky row left out is more recent than
      any row kept. */
  lemma FeedRowsAreNewestRisky(rows: seq<UserBehavior>)
    ensures var f := FeedRows(rows);
            && |f| == (if |Risky(rows)| <= FeedLimit then |Risky(rows)| else FeedLimit)
            && NewestFirst(f)
            && multiset(f) <= multiset(Risky(rows))
            && (forall i :: 0 <= i < |f| ==> f[i].status != "Normal" && f[i] in rows)
            && (forall i, j :: 0 <= i < |f| && FeedLimit <= j < |SortByRecency(Risky(rows))| ==>
                  SortByRecency(Risky(rows))[j].lastActive <= f[i].lastActive)
  {
    var risky := Risky(rows);
    var sorted := SortByRecency(risky);
    var f := FeedRows(rows);
    SortByRecencyCorrect(risky);
    var n := if |sorted| <= FeedLimit then |sorted| else FeedLimit;
    assert |sorted| == |risky| by {
      assert |sorted| == |multiset(sorted)| == |multiset(risky)| == |risky|;
    }
    assert f == sorted[..n];
    PrefixOfNewestFirst(sorted, n);
    RiskyRowsOfTable(rows, f);
  }

  /** Rows drawn from the risky rows are risky rows of the table. */
  lemma RiskyRowsOfTable(rows: seq<UserBehavior>, f: seq<UserBehavior>)
    requires multiset(f) <= multiset(Risky(rows))
    ensures forall i :: 0 <= i < |f| ==> f[i].status != "Normal" && f[i] in rows
  {
    var risky := Risky(rows);
    forall i | 0 <= i < |f|
      ensures f[i].status != "Normal" && f[i] in rows
    {
      FromSubMultiset(f, risky, i);
      FromSubMultiset(risky, rows, IndexIn(risky, f[i]));
    }
  }

  function IndexIn(s: seq<UserBehavior>, x: UserBehavior): (k: nat)
    requires x in s
    ensures k < |s| && s[k] == x
  {
    if s[0] == x then 0 else 1 + IndexIn(s[1..], x)
  }

  lemma FromSubMultiset(a: seq<UserBehavior>, b: seq<UserBehavior>, i: nat)
    requires multiset(a) <= multiset(b) && i < |a|
    ensures a[i] in b
  {
    assert a[i] in multiset(a);
  }

  // ---------------------------------------------------------------------
  // Anomalies
  // ---------------------------------------------------------------------

  /** The anomaly a risky row reports. */
  function ToAnomaly(b: UserBehavior): (a: Anomaly)
    ensures a.severity == High <==> b.riskScore > 80
    ensures a.severity == Medium <==> b.riskScore <= 80
    ensures a.description == (if b.riskScore > 80 then "Critical risk behavior detected"
                              else "Unusual activity detected")
    ensures a.kind == b.status && a.userId == b.userId && a.timestamp == b.lastActive
    ensures a.id == "anom-" + NatToString(b.id)
  {
    var high := b.riskScore > 80;
    Anomaly("anom-" + NatToString(b.id), b.userId, b.status,
            if high then "Critical risk behavior detected" else "Unusual activity detected",
            if high then High else Medium, b.lastActive)
  }

  function Placeholder(now: int): Anomaly {
    Anomaly("pending", "Pending", "N/A", "Waiting for anomalies...", Low, now)
  }

  function MapAnomalies(rows: seq<UserBehavior>): (r: seq<Anomaly>)
    ensures |r| == |rows|
    ensures forall i :: 0 <= i < |rows| ==> r[i] == ToAnomaly(rows[i])
  {
    if |rows| == 0 then [] else [ToAnomaly(rows[0])] + MapAnomalies(rows[1..])
  }

  /** GetAnomalies at instant `now`: never empty; the placeholder alone
      when no row is risky. */
  function GetAnomalies(rows: seq<UserBehavior>, now: int): (r: seq<Anomaly>)
    ensures |r| >= 1
    ensures |Risky(rows)| == 0 <==> r == [Placeholder(now)]
    ensures |Risky(rows)| > 0 ==> |r| == |FeedRows(rows)|
                                  && forall i :: 0 <= i < |r| ==> r[i] == ToAnomaly(FeedRows(rows)[i])
  {
    var feed := FeedRows(rows);
    SortByRecencyCorrect(Risky(rows));
    assert |SortByRecency(Risky(rows))| == |multiset(Risky(rows))|;
    if |feed| == 0 then [Placeholder(now)] else MapAnomalies(feed)
  }

  /** A reported anomaly is never Low or Critical unless it is the
      placeholder, and a simulated normal record never shows up. */
  lemma AnomalySeverities(rows: seq<UserBehavior>, now: int)
    ensures forall a :: a in GetAnomalies(rows, now) ==>
              a == Placeholder(now) || a.severity == High || a.severity == Medium
  {
  }
}

=== FILE: user_store.dfy ===
/** The in-memory user store (backend/internal/auth/user.go). Password
    hashing is outside the model: `hash` stands for bcrypt's
    GenerateFromPassword (which can fail) and `verify(stored, password)` for
    CompareHashAndPassword succeeding. The creation instant is a parameter;
    the mutex only serialises calls, which the model takes one at a time. */
module UserStore {
  import opened Wrappers

  datatype User = User(id: string, email: string, passwordHash: string, name: string, createdAt: int)

  /** Users keyed by email. */
  type Users = map<string, User>

  const InvalidCredentials := "invalid credentials"

  /** NewUserStore. */
  function NewUserStore(): (r: Users)
    ensures |r| == 0
  {
    map[]
  }

  datatype Created = Created(users: Users, reply: Result<User, string>)

  /** Create. */
  function Create(users: Users, email: string, password: string, name: string, now: int,
                  hash: string -> Result<string, string>): (r: Created)
    ensures email in users ==> r == Created(users, Err("user already exists"))
    ensures email !in users && hash(password).Err? ==> r == Created(users, Err(hash(password).error))
    ensures r.reply.Ok? ==> && email !in users
                            && hash(password).Ok?
                            && r.reply.value == User(email, email, hash(password).value, name, now)
                            && r.users == users[email := r.reply.value]
    ensures r.reply.Err? ==> r.users == users
  {
    if email in users then Created(users, Err("user already exists"))
    else match hash(password)
      case Err(e) => Created(users, Err(e))
      case Ok(h) =>
        var user := User(email, email, h, name, now);
        Created(users[email := user], Ok(user))
  }

  /** Authenticate. */
  function Authenticate(users: Users, email: string, password: string,
                        verify: (string, string) -> bool): (r: Result<User, string>)
    ensures r.Ok? <==> email in users && verify(users[email].passwordHash, password)
    ensures r.Ok? ==> r.value == users[email]
    ensures r.Err? ==> r.error == InvalidCredentials
  {
    if email !in users then Err(InvalidCredentials)
    else if !verify(users[email].passwordHash, password) then Err(InvalidCredentials)
    else Ok(users[email])
  }

  // ---------------------------------------------------------------------
  // Properties
  // ---------------------------------------------------------------------

  /** The hash function and the comparison agree: a password verifies
      against any hash made from it. */
  ghost predicate Sound(hash: string -> Result<string, string>, verify: (string, string) -> bool) {
    forall p :: hash(p).Ok? ==> verify(hash(p).value, p)
  }

  /** A user who was created can sign in with the same password. */
  lemma CreateThenAuthenticate(users: Users, email: string, password: string, name: string, now: int,
                               hash: string -> Result<string, string>, verify: (string, string) -> bool)
    requires Sound(hash, verify)
    requires Create(users, email, password, name, now, hash).reply.Ok?
    ensures var c := Create(users, email, password, name, now, hash);
            Authenticate(c.users, email, password, verify) == Ok(c.reply.value)
  {
  }

  /** Creating one user leaves every other user's sign-in as it was. */
  lemma CreateKeepsOthers(users: Users, email: string, password: string, name: string, now: int,
                          hash: string -> Result<string, string>, verify: (string, string) -> bool,
                          other: string, otherPassword: string)
    requires other != email
    ensures Authenticate(Create(users, email, password, name, now, hash).users, other, otherPassword, verify)
            == Authenticate(users, other, otherPassword, verify)
  {
  }

  /** An unknown email and a wrong password fail identically, so a caller
      cannot tell which addresses are registered. */
  lemma FailuresIndistinguishable(users: Users, unknown: string, known: string, p1: string, p2: string,
                                  verify: (string, string) -> bool)
    requires unknown !in users
    requires known in users && !verify(users[known].passwordHash, p2)
    ensures Authenticate(users, unknown, p1, verify) == Authenticate(users, known, p2, verify)
  {
  }

  /** A second registration of an address is refused whatever its password
      and name, and the first registration stays in force. */
  lemma DuplicateRefused(users: Users, email: string, p1: string, p2: string, n1: string, n2: string,
                         t1: int, t2: int, hash: string -> Result<string, string>)
    requires Create(users, email, p1, n1, t1, hash).reply.Ok?
    ensures var first := Create(users, email, p1, n1, t1, hash);
            Create(first.users, email, p2, n2, t2, hash) == Created(first.users, Err("user already exists"))
  {
  }
}

=== FILE: websocket_client.dfy ===
/** The browser's live-log client (frontend/src/services/websocket.ts): the
    subscriber list, message dispatch, and the reconnect policy. Handlers
    are compared by identity, so they are modelled by identifiers. */
module WebSocketClient {
  import opened Wrappers

  type HandlerId = nat

  datatype LogMessage = LogMessage(timestamp: string, level: string, message: string)

  // ---------------------------------------------------------------------
  // Subscribers
  // ---------------------------------------------------------------------

  /** `handlers.push(handler)`. */
  function Subscribe(hs: seq<HandlerId>, h: HandlerId): (r: seq<HandlerId>)
    ensures |r| == |hs| + 1 && r[..|hs|] == hs && r[|hs|] == h
  {
    hs + [h]
  }

  /** The returned closure: `handlers.filter(x => x !== handler)`. */
  function Unsubscribe(hs: seq<HandlerId>, h: HandlerId): (r: seq<HandlerId>)
    ensures h !in r
    ensures multiset(r) == multiset(hs)[h := 0]
  {
    if |hs| == 0 then []
    else
      assert hs == [hs[0]] + hs[1..];
      (if hs[0] == h then [] else [hs[0]]) + Unsubscribe(hs[1..], h)
  }

  /** Filtering distributes over concatenation, so the other handlers keep
      their relative order. */
  lemma UnsubscribeAppend(a: seq<HandlerId>, b: seq<HandlerId>, h: HandlerId)
    ensures Unsubscribe(a + b, h) == Unsubscribe(a, h) + Unsubscribe(b, h)
  {
    if |a| > 0 {
      assert (a + b)[0] == a[0];
      assert (a + b)[1..] == a[1..] + b;
      UnsubscribeAppend(a[1..], b, h);
      var head := if a[0] == h then [] else [a[0]];
      assert Unsubscribe(a + b, h) == head + (Unsubscribe(a[1..], h) + Unsubscribe(b, h));
      assert Unsubscribe(a, h) == head + Unsubscribe(a[1..], h);
    } else {
      assert a + b == b;
    }
  }

  /** Removing a handler that is not subscribed changes nothing. */
  lemma {:induction false} UnsubscribeAbsent(hs: seq<HandlerId>, h: HandlerId)
    requires h !in hs
    ensures Unsubscribe(hs, h) == hs
    decreases |hs|
  {
    if |hs| > 0 {
      assert hs[0] != h;
      assert h !in hs[1..];
      UnsubscribeAbsent(hs[1..], h);
      assert Unsubscribe(hs, h) == [hs[0]] + hs[1..];
    }
  }

  /** Subscribing then unsubscribing a new handler restores the list. */
  lemma SubscribeUnsubscribeRoundTrip(hs: seq<HandlerId>, h: HandlerId)
    requires h !in hs
    ensures Unsubscribe(Subscribe(hs, h), h) == hs
  {
    UnsubscribeAppend(hs, [h], h);
    UnsubscribeAbsent(hs, h);
  }

  /** A handler subscribed twice is removed entirely by one unsubscribe. */
  lemma UnsubscribeRemovesAll(hs: seq<HandlerId>, h: HandlerId)
    ensures Unsubscribe(Subscribe(Subscribe(hs, h), h), h) == Unsubscribe(hs, h)
  {
    assert Subscribe(Subscribe(hs, h), h) == hs + [h, h];
    UnsubscribeAppend(hs, [h, h], h);
    assert [h, h][1..] == [h];
    assert [h][1..] == [];
    assert Unsubscribe([h], h) == [];
    assert Unsubscribe([h, h], h) == [];
  }

  /** Unsubscribing is idempotent. */
  lemma UnsubscribeIdempotent(hs: seq<HandlerId>, h: HandlerId)
    ensures Unsubscribe(Unsubscribe(hs, h), h) == Unsubscribe(hs, h)
  {
    UnsubscribeAbsent(Unsubscribe(hs, h), h);
  }

  // ---------------------------------------------------------------------
  // Dispatch
  // ---------------------------------------------------------------------

  /** What a handler does to the subscriber list while it runs. */
  datatype Reaction = Subscribes(h: HandlerId) | Unsubscribes(h: HandlerId)

  function React(hs: seq<HandlerId>, rs: seq<Reaction>): seq<HandlerId>
    decreases |rs|
  {
    if |rs| == 0 then hs
    else
      var next := match rs[0]
        case Subscribes(h) => Subscribe(hs, h)
        case Unsubscribes(h) => Unsubscribe(hs, h);
      React(next, rs[1..])
  }

  /** The reactions of the handlers in `called`, in call order. */
  function AllReactions(called: seq<HandlerId>, reactions: HandlerId -> seq<Reaction>): seq<Reaction> {
    if |called| == 0 then [] else AllReactions(called[..|called| - 1], reactions) + reactions(called[|called| - 1])
  }

  lemma {:induction false} ReactAppend(hs: seq<HandlerId>, a: seq<Reaction>, b: seq<Reaction>)
    ensures React(hs, a + b) == React(React(hs, a), b)
    decreases |a|
  {
    if |a| > 0 {
      assert (a + b)[0] == a[0];
      assert (a + b)[1..] == a[1..] + b;
      var next := match a[0]
        case Subscribes(h) => Subscribe(hs, h)
        case Unsubscribes(h) => Unsubscribe(hs, h);
      ReactAppend(next, a[1..], b);
    } else {
      assert a + b == b;
    }
  }

  /** Calling one more handler applies its reactions after the earlier ones. */
  lemma DispatchStep(handlers: seq<HandlerId>, called: seq<HandlerId>, i: nat, reactions: HandlerId -> seq<Reaction>)
    requires i < |called|
    ensures React(handlers, AllReactions(called[..i + 1], reactions))
            == React(React(handlers, AllReactions(called[..i], reactions)), reactions(called[i]))
  {
    assert AllReactions(called[..i + 1], reactions) == AllReactions(called[..i], reactions) + reactions(called[i]) by {
      assert called[..i + 1][..i] == called[..i];
      assert called[..i + 1][i] == called[i];
    }
    ReactAppend(handlers, AllReactions(called[..i], reactions), reactions(called[i]));
  }

  /** One handler's turn: its reactions apply to the list the earlier
      turns left. */
  method ApplyReactions(handlers: seq<HandlerId>, called: seq<HandlerId>, i: nat, current: seq<HandlerId>,
                        reactions: HandlerId -> seq<Reaction>) returns (next: seq<HandlerId>)
    requires i < |called| && current == React(handlers, AllReactions(called[..i], reactions))
    ensures next == React(handlers, AllReactions(called[..i + 1], reactions))
  {
    DispatchStep(handlers, called, i, reactions);
    next := React(current, reactions(called[i]));
  }

  /** The handlers a dispatch reaches: each in list order, up to and
      including the first in `throwing`, the handlers that throw on this
      message, since a throw ends `forEach`. */
  function Reached(hs: seq<HandlerId>, throwing: set<HandlerId>): seq<HandlerId> {
    if |hs| == 0 then []
    else if hs[0] in throwing then [hs[0]]
    else [hs[0]] + Reached(hs[1..], throwing)
  }

  /** The reached handlers are a prefix of the list; none of them but
      the last throws, and the walk stops short only at a handler that
      throws. */
  lemma {:induction false} ReachedShape(hs: seq<HandlerId>, throwing: set<HandlerId>)
    ensures var r := Reached(hs, throwing);
            && |r| <= |hs| && r == hs[..|r|]
            && (forall k :: 0 <= k < |r| - 1 ==> r[k] !in throwing)
            && (|r| < |hs| ==> |r| > 0 && r[|r| - 1] in throwing)
    decreases |hs|
  {
    if |hs| > 0 && hs[0] !in throwing {
      ReachedShape(hs[1..], throwing);
      var r := Reached(hs, throwing);
      var t := Reached(hs[1..], throwing);
      assert r == [hs[0]] + t;
      forall k | 0 <= k < |r| - 1
        ensures r[k] !in throwing
      {
        if k > 0 { assert r[k] == t[k - 1]; }
      }
    }
  }

  /** Past a run of handlers that do not throw, the dispatch goes on with
      the rest of the list. */
  lemma {:induction false} ReachedPast(hs: seq<HandlerId>, throwing: set<HandlerId>, i: nat)
    requires i <= |hs|
    requires forall k :: 0 <= k < i ==> hs[k] !in throwing
    ensures Reached(hs, throwing) == hs[..i] + Reached(hs[i..], throwing)
    decreases i
  {
    if i > 0 {
      var t := hs[1..];
      forall k | 0 <= k < i - 1
        ensures t[k] !in throwing
      {
        assert t[k] == hs[k + 1];
      }
      ReachedPast(t, throwing, i - 1);
      assert Reached(hs, throwing) == [hs[0]] + Reached(t, throwing);
      assert t[..i - 1] == hs[1..i];
      assert t[i - 1..] == hs[i..];
      assert hs[..i] == [hs[0]] + hs[1..i];
    }
  }

  /** When no handler throws, every handler is reached. */
  lemma NoThrowReachesAll(hs: seq<HandlerId>, throwing: set<HandlerId>)
    requires forall k :: 0 <= k < |hs| ==> hs[k] !in throwing
    ensures Reached(hs, throwing) == hs
  {
    ReachedPast(hs, throwing, |hs|);
    assert hs[..|hs|] == hs && hs[|hs|..] == [];
  }

  /** The dispatch stops right after the first handler that throws. */
  lemma {:induction false} ReachedStops(hs: seq<HandlerId>, throwing: set<HandlerId>, i: nat)
    requires 0 < i <= |hs| && hs[i - 1] in throwing
    requires forall k :: 0 <= k < i - 1 ==> hs[k] !in throwing
    ensures Reached(hs, throwing) == hs[..i]
    decreases i
  {
    if i == 1 {
      assert hs[..1] == [hs[0]];
    } else {
      var t := hs[1..];
      forall k | 0 <= k < i - 2
        ensures t[k] !in throwing
      {
        assert t[k] == hs[k + 1];
      }
      assert t[i - 2] == hs[i - 1];
      ReachedStops(t, throwing, i - 1);
      assert Reached(hs, throwing) == [hs[0]] + Reached(t, throwing);
      assert t[..i - 1] == hs[1..i];
      assert hs[..i] == [hs[0]] + hs[1..i];
    }
  }

  /** notifyHandlers: `forEach` walks the list as it was when dispatch
      began; `filter` replaces the list rather than editing it, and `push`
      lands beyond the walked range. So the handlers subscribed at the
      start receive the message once each, in registration order, whatever
      they subscribe or unsubscribe meanwhile, until one of them throws:
      that one ends the walk and the exception propagates. */
  method Notify(handlers: seq<HandlerId>, reactions: HandlerId -> seq<Reaction>, throwing: set<HandlerId>)
    returns (delivered: seq<HandlerId>, after: seq<HandlerId>, raised: bool)
    ensures delivered == Reached(handlers, throwing)
    ensures raised <==> exists k :: 0 <= k < |handlers| && handlers[k] in throwing
    ensures after == React(handlers, AllReactions(delivered, reactions))
  {
    var n;
    n, raised := FirstThrow(handlers, throwing);
    if raised {
      ReachedStops(handlers, throwing, n);
    } else {
      NoThrowReachesAll(handlers, throwing);
      assert handlers[..n] == handlers;
    }
    delivered := handlers[..n];
    after := Dispatch(handlers, delivered, reactions);
  }

  /** How far `forEach` gets: up to and including the first handler that
      throws, or through the whole list. */
  method FirstThrow(handlers: seq<HandlerId>, throwing: set<HandlerId>) returns (n: nat, raised: bool)
    ensures n <= |handlers|
    ensures !raised ==> n == |handlers| && forall k :: 0 <= k < n ==> handlers[k] !in throwing
    ensures raised ==> 0 < n && handlers[n - 1] in throwing && forall k :: 0 <= k < n - 1 ==> handlers[k] !in throwing
  {
    raised := false;
    n := 0;
    while n < |handlers|
      invariant 0 <= n <= |handlers|
      invariant forall k :: 0 <= k < n ==> handlers[k] !in throwing
    {
      n := n + 1;
      if handlers[n - 1] in throwing {
        raised := true;
        break;
      }
    }
  }

  /** The calls themselves: each handler reached sees the list its
      predecessors left. */
  method Dispatch(handlers: seq<HandlerId>, called: seq<HandlerId>, reactions: HandlerId -> seq<Reaction>)
    returns (after: seq<HandlerId>)
    ensures after == React(handlers, AllReactions(called, reactions))
  {
    after := handlers;
    var i := 0;
    while i < |called|
      invariant 0 <= i <= |called|
      invariant after == React(handlers, AllReactions(called[..i], reactions))
    {
      after := ApplyReactions(handlers, called, i, after, reactions);
      i := i + 1;
    }
    assert called[..i] == called;
  }

  /** A frame whose text is valid JSON or not. */
  datatype Frame = Parsed(msg: LogMessage) | Malformed

  /** onmessage: a malformed frame is logged and dropped, reaching no
      handler; a parsed one is dispatched. An exception from a handler is
      caught by the same `catch` and only logged, so nothing escapes. */
  method OnMessage(handlers: seq<HandlerId>, frame: Frame, reactions: HandlerId -> seq<Reaction>,
                   throwing: set<HandlerId>)
    returns (delivered: seq<HandlerId>, after: seq<HandlerId>)
    ensures frame.Malformed? ==> delivered == [] && after == handlers
    ensures frame.Parsed? ==> delivered == Reached(handlers, throwing)
    ensures frame.Parsed? ==> after == React(handlers, AllReactions(delivered, reactions))
    ensures frame.Parsed? && (forall k :: 0 <= k < |handlers| ==> handlers[k] !in throwing) ==> delivered == handlers
  {
    if frame.Malformed? {
      return [], handlers;
    }
    var raised;
    delivered, after, raised := Notify(handlers, reactions, throwing);
    if forall k :: 0 <= k < |handlers| ==> handlers[k] !in throwing {
      NoThrowReachesAll(handlers, throwing);
    }
  }

  // ---------------------------------------------------------------------
  // Connection and reconnect policy
  // ---------------------------------------------------------------------

  const ReconnectDelayMs := 3000

  datatype Phase = Connecting | Open | Closing | Closed

  /** The socket's phase, the reconnect timers still pending, and how many
      sockets `connect` has opened. The 3000 ms delay is a constant of each
      timer; time itself is abstract. */
  datatype Connection = Connection(phase: Phase, pendingTimers: nat, sockets: nat)

  datatype Event = OpenEvent | CloseEvent | ErrorEvent | TimerFires

  /** `connect()` on a fresh service. */
  const FirstConnect := Connection(Connecting, 0, 1)

  /** onopen only logs; onclose schedules exactly one `connect` after the
      delay; onerror closes the socket, whose close event then follows; a
      firing timer calls `connect`, opening a new socket. Nothing limits
      the number of retries. */
  function Step(c: Connection, e: Event): (r: Connection)
    ensures e == CloseEvent ==> r.pendingTimers == c.pendingTimers + 1 && r.phase == Closed
    ensures e == ErrorEvent ==> r.pendingTimers == c.pendingTimers && r.sockets == c.sockets
    ensures e == TimerFires && c.pendingTimers > 0 ==>
              r.pendingTimers == c.pendingTimers - 1 && r.sockets == c.sockets + 1 && r.phase == Connecting
  {
    match e
    case OpenEvent => c.(phase := Open)
    case CloseEvent => c.(phase := Closed, pendingTimers := c.pendingTimers + 1)
    case ErrorEvent => c.(phase := Closing)
    case TimerFires =>
      if c.pendingTimers == 0 then c
      else Connection(Connecting, c.pendingTimers - 1, c.sockets + 1)
  }

  function Run(c: Connection, events: seq<Event>): Connection {
    if |events| == 0 then c else Step(Run(c, events[..|events| - 1]), events[|events| - 1])
  }

  function CountCloses(events: seq<Event>): nat {
    if |events| == 0 then 0
    else CountCloses(events[..|events| - 1]) + (if events[|events| - 1] == CloseEvent then 1 else 0)
  }

  /** Over any run from the first connect, every close has produced exactly
      one reconnect: the timers still pending plus the sockets opened since
      the first equal the number of closes. */
  lemma {:induction false} EveryCloseReconnectsOnce(events: seq<Event>)
    ensures Run(FirstConnect, events).pendingTimers + (Run(FirstConnect, events).sockets - 1)
            == CountCloses(events)
    ensures Run(FirstConnect, events).sockets >= 1
    decreases |events|
  {
    if |events| > 0 {
      EveryCloseReconnectsOnce(events[..|events| - 1]);
    }
  }

  /** An error alone schedules nothing; an error followed by its close
      schedules exactly one reconnect. */
  lemma ErrorThenCloseReconnects(c: Connection)
    ensures Step(c, ErrorEvent).pendingTimers == c.pendingTimers
    ensures Run(c, [ErrorEvent, CloseEvent]).pendingTimers == c.pendingTimers + 1
    ensures Run(Run(c, [ErrorEvent, CloseEvent]), [TimerFires]).sockets == c.sockets + 1
  {
    var both := [ErrorEvent, CloseEvent];
    assert both[..1] == [ErrorEvent];
    assert [ErrorEvent][..0] == [];
    assert Run(c, [ErrorEvent]) == Step(c, ErrorEvent);
    assert Run(c, both) == Step(Step(c, ErrorEvent), CloseEvent);
    var d := Run(c, both);
    assert [TimerFires][..0] == [];
    assert Run(d, [TimerFires]) == Step(d, TimerFires);
  }

  // ---------------------------------------------------------------------
  // The service
  // ---------------------------------------------------------------------

  datatype Service = Service(handlers: seq<HandlerId>, conn: Connection)

  /** Connection events replace the socket but keep the subscriber list,
      so subscriptions survive reconnects. */
  function OnConnectionEvent(s: Service, e: Event): (r: Service)
    ensures r.handlers == s.handlers
    ensures r.conn == Step(s.conn, e)
  {
    s.(conn := Step(s.conn, e))
  }
}

=== FILE: wrappers.dfy ===
/** Failure-carrying result types shared by every module of the model.
    Go's `(value, error)` pairs become `Result`, a bare `error` becomes
    `Outcome`, and nil references or missing JSON fields become `Option`. */
module Wrappers {

  datatype Option<+T> = None | Some(value: T) {
    function GetOr(default: T): T {
      match this
      case Some(v) => v
      case None => default
    }
  }

  datatype Result<+T, +E> = Ok(value: T) | Err(error: E)

  datatype Outcome<+E> = Success | Failure(error: E)
}
